=== FILE: README.md ===
# Arabic morphology engine — a Dafny model

This project models the core of an Arabic morphological generator. A trilateral root such as
كتب is classified by where its weak letters (waw, ya, alif) sit. Its letters fill the
placeholders `{1}`, `{2}` and `{3}` of a scheme pattern such as `م{1}{2}و{3}`. Then the
transformation groups chosen by the root's category rewrite the word.

The engine keeps three stores:

- **Root index.** Roots live in an AVL tree ordered by `String.compareTo`. Each node carries the
  derivatives generated from it, each a word with a frequency.
- **Scheme table.** Scheme patterns live in a hand-written chained hash table; `addScheme` stores whatever pattern it is given, null included. The service uses
  the fixed 16-bucket variant; a second, resizable variant keeps an entry count and doubles its
  capacity past a load factor of 0.75.
- **Transformation groups.** Each group is a key such as `ajwaf_فاعل` plus an ordered list of
  `replace`/`replace_final` rules. They are held as a list for administration and as a map from
  key to operations for generation, and saved to and loaded from a line-oriented text file.

Modules, one per part of the program:

| module | models |
|---|---|
| `Wrappers` | `Option` for a nullable reference, `Result` for a value or the exception thrown instead |
| `JavaString` | the `java.lang.String` behaviour the code relies on: `compareTo`, `replace`, `trim`, `split`, `equalsIgnoreCase` (ASCII), `hashCode` with 32-bit wrap-around, truncating `%` |
| `RootAnalyzer` | `RootAnalyzer` and the `RootType` categories |
| `AvlTree` | the back-end `AVLTree`, with in-order listing as the reference for insertion |
| `HashChains` | the separate chaining both `ManualHashTable` variants share |
| `ResizableTable` | the back-end `ManualHashTable` (entry count, load factor, `resize`) |
| `FixedTable` | the service's 16-bucket `ManualHashTable` |
| `Transformations` | `TransformationRule`, `TransformationGroup`, the rebuilt operation map and `applyTransformations` |
| `Rewrite` | `applyRule`: pattern filling, category dispatch, exception group, tanwin post-step |
| `RulesFormat` | `parseRules` and the text the saver writes for rules and group lines |
| `TransformationsFile` | the transformations file: the loader's line reading and the saver's layout |
| `GroupList` | the group list edits: lookup, save and delete by key, ignoring case |
| `Service` | `MorphologyServiceImpl` as a state record (tree, schemes, groups, map) threaded through its operations |

Java exceptions become `Err` values:

- an unknown root or scheme in `generate`;
- a scheme whose `get` is null in `updateScheme`/`deleteScheme`: one with no entry or with a null pattern;
- `IllegalArgumentException` from `detectRootType`;
- the array index failure of `extractOriginalLetters` and `applyRule` on short roots;
- the `NullPointerException` of a `replace` operation missing its `from` or `to`, and of `applyRule` on a null scheme pattern.

Some behaviour of the code worth knowing before reading the contracts:

- A sound root's category name is lower-cased into the group key, so it consults the group
  `regular_<scheme>` (`MorphologyServiceImpl.java`, line 184).
- A lafif root runs the mithal group, then the lafif group, and the naqis group only when the map
  has no lafif group for the scheme (`MorphologyServiceImpl.java`, lines 171-176).
- `generateAll` records each word as it is produced, so the words recorded before a rule throws
  stay recorded (`MorphologyServiceImpl.java`, lines 133-137).
- A root whose length is not 3 makes `detectRootType` throw `IllegalArgumentException`
  (`RootAnalyzer.java`, lines 25-28); `applyRule` calls it after filling the pattern
  (`MorphologyServiceImpl.java`, lines 161-168).

## Model

| member | source | states |
|---|---|---|
| `RootAnalyzer.DetectRootType` | MoteurMorphologique-main/arabic-morphology-app/arabic-morphology-app/src/main/java/com/morphology/arabic_morphology_app/util/RootAnalyzer.java:25-52 | A root whose length is not 3 is rejected; otherwise the category is LAFIF exactly when two positions hold a weak letter, MITHAL/AJWAF/NAQIS exactly when only the first/middle/last does, REGULAR exactly when none does |
| `RootAnalyzer.ExtractOriginalLetters` | MoteurMorphologique-main/arabic-morphology-app/arabic-morphology-app/src/main/java/com/morphology/arabic_morphology_app/util/RootAnalyzer.java:64-73 | A root of fewer than two letters fails on the array access; otherwise the letters are kept except that a middle alif becomes waw, so the middle letter is never alif |
| `RootAnalyzer.ExtractIdempotent` | MoteurMorphologique-main/arabic-morphology-app/arabic-morphology-app/src/main/java/com/morphology/arabic_morphology_app/util/RootAnalyzer.java:69-71 | Recovering the original letters twice gives what recovering them once gives |
| `RootAnalyzer.ExtractKeepsType` | MoteurMorphologique-main/arabic-morphology-app/arabic-morphology-app/src/main/java/com/morphology/arabic_morphology_app/util/RootAnalyzer.java:64-73 | Recovering the original letters never changes the root's category |
| `RootAnalyzer.RegularExample` | MoteurMorphologique-main/arabic-morphology-app/arabic-morphology-app/src/main/java/com/morphology/arabic_morphology_app/model/RootType.java:10-14 | كتب is classified REGULAR |
| `RootAnalyzer.MithalExample` | MoteurMorphologique-main/arabic-morphology-app/arabic-morphology-app/src/main/java/com/morphology/arabic_morphology_app/model/RootType.java:16-20 | وعد is classified MITHAL |
| `RootAnalyzer.AjwafExample` | MoteurMorphologique-main/arabic-morphology-app/arabic-morphology-app/src/main/java/com/morphology/arabic_morphology_app/model/RootType.java:22-26 | قول is classified AJWAF |
| `RootAnalyzer.NaqisExample` | MoteurMorphologique-main/arabic-morphology-app/arabic-morphology-app/src/main/java/com/morphology/arabic_morphology_app/model/RootType.java:28-32 | رمي is classified NAQIS |
| `RootAnalyzer.LafifExamples` | MoteurMorphologique-main/arabic-morphology-app/arabic-morphology-app/src/main/java/com/morphology/arabic_morphology_app/model/RootType.java:34-38 | وقي and روي are classified LAFIF |
| `JavaString.CompareTo` | MoteurMorphologique-main/arabic-morphology-back/arabic-morphology-app/src/main/java/com/morphology/arabic_morphology_app/storage/AVLTree.java:117 | `compareTo` is zero exactly for equal strings |
| `JavaString.LessTransitive` | MoteurMorphologique-main/arabic-morphology-back/arabic-morphology-app/src/main/java/com/morphology/arabic_morphology_app/storage/AVLTree.java:129-131 | The order the tree uses is transitive (with `LessTotal`, `LessAsymmetric`: a strict total order) |
| `JavaString.LessTotal` | MoteurMorphologique-main/arabic-morphology-back/arabic-morphology-app/src/main/java/com/morphology/arabic_morphology_app/storage/AVLTree.java:129-135 | Two different keys are ordered one way or the other, so `insert` never reaches its duplicate branch for a new key |
| `JavaString.Trim` | MoteurMorphologique-main/arabic-morphology-app/arabic-morphology-app/src/main/java/com/morphology/arabic_morphology_app/Service/MorphologyServiceImpl.java:238 | `trim` gives a trimmed substring of its input and leaves a trimmed string alone |
| `JavaString.ReplaceLength` | MoteurMorphologique-main/arabic-morphology-app/arabic-morphology-app/src/main/java/com/morphology/arabic_morphology_app/Service/MorphologyServiceImpl.java:215 | `replace` changes the length by the difference of target and replacement lengths for each match its scan finds |
| `JavaString.ReplaceAbsent` | MoteurMorphologique-main/arabic-morphology-app/arabic-morphology-app/src/main/java/com/morphology/arabic_morphology_app/Service/MorphologyServiceImpl.java:215 | `replace` leaves a string without the (non-empty) target unchanged |
| `JavaString.SplitJoin` | MoteurMorphologique-main/arabic-morphology-app/arabic-morphology-app/src/main/java/com/morphology/arabic_morphology_app/Service/MorphologyServiceImpl.java:266 | `split` on a separator recovers the pieces of a join whose pieces avoid the separator and whose last piece is not empty |
| `JavaString.SplitFirstJoin` | MoteurMorphologique-main/arabic-morphology-app/arabic-morphology-app/src/main/java/com/morphology/arabic_morphology_app/Service/MorphologyServiceImpl.java:248 | `split(sep, 2)` of `a + sep + b` gives back `a` and `b` when `a` has no separator |
| `JavaString.EqualsIgnoreCaseFacts` | MoteurMorphologique-main/arabic-morphology-app/arabic-morphology-app/src/main/java/com/morphology/arabic_morphology_app/Service/MorphologyServiceImpl.java:348 | Case-insensitive key equality is reflexive, symmetric and transitive and matches keys differing only in ASCII case |
| `JavaString.Int32` | MoteurMorphologique-main/arabic-morphology-back/arabic-morphology-app/src/main/java/com/morphology/arabic_morphology_app/model/TransformationRule.java:115-117 | The `int` a hash computation wraps to is in the 32-bit range and congruent to the exact value |
| `AvlTree.Insert` | MoteurMorphologique-main/arabic-morphology-back/arabic-morphology-app/src/main/java/com/morphology/arabic_morphology_app/storage/AVLTree.java:125-168 | Insertion keeps the tree ordered, balanced and with correct heights; the keys become the old keys plus the new one; the in-order listing is the sorted-list insertion of the key; height grows by at most one; an existing key returns the same tree; into an empty tree it is a single node of height 1 with no derivatives |
| `AvlTree.OrderedIffSorted` | MoteurMorphologique-main/arabic-morphology-back/arabic-morphology-app/src/main/java/com/morphology/arabic_morphology_app/storage/AVLTree.java:92-104 | Search-tree order holds exactly when the in-order listing is strictly increasing |
| `AvlTree.KeysListed` | MoteurMorphologique-main/arabic-morphology-back/arabic-morphology-app/src/main/java/com/morphology/arabic_morphology_app/storage/AVLTree.java:92-104 | The in-order listing holds exactly the keys of the tree |
| `AvlTree.InsertSortedRoots` | MoteurMorphologique-main/arabic-morphology-back/arabic-morphology-app/src/main/java/com/morphology/arabic_morphology_app/storage/AVLTree.java:62-64 | Insertion adds the key to the root set and nothing else |
| `AvlTree.InsertSortedPresent` | MoteurMorphologique-main/arabic-morphology-back/arabic-morphology-app/src/main/java/com/morphology/arabic_morphology_app/storage/AVLTree.java:133-135 | Inserting a key already present changes nothing, derivative lists included |
| `AvlTree.InsertSortedSorted` | MoteurMorphologique-main/arabic-morphology-back/arabic-morphology-app/src/main/java/com/morphology/arabic_morphology_app/storage/AVLTree.java:125-135 | Sorted-list insertion keeps the listing strictly increasing |
| `AvlTree.InsertSortedSplices` | MoteurMorphologique-main/arabic-morphology-back/arabic-morphology-app/src/main/java/com/morphology/arabic_morphology_app/storage/AVLTree.java:127 | Insertion either changes nothing or splices in one fresh record with no derivatives |
| `AvlTree.RightRotate` | MoteurMorphologique-main/arabic-morphology-back/arabic-morphology-app/src/main/java/com/morphology/arabic_morphology_app/storage/AVLTree.java:185-198 | A right rotation keeps the in-order listing |
| `AvlTree.LeftRotate` | MoteurMorphologique-main/arabic-morphology-back/arabic-morphology-app/src/main/java/com/morphology/arabic_morphology_app/storage/AVLTree.java:203-216 | A left rotation keeps the in-order listing |
| `AvlTree.RotateRightRestores` | MoteurMorphologique-main/arabic-morphology-back/arabic-morphology-app/src/main/java/com/morphology/arabic_morphology_app/storage/AVLTree.java:145-148 | Left-left case: one right rotation yields correct heights and balance, at the height of the old left child |
| `AvlTree.RotateLeftRestores` | MoteurMorphologique-main/arabic-morphology-back/arabic-morphology-app/src/main/java/com/morphology/arabic_morphology_app/storage/AVLTree.java:150-153 | Right-right case: one left rotation yields correct heights and balance |
| `AvlTree.RotateLeftRightRestores` | MoteurMorphologique-main/arabic-morphology-back/arabic-morphology-app/src/main/java/com/morphology/arabic_morphology_app/storage/AVLTree.java:155-159 | Left-right case: left-rotating the left child then right-rotating yields correct heights and balance |
| `AvlTree.RotateRightLeftRestores` | MoteurMorphologique-main/arabic-morphology-back/arabic-morphology-app/src/main/java/com/morphology/arabic_morphology_app/storage/AVLTree.java:161-165 | Right-left case: the mirror image |
| `AvlTree.Rebalance` | MoteurMorphologique-main/arabic-morphology-back/arabic-morphology-app/src/main/java/com/morphology/arabic_morphology_app/storage/AVLTree.java:137-167 | After a child insertion the node's height is refreshed and the matching rotation applied; the result has correct heights and balance and the same listing, and an already balanced node only gets its height refreshed |
| `AvlTree.HeightNonNegative` | MoteurMorphologique-main/arabic-morphology-back/arabic-morphology-app/src/main/java/com/morphology/arabic_morphology_app/storage/AVLTree.java:174-176 | Stored heights are non-negative and at least 1 for a node |
| `AvlTree.Find` | MoteurMorphologique-main/arabic-morphology-back/arabic-morphology-app/src/main/java/com/morphology/arabic_morphology_app/storage/AVLTree.java:113-120 | A node `find` reaches has the target as root and is listed; in a search tree it reaches a node exactly when the key is present |
| `AvlTree.Contains` | MoteurMorphologique-main/arabic-morphology-back/arabic-morphology-app/src/main/java/com/morphology/arabic_morphology_app/storage/AVLTree.java:71-73 | In a search tree `contains` holds exactly for present keys |
| `AvlTree.FindIsListed` | MoteurMorphologique-main/arabic-morphology-back/arabic-morphology-app/src/main/java/com/morphology/arabic_morphology_app/storage/AVLTree.java:80-82 | In a search tree `find` returns a node with list `ds` exactly when the listing holds that root with `ds` |
| `AvlTree.SetDerivatives` | MoteurMorphologique-main/arabic-morphology-app/arabic-morphology-app/src/main/java/com/morphology/arabic_morphology_app/Service/MorphologyServiceImpl.java:406-414 | Changing the derivative list of the node `find` reaches keeps shape, heights, balance and every root; in a search tree the listing changes only in that root's list |
| `AvlTree.SetDerivativesValid` | MoteurMorphologique-main/arabic-morphology-app/arabic-morphology-app/src/main/java/com/morphology/arabic_morphology_app/Service/MorphologyServiceImpl.java:406-414 | Changing a node's derivative list keeps the tree a valid AVL tree with the same keys |
| `HashChains.BucketIndex` | MoteurMorphologique-main/arabic-morphology-back/arabic-morphology-app/src/main/java/com/morphology/arabic_morphology_app/storage/ManualHashTable.java:64-66 | `Math.abs(hashCode % capacity)` is a valid bucket index |
| `HashChains.ChainGet` | MoteurMorphologique-main/arabic-morphology-back/arabic-morphology-app/src/main/java/com/morphology/arabic_morphology_app/storage/ManualHashTable.java:112-123 | The chain search finds a value exactly for keys in the chain, and the value is that of an entry with the key |
| `HashChains.ChainPut` | MoteurMorphologique-main/arabic-morphology-back/arabic-morphology-app/src/main/java/com/morphology/arabic_morphology_app/storage/ManualHashTable.java:83-98 | A present key's first entry gets the value in place and every other entry stays at its position; a new key is prepended; the key then reads the new value and others are unchanged; keys stay unique |
| `HashChains.ChainSet` | MoteurMorphologique-main/arabic-morphology-app/arabic-morphology-app/src/main/java/com/morphology/arabic_morphology_app/storage/ManualHashTable.java:71-77 | The walk of `put` along a bucket: the first entry with the key gets the new value, every other entry stays as it was, at the same position |
| `HashChains.ChainRemove` | MoteurMorphologique-main/arabic-morphology-back/arabic-morphology-app/src/main/java/com/morphology/arabic_morphology_app/storage/ManualHashTable.java:133-151 | Unlinking returns the key's old value or null; a found entry shortens the chain by one and the key is then absent; other keys are unchanged |
| `HashChains.Store` | MoteurMorphologique-main/arabic-morphology-back/arabic-morphology-app/src/main/java/com/morphology/arabic_morphology_app/storage/ManualHashTable.java:79-98 | On a bucket array: the key reads the new value, others are unchanged, the entry count grows by one exactly for a new key, the chaining invariant is kept |
| `HashChains.Delete` | MoteurMorphologique-main/arabic-morphology-back/arabic-morphology-app/src/main/java/com/morphology/arabic_morphology_app/storage/ManualHashTable.java:130-154 | On a bucket array: returns the old value, changes nothing for an absent key, removes one entry for a present one and leaves other keys unchanged |
| `HashChains.FlattenUnique` | MoteurMorphologique-main/arabic-morphology-back/arabic-morphology-app/src/main/java/com/morphology/arabic_morphology_app/storage/ManualHashTable.java:166-176 | `getAll` lists every stored key exactly once, and lists exactly the keys `get` finds |
| `HashChains.LookupListed` | MoteurMorphologique-main/arabic-morphology-back/arabic-morphology-app/src/main/java/com/morphology/arabic_morphology_app/storage/ManualHashTable.java:112-123 | `get` agrees with the entry for the key in `getAll` |
| `ResizableTable.New` | MoteurMorphologique-main/arabic-morphology-back/arabic-morphology-app/src/main/java/com/morphology/arabic_morphology_app/storage/ManualHashTable.java:49-52 | A new table has the requested capacity, no entries, and answers null for every key |
| `ResizableTable.Default` | MoteurMorphologique-main/arabic-morphology-back/arabic-morphology-app/src/main/java/com/morphology/arabic_morphology_app/storage/ManualHashTable.java:40-43 | The default table has 16 buckets and no entries |
| `ResizableTable.GetAllListsTable` | MoteurMorphologique-main/arabic-morphology-back/arabic-morphology-app/src/main/java/com/morphology/arabic_morphology_app/storage/ManualHashTable.java:166-176 | `getAll` lists each stored key once with the value `get` returns, and its length is `size` |
| `ResizableTable.Place` | MoteurMorphologique-main/arabic-morphology-back/arabic-morphology-app/src/main/java/com/morphology/arabic_morphology_app/storage/ManualHashTable.java:82-98 | `put` before the load check: the key reads the value, other keys are unchanged, size grows by one exactly for a new key |
| `ResizableTable.Rehash` | MoteurMorphologique-main/arabic-morphology-back/arabic-morphology-app/src/main/java/com/morphology/arabic_morphology_app/storage/ManualHashTable.java:199-205 | The re-put loop keeps the capacity, the load bound and the chaining invariant, and keeps `size` equal to the entry count |
| `ResizableTable.RehashGet` | MoteurMorphologique-main/arabic-morphology-back/arabic-morphology-app/src/main/java/com/morphology/arabic_morphology_app/storage/ManualHashTable.java:199-205 | After re-putting entries with distinct keys each of them reads its value and every other key reads as before |
| `ResizableTable.RehashSize` | MoteurMorphologique-main/arabic-morphology-back/arabic-morphology-app/src/main/java/com/morphology/arabic_morphology_app/storage/ManualHashTable.java:196-205 | Re-putting distinct absent keys counts each of them once |
| `ResizableTable.Resize` | MoteurMorphologique-main/arabic-morphology-back/arabic-morphology-app/src/main/java/com/morphology/arabic_morphology_app/storage/ManualHashTable.java:192-206 | `resize` keeps every key's value and the entry count, and the table takes the new capacity |
| `ResizableTable.Put` | MoteurMorphologique-main/arabic-morphology-back/arabic-morphology-app/src/main/java/com/morphology/arabic_morphology_app/storage/ManualHashTable.java:79-104 | A null key changes nothing; otherwise the key reads the value, other keys are unchanged, an existing key keeps size and capacity, a new key adds one to size, capacity stays or doubles, and size stays within 0.75 of capacity |
| `ResizableTable.Remove` | MoteurMorphologique-main/arabic-morphology-back/arabic-morphology-app/src/main/java/com/morphology/arabic_morphology_app/storage/ManualHashTable.java:130-154 | A null key returns null; otherwise returns the old value, the key is then absent, other keys are unchanged, size drops by one exactly when something was removed |
| `ResizableTable.Size` | MoteurMorphologique-main/arabic-morphology-back/arabic-morphology-app/src/main/java/com/morphology/arabic_morphology_app/storage/ManualHashTable.java:212-214 | `size()` is the number of entries `getAll` lists and is within the load bound |
| `FixedTable.Empty` | MoteurMorphologique-main/arabic-morphology-app/arabic-morphology-app/src/main/java/com/morphology/arabic_morphology_app/storage/ManualHashTable.java:38-40 | A new table has 16 empty buckets and answers null for every key |
| `FixedTable.Hash` | MoteurMorphologique-main/arabic-morphology-app/arabic-morphology-app/src/main/java/com/morphology/arabic_morphology_app/storage/ManualHashTable.java:52-54 | The bucket index is in [0, 16) |
| `FixedTable.Get` | MoteurMorphologique-main/arabic-morphology-app/arabic-morphology-app/src/main/java/com/morphology/arabic_morphology_app/storage/ManualHashTable.java:92-103 | Returns the value of the first entry of the key's bucket whose key equals it, a null pattern included, and null when the key has no entry |
| `FixedTable.GetAllListsTable` | MoteurMorphologique-main/arabic-morphology-app/arabic-morphology-app/src/main/java/com/morphology/arabic_morphology_app/storage/ManualHashTable.java:115-125 | `getAll` lists each stored key once with the value `get` returns |
| `FixedTable.Put` | MoteurMorphologique-main/arabic-morphology-app/arabic-morphology-app/src/main/java/com/morphology/arabic_morphology_app/storage/ManualHashTable.java:67-84 | An existing key has its value overwritten in place, the rest of its bucket and every other bucket unchanged; a new key is prepended to the head of its bucket; either way the key then reads the value, null included, and other keys' entries are unchanged |
| `FixedTable.Remove` | MoteurMorphologique-main/arabic-morphology-app/arabic-morphology-app/src/main/java/com/morphology/arabic_morphology_app/storage/ManualHashTable.java:154-177 | A null key returns null; otherwise returns what `get` returned for the key, the key then has no entry, other keys are unchanged, a key without an entry leaves the table as it was, and one with an entry leaves one entry fewer |
| `FixedTable.SameKeysListed` | MoteurMorphologique-main/arabic-morphology-app/arabic-morphology-app/src/main/java/com/morphology/arabic_morphology_app/storage/ManualHashTable.java:115-125 | Tables that answer `get` alike list the same keys |
| `Transformations.RuleEquals` | MoteurMorphologique-main/arabic-morphology-back/arabic-morphology-app/src/main/java/com/morphology/arabic_morphology_app/model/TransformationRule.java:104-112 | Rules are equal exactly when type, from, to and order agree; the comment is ignored |
| `Transformations.RuleHash` | MoteurMorphologique-main/arabic-morphology-back/arabic-morphology-app/src/main/java/com/morphology/arabic_morphology_app/model/TransformationRule.java:115-117 | The hash is a 32-bit value |
| `Transformations.RuleEqualityIgnoresComment` | MoteurMorphologique-main/arabic-morphology-back/arabic-morphology-app/src/main/java/com/morphology/arabic_morphology_app/model/TransformationRule.java:45-50 | A rule rebuilt from its four fields equals it, and changing the comment changes neither equality nor hash |
| `Transformations.RuleHashConsistent` | MoteurMorphologique-main/arabic-morphology-back/arabic-morphology-app/src/main/java/com/morphology/arabic_morphology_app/model/TransformationRule.java:104-117 | Equal rules have equal hashes |
| `Transformations.NewGroup` | MoteurMorphologique-main/arabic-morphology-back/arabic-morphology-app/src/main/java/com/morphology/arabic_morphology_app/model/TransformationGroup.java:37-39 | A new group has the key and no rules |
| `Transformations.GroupEquals` | MoteurMorphologique-main/arabic-morphology-back/arabic-morphology-app/src/main/java/com/morphology/arabic_morphology_app/model/TransformationGroup.java:98-108 | Groups are equal exactly when their keys are, and equal groups hash alike |
| `Transformations.SetRules` | MoteurMorphologique-main/arabic-morphology-back/arabic-morphology-app/src/main/java/com/morphology/arabic_morphology_app/model/TransformationGroup.java:61-63 | A null list is stored as the empty list; key and comment are kept |
| `Transformations.AddRule` | MoteurMorphologique-main/arabic-morphology-back/arabic-morphology-app/src/main/java/com/morphology/arabic_morphology_app/model/TransformationGroup.java:83-88 | A null rule is ignored; otherwise the rule is appended with its order set to its position, keeping the earlier rules and "order = position" |
| `Transformations.AddRules` | MoteurMorphologique-main/arabic-morphology-back/arabic-morphology-app/src/main/java/com/morphology/arabic_morphology_app/model/TransformationGroup.java:83-88 | Adding rules one by one appends each, numbered by its position |
| `Transformations.BuiltGroupIsIndexed` | MoteurMorphologique-main/arabic-morphology-back/arabic-morphology-app/src/main/java/com/morphology/arabic_morphology_app/model/TransformationGroup.java:84 | A group built by `addRule` from a new group numbers its rules 0, 1, 2, … |
| `Transformations.OpOf` | MoteurMorphologique-main/arabic-morphology-app/arabic-morphology-app/src/main/java/com/morphology/arabic_morphology_app/Service/MorphologyServiceImpl.java:294-297 | A rule becomes an operation with its type and `to`, and `from` only for a "replace" rule |
| `Transformations.OpsOf` | MoteurMorphologique-main/arabic-morphology-app/arabic-morphology-app/src/main/java/com/morphology/arabic_morphology_app/Service/MorphologyServiceImpl.java:292-299 | A group's operations are its rules' operations in order |
| `Transformations.Rebuild` | MoteurMorphologique-main/arabic-morphology-app/arabic-morphology-app/src/main/java/com/morphology/arabic_morphology_app/Service/MorphologyServiceImpl.java:290-302 | The map's keys are the group keys |
| `Transformations.RebuildLast` | MoteurMorphologique-main/arabic-morphology-app/arabic-morphology-app/src/main/java/com/morphology/arabic_morphology_app/Service/MorphologyServiceImpl.java:291-301 | A key maps to the operations of the last group with that key |
| `Transformations.RebuildIgnoresComments` | MoteurMorphologique-main/arabic-morphology-app/arabic-morphology-app/src/main/java/com/morphology/arabic_morphology_app/Service/MorphologyServiceImpl.java:290-302 | The map depends only on each group's key and rules, in order, and not on its comment |
| `Transformations.ApplyOp` | MoteurMorphologique-main/arabic-morphology-app/arabic-morphology-app/src/main/java/com/morphology/arabic_morphology_app/Service/MorphologyServiceImpl.java:207-216 | "replace_final" swaps the last character of a non-empty word for `to` (a null `to` reads "null") and never fails; any other type throws exactly when `from` or `to` is null |
| `Transformations.ReplaceOpEffect` | MoteurMorphologique-main/arabic-morphology-app/arabic-morphology-app/src/main/java/com/morphology/arabic_morphology_app/Service/MorphologyServiceImpl.java:214-215 | A "replace" with both operands succeeds, leaves a word without `from` unchanged, changes the length by one difference per match, and is the identity when `from` equals `to` |
| `Transformations.RunOpsAppend` | MoteurMorphologique-main/arabic-morphology-app/arabic-morphology-app/src/main/java/com/morphology/arabic_morphology_app/Service/MorphologyServiceImpl.java:206-217 | Running two lists of operations is running the first, then the second on its result |
| `Transformations.RunSafeOps` | MoteurMorphologique-main/arabic-morphology-app/arabic-morphology-app/src/main/java/com/morphology/arabic_morphology_app/Service/MorphologyServiceImpl.java:206-217 | Operations none of which lacks an operand never throw |
| `Transformations.ApplyTransformations` | MoteurMorphologique-main/arabic-morphology-app/arabic-morphology-app/src/main/java/com/morphology/arabic_morphology_app/Service/MorphologyServiceImpl.java:202-219 | A key with no group returns the word; with safe operations it succeeds; the only failure is a null operand |
| `Transformations.RunOpsError` | MoteurMorphologique-main/arabic-morphology-app/arabic-morphology-app/src/main/java/com/morphology/arabic_morphology_app/Service/MorphologyServiceImpl.java:208-216 | Every failure of an operation list is a null-operand failure |
| `Rewrite.SubstituteIsExpand` | MoteurMorphologique-main/arabic-morphology-app/arabic-morphology-app/src/main/java/com/morphology/arabic_morphology_app/Service/MorphologyServiceImpl.java:164-166 | The three successive `replace` calls equal one left-to-right pass replacing each placeholder by its letter, when the first two letters cannot form part of a placeholder |
| `Rewrite.Dispatch` | MoteurMorphologique-main/arabic-morphology-app/arabic-morphology-app/src/main/java/com/morphology/arabic_morphology_app/Service/MorphologyServiceImpl.java:171-185 | The category dispatch never fails on safe operations |
| `Rewrite.DispatchKeys` | MoteurMorphologique-main/arabic-morphology-app/arabic-morphology-app/src/main/java/com/morphology/arabic_morphology_app/Service/MorphologyServiceImpl.java:171-185 | A category consults one to three groups, and more than one exactly for lafif |
| `Rewrite.DispatchRunsKeys` | MoteurMorphologique-main/arabic-morphology-app/arabic-morphology-app/src/main/java/com/morphology/arabic_morphology_app/Service/MorphologyServiceImpl.java:171-185 | The dispatch runs exactly the groups `DispatchKeys` lists (mithal, lafif, naqis-if-no-lafif for lafif; the category's own group otherwise), in order |
| `Rewrite.ApplyKeysAbsent` | MoteurMorphologique-main/arabic-morphology-app/arabic-morphology-app/src/main/java/com/morphology/arabic_morphology_app/Service/MorphologyServiceImpl.java:203-204 | Keys with no group leave the word unchanged |
| `Rewrite.PostStep` | MoteurMorphologique-main/arabic-morphology-app/arabic-morphology-app/src/main/java/com/morphology/arabic_morphology_app/Service/MorphologyServiceImpl.java:191-195 | Only on the فاعل scheme for naqis, lafif or ajwaf roots, a final ya becomes kasratan; the length and every other letter are kept, and where it applies no final ya remains |
| `Rewrite.ApplyRule` | MoteurMorphologique-main/arabic-morphology-app/arabic-morphology-app/src/main/java/com/morphology/arabic_morphology_app/Service/MorphologyServiceImpl.java:160-197 | A root of fewer than three letters fails on an array index, one of more than three is rejected by classification; on a three-letter root the only failure is a null operand, and with safe operations it succeeds |
| `Rewrite.ApplyStoredRule` | MoteurMorphologique-main/arabic-morphology-app/arabic-morphology-app/src/main/java/com/morphology/arabic_morphology_app/Service/MorphologyServiceImpl.java:160-166 | A present pattern is applied as `applyRule` applies it; a null one fails, with the array index error for a root of fewer than two letters, since the letters are extracted first, and with a null-pointer error otherwise |
| `Rewrite.ApplyRuleLocal` | MoteurMorphologique-main/arabic-morphology-app/arabic-morphology-app/src/main/java/com/morphology/arabic_morphology_app/Service/MorphologyServiceImpl.java:168-188 | The result depends only on the category groups and the exception group for this root and scheme |
| `Rewrite.ApplyRuleWithoutGroups` | MoteurMorphologique-main/arabic-morphology-app/arabic-morphology-app/src/main/java/com/morphology/arabic_morphology_app/Service/MorphologyServiceImpl.java:161-188 | With none of those groups defined, the result is the filled pattern after the post-step |
| `Rewrite.LafifSkipsNaqis` | MoteurMorphologique-main/arabic-morphology-app/arabic-morphology-app/src/main/java/com/morphology/arabic_morphology_app/Service/MorphologyServiceImpl.java:171-176 | For a lafif root with a lafif group, the naqis group has no effect |
| `Rewrite.PassiveParticipleExample` | MoteurMorphologique-main/arabic-morphology-app/arabic-morphology-app/src/main/java/com/morphology/arabic_morphology_app/Service/MorphologyServiceImpl.java:161-166 | The pattern م{1}{2}و{3} on كتب gives مكتوب when no group applies |
| `RulesFormat.ParseRule` | MoteurMorphologique-main/arabic-morphology-app/arabic-morphology-app/src/main/java/com/morphology/arabic_morphology_app/Service/MorphologyServiceImpl.java:269-282 | A segment gets the given order and no comment; its type is "replace_final" or "replace" exactly when it has that prefix, otherwise null with null operands; a "replace" segment without `>` keeps null operands; operands are trimmed |
| `RulesFormat.PrefixesExclusive` | MoteurMorphologique-main/arabic-morphology-app/arabic-morphology-app/src/main/java/com/morphology/arabic_morphology_app/Service/MorphologyServiceImpl.java:272-275 | No segment has both prefixes |
| `RulesFormat.ParseRules` | MoteurMorphologique-main/arabic-morphology-app/arabic-morphology-app/src/main/java/com/morphology/arabic_morphology_app/Service/MorphologyServiceImpl.java:264-285 | Empty text gives no rules; otherwise one rule per `split(";")` piece, numbered by position, with no comment |
| `RulesFormat.ParseFinalRule` | MoteurMorphologique-main/arabic-morphology-app/arabic-morphology-app/src/main/java/com/morphology/arabic_morphology_app/Service/MorphologyServiceImpl.java:272-274 | `replace_final=x` reads as a "replace_final" rule to x |
| `RulesFormat.ParseReplaceRule` | MoteurMorphologique-main/arabic-morphology-app/arabic-morphology-app/src/main/java/com/morphology/arabic_morphology_app/Service/MorphologyServiceImpl.java:275-281 | `replace=a>b` reads as a "replace" rule from a to b |
| `RulesFormat.ParseFormatRule` | MoteurMorphologique-main/arabic-morphology-app/arabic-morphology-app/src/main/java/com/morphology/arabic_morphology_app/Service/MorphologyServiceImpl.java:323-324 | The text written for a clean rule reads back as the rule, renumbered and without comment |
| `RulesFormat.NullRuleReadsBack` | MoteurMorphologique-main/arabic-morphology-app/arabic-morphology-app/src/main/java/com/morphology/arabic_morphology_app/Service/MorphologyServiceImpl.java:320-324 | A rule of a type other than "replace_final" reads back as a "replace" of its written operands, "null" for a missing one; one whose operation failed with a null pointer reads back as one that succeeds |
| `RulesFormat.BothNullRuleReadsAsIdentity` | MoteurMorphologique-main/arabic-morphology-app/arabic-morphology-app/src/main/java/com/morphology/arabic_morphology_app/Service/MorphologyServiceImpl.java:320-324 | A rule with both operands null, whose operation fails with a null pointer, reads back as the replacement of "null" by itself, which returns every word unchanged |
| `RulesFormat.BothNullRuleText` | MoteurMorphologique-main/arabic-morphology-app/arabic-morphology-app/src/main/java/com/morphology/arabic_morphology_app/Service/MorphologyServiceImpl.java:324 | A rule with both operands null is written as `replace=null>null` |
| `RulesFormat.UntypedRuleReadsBack` | MoteurMorphologique-main/arabic-morphology-app/arabic-morphology-app/src/main/java/com/morphology/arabic_morphology_app/Service/MorphologyServiceImpl.java:320-324 | Any rule but "replace_final" is written in the `replace=` form and parses back as a typed "replace" |
| `RulesFormat.ParseFormatRules` | MoteurMorphologique-main/arabic-morphology-app/arabic-morphology-app/src/main/java/com/morphology/arabic_morphology_app/Service/MorphologyServiceImpl.java:319-325 | The `;`-joined text of clean, position-numbered rules reads back as the same rules |
| `RulesFormat.ParseLine` | MoteurMorphologique-main/arabic-morphology-app/arabic-morphology-app/src/main/java/com/morphology/arabic_morphology_app/Service/MorphologyServiceImpl.java:247-253 | A non-comment line with `:` starts a group with the trimmed text before the first `:` as key and the rules parsed from the rest, numbered by position |
| `RulesFormat.ParseFormatLine` | MoteurMorphologique-main/arabic-morphology-app/arabic-morphology-app/src/main/java/com/morphology/arabic_morphology_app/Service/MorphologyServiceImpl.java:318-326 | The line written for a clean group reads back as the group without its comment |
| `TransformationsFile.Classify` | MoteurMorphologique-main/arabic-morphology-app/arabic-morphology-app/src/main/java/com/morphology/arabic_morphology_app/Service/MorphologyServiceImpl.java:238-253 | A line starts a group exactly when the group-line reader accepts it, and then as that group |
| `TransformationsFile.ReadComments` | MoteurMorphologique-main/arabic-morphology-app/arabic-morphology-app/src/main/java/com/morphology/arabic_morphology_app/Service/MorphologyServiceImpl.java:240-246 | Comment lines read after a group are joined by line breaks onto that group's comment |
| `TransformationsFile.DropComments` | MoteurMorphologique-main/arabic-morphology-app/arabic-morphology-app/src/main/java/com/morphology/arabic_morphology_app/Service/MorphologyServiceImpl.java:241 | Comment lines read before any group are dropped |
| `TransformationsFile.ClassifyCommentLine` | MoteurMorphologique-main/arabic-morphology-app/arabic-morphology-app/src/main/java/com/morphology/arabic_morphology_app/Service/MorphologyServiceImpl.java:314 | The line written for a trimmed comment piece is read as a comment with that piece |
| `TransformationsFile.LoadKindsAppend` | MoteurMorphologique-main/arabic-morphology-app/arabic-morphology-app/src/main/java/com/morphology/arabic_morphology_app/Service/MorphologyServiceImpl.java:237-254 | Reading two runs of lines is reading their concatenation |
| `TransformationsFile.SavedLinesAreLines` | MoteurMorphologique-main/arabic-morphology-app/arabic-morphology-app/src/main/java/com/morphology/arabic_morphology_app/Service/MorphologyServiceImpl.java:311-326 | For storable groups every string the saver writes, in either layout, holds neither `\n` nor `\r`, so `readLine` (line 237) returns exactly those lines |
| `RulesFormat.FormatLineOneLine` | MoteurMorphologique-main/arabic-morphology-app/arabic-morphology-app/src/main/java/com/morphology/arabic_morphology_app/Service/MorphologyServiceImpl.java:318-326 | The line written for a clean group holds no line terminator |
| `TransformationsFile.SaveLoad` | MoteurMorphologique-main/arabic-morphology-app/arabic-morphology-app/src/main/java/com/morphology/arabic_morphology_app/Service/MorphologyServiceImpl.java:307-331 | With each comment written after its group's line, saving storable groups and loading the lines gives back the same list, comments included |
| `TransformationsFile.CommentMovesToPreviousGroup` | MoteurMorphologique-main/arabic-morphology-app/arabic-morphology-app/src/main/java/com/morphology/arabic_morphology_app/Service/MorphologyServiceImpl.java:312-318 | As written, a group's comment is read back onto the group saved before it, and the round trip fails |
| `TransformationsFile.FirstCommentDropped` | MoteurMorphologique-main/arabic-morphology-app/arabic-morphology-app/src/main/java/com/morphology/arabic_morphology_app/Service/MorphologyServiceImpl.java:312-318 | As written, the first group's comment is lost on reading |
| `TransformationsFile.AsWrittenLoad` | MoteurMorphologique-main/arabic-morphology-app/arabic-morphology-app/src/main/java/com/morphology/arabic_morphology_app/Service/MorphologyServiceImpl.java:312-318 | As written, loading the saved lines of storable groups gives the groups with keys, rules and order kept, each carrying the comment of the group saved after it and the last carrying none |
| `TransformationsFile.AsWrittenLoadUncommented` | MoteurMorphologique-main/arabic-morphology-app/arabic-morphology-app/src/main/java/com/morphology/arabic_morphology_app/Service/MorphologyServiceImpl.java:307-331 | As written, groups without comments save and load back unchanged |
| `GroupList.GetGroup` | MoteurMorphologique-main/arabic-morphology-app/arabic-morphology-app/src/main/java/com/morphology/arabic_morphology_app/Service/MorphologyServiceImpl.java:346-350 | Null exactly when no key matches ignoring case; otherwise the first matching group |
| `GroupList.WithoutKey` | MoteurMorphologique-main/arabic-morphology-app/arabic-morphology-app/src/main/java/com/morphology/arabic_morphology_app/Service/MorphologyServiceImpl.java:354 | `removeIf` keeps exactly the groups whose key does not match; with no matching key the list is unchanged, and it shortens exactly when some key matches |
| `GroupList.WithoutKeyInOrder` | MoteurMorphologique-main/arabic-morphology-app/arabic-morphology-app/src/main/java/com/morphology/arabic_morphology_app/Service/MorphologyServiceImpl.java:354 | The kept groups are, in order, the groups at the positions whose key does not match: an increasing list of positions, holding every such position and no other |
| `GroupList.KeptPositionsIncrease` | MoteurMorphologique-main/arabic-morphology-app/arabic-morphology-app/src/main/java/com/morphology/arabic_morphology_app/Service/MorphologyServiceImpl.java:354 | The positions of the unmatched groups are listed in increasing order |
| `GroupList.KeptPositionsExact` | MoteurMorphologique-main/arabic-morphology-app/arabic-morphology-app/src/main/java/com/morphology/arabic_morphology_app/Service/MorphologyServiceImpl.java:354 | A position is listed exactly when its group does not match the key |
| `GroupList.KeepAt` | MoteurMorphologique-main/arabic-morphology-app/arabic-morphology-app/src/main/java/com/morphology/arabic_morphology_app/Service/MorphologyServiceImpl.java:354 | Filtering by flags keeps, in order, exactly the elements whose flag is clear |
| `GroupList.WithoutKeyIsKeep` | MoteurMorphologique-main/arabic-morphology-app/arabic-morphology-app/src/main/java/com/morphology/arabic_morphology_app/Service/MorphologyServiceImpl.java:354 | `removeIf` is the filter by the per-group match flags |
| `GroupList.WithoutKeyKeepsOthers` | MoteurMorphologique-main/arabic-morphology-app/arabic-morphology-app/src/main/java/com/morphology/arabic_morphology_app/Service/MorphologyServiceImpl.java:363 | Removing the groups of one key keeps the lookup of every key not matching it |
| `GroupList.SaveGroup` | MoteurMorphologique-main/arabic-morphology-app/arabic-morphology-app/src/main/java/com/morphology/arabic_morphology_app/Service/MorphologyServiceImpl.java:353-359 | The new group is last, no earlier group matches its key, non-matching groups are kept, lookups of its key give it and lookups of other keys are unchanged |
| `GroupList.SaveGroupIdempotent` | MoteurMorphologique-main/arabic-morphology-app/arabic-morphology-app/src/main/java/com/morphology/arabic_morphology_app/Service/MorphologyServiceImpl.java:353-359 | Saving the same group twice gives the list saving it once gives |
| `GroupList.DeleteGroup` | MoteurMorphologique-main/arabic-morphology-app/arabic-morphology-app/src/main/java/com/morphology/arabic_morphology_app/Service/MorphologyServiceImpl.java:362-369 | Reports removal exactly when a group matches; then the list is shorter, no group matches the key and other keys' lookups are unchanged; otherwise nothing changes |
| `Service.RecordWord` | MoteurMorphologique-main/arabic-morphology-app/arabic-morphology-app/src/main/java/com/morphology/arabic_morphology_app/Service/MorphologyServiceImpl.java:408-414 | A known word keeps the list's length, a new word is appended with frequency 1, and the words in place are unchanged |
| `Service.RecordWordFrequency` | MoteurMorphologique-main/arabic-morphology-app/arabic-morphology-app/src/main/java/com/morphology/arabic_morphology_app/Service/MorphologyServiceImpl.java:408-414 | Recording a word raises its frequency by one and leaves every other word's frequency unchanged |
| `Service.RecordWordWords` | MoteurMorphologique-main/arabic-morphology-app/arabic-morphology-app/src/main/java/com/morphology/arabic_morphology_app/Service/MorphologyServiceImpl.java:408-414 | Recording a word adds it to the word set and nothing else |
| `Service.RecordWordUnique` | MoteurMorphologique-main/arabic-morphology-app/arabic-morphology-app/src/main/java/com/morphology/arabic_morphology_app/Service/MorphologyServiceImpl.java:408-414 | Recording never creates a duplicate entry |
| `Service.UpdateDerivativeList` | MoteurMorphologique-main/arabic-morphology-app/arabic-morphology-app/src/main/java/com/morphology/arabic_morphology_app/Service/MorphologyServiceImpl.java:405-416 | Only the tree changes, and an unknown root changes nothing |
| `Service.UpdateDerivativeListEffect` | MoteurMorphologique-main/arabic-morphology-app/arabic-morphology-app/src/main/java/com/morphology/arabic_morphology_app/Service/MorphologyServiceImpl.java:405-416 | The tree stays a valid AVL tree with the same roots; the root's list has the word recorded and every other list is unchanged |
| `Service.RecordWordsEffect` | MoteurMorphologique-main/arabic-morphology-app/arabic-morphology-app/src/main/java/com/morphology/arabic_morphology_app/Service/MorphologyServiceImpl.java:405-416 | Recording several words keeps the tree valid and the roots the same, records them all in the root's list and leaves every other list alone |
| `Service.RecordAllFrequency` | MoteurMorphologique-main/arabic-morphology-app/arabic-morphology-app/src/main/java/com/morphology/arabic_morphology_app/Service/MorphologyServiceImpl.java:408-414 | Recording several words raises each word's frequency by the number of times it occurs among them |
| `Service.Generate` | MoteurMorphologique-main/arabic-morphology-app/arabic-morphology-app/src/main/java/com/morphology/arabic_morphology_app/Service/MorphologyServiceImpl.java:119-127 | An unknown root, and then a scheme whose `get` is null (no entry or a null pattern), are errors that change nothing; for a known root and a scheme with a pattern the result is exactly `applyRule` on that pattern, and a word is recorded for the root |
| `Service.GenerateEach` | MoteurMorphologique-main/arabic-morphology-app/arabic-morphology-app/src/main/java/com/morphology/arabic_morphology_app/Service/MorphologyServiceImpl.java:133-137 | On success one word per entry, each the rule's result for that entry; a failure is the error of the first entry whose rule fails; either way the engine is the input with the words of the entries before the first failure recorded in turn |
| `Service.Produced` | MoteurMorphologique-main/arabic-morphology-app/arabic-morphology-app/src/main/java/com/morphology/arabic_morphology_app/Service/MorphologyServiceImpl.java:133-137 | The words the loop collects before its first failing entry: one per entry up to that entry, each that entry's rule result |
| `Service.GenerateEachConsistent` | MoteurMorphologique-main/arabic-morphology-app/arabic-morphology-app/src/main/java/com/morphology/arabic_morphology_app/Service/MorphologyServiceImpl.java:133-137 | The loop keeps the tree valid and the known roots the same |
| `Service.GenerateEachFails` | MoteurMorphologique-main/arabic-morphology-app/arabic-morphology-app/src/main/java/com/morphology/arabic_morphology_app/Service/MorphologyServiceImpl.java:133-137 | The loop fails exactly when some entry's rule fails |
| `Service.GenerateAll` | MoteurMorphologique-main/arabic-morphology-app/arabic-morphology-app/src/main/java/com/morphology/arabic_morphology_app/Service/MorphologyServiceImpl.java:130-139 | An unknown root gives the empty list; for a known root it fails exactly when some scheme's rule fails, with the first failure's error; the words of the schemes before it, in `getAll` order, are recorded either way, and on success they are the result; with a three-letter root, safe operations and every scheme holding a pattern it succeeds |
| `Service.FindScheme` | MoteurMorphologique-main/arabic-morphology-app/arabic-morphology-app/src/main/java/com/morphology/arabic_morphology_app/Service/MorphologyServiceImpl.java:144-149 | The scan returns the key of the first entry whose rule gives the word, whichever that is; none when every rule gives another word; otherwise the error of the first failing rule, with no earlier entry giving the word |
| `Service.FindSchemeFails` | MoteurMorphologique-main/arabic-morphology-app/arabic-morphology-app/src/main/java/com/morphology/arabic_morphology_app/Service/MorphologyServiceImpl.java:144-149 | A rule that fails before any entry produces the word stops the scan with an error |
| `Service.Validate` | MoteurMorphologique-main/arabic-morphology-app/arabic-morphology-app/src/main/java/com/morphology/arabic_morphology_app/Service/MorphologyServiceImpl.java:142-151 | Unknown root gives (false, null, null); for a known root: the first scheme producing the word gives (true, root, scheme) with the word recorded; a rule failing before any scheme produces the word makes it an error, that rule's error, and otherwise it is not an error; an invalid result is (false, root, null), every rule succeeded with another word, and nothing changes |
| `Service.GenerateThenValidate` | MoteurMorphologique-main/arabic-morphology-app/arabic-morphology-app/src/main/java/com/morphology/arabic_morphology_app/Service/MorphologyServiceImpl.java:119-151 | A word just generated validates against its root |
| `Service.CollectRoots` | MoteurMorphologique-main/arabic-morphology-app/arabic-morphology-app/src/main/java/com/morphology/arabic_morphology_app/Service/MorphologyServiceImpl.java:382-387 | The roots, in the order of the in-order listing |
| `Service.RootsListSorted` | MoteurMorphologique-main/arabic-morphology-app/arabic-morphology-app/src/main/java/com/morphology/arabic_morphology_app/Service/MorphologyServiceImpl.java:376-387 | The roots list is strictly increasing and holds exactly the known roots |
| `Service.PutStat` | MoteurMorphologique-main/arabic-morphology-app/arabic-morphology-app/src/main/java/com/morphology/arabic_morphology_app/Service/MorphologyServiceImpl.java:434 | A root new to the statistics map is appended; the map grows by at most one |
| `Service.CollectStats` | MoteurMorphologique-main/arabic-morphology-app/arabic-morphology-app/src/main/java/com/morphology/arabic_morphology_app/Service/MorphologyServiceImpl.java:427-435 | The loop's total is the sum of the derivative list lengths; over sorted nodes it puts one statistics line per node, in order, with that node's root and words |
| `Service.ComputeStatistics` | MoteurMorphologique-main/arabic-morphology-app/arabic-morphology-app/src/main/java/com/morphology/arabic_morphology_app/Service/MorphologyServiceImpl.java:420-448 | One line per node in in-order with its words; total roots is the number of lines and of nodes; total derivatives sums the lists; total patterns counts `getAll`; density is their ratio, 0 with no roots |
| `Service.AddScheme` | MoteurMorphologique-main/arabic-morphology-app/arabic-morphology-app/src/main/java/com/morphology/arabic_morphology_app/Service/MorphologyServiceImpl.java:93-96 | The scheme's entry holds the given pattern, null included, and `get` returns it; other schemes' entries are unchanged; nothing else changes |
| `Service.UpdateScheme` | MoteurMorphologique-main/arabic-morphology-app/arabic-morphology-app/src/main/java/com/morphology/arabic_morphology_app/Service/MorphologyServiceImpl.java:488-499 | Fails with scheme-not-found exactly when `get` returns null, which is both for a scheme with no entry and for one stored with a null pattern; otherwise the scheme's entry holds the new pattern, others are unchanged, the entry count is kept |
| `Service.DeleteScheme` | MoteurMorphologique-main/arabic-morphology-app/arabic-morphology-app/src/main/java/com/morphology/arabic_morphology_app/Service/MorphologyServiceImpl.java:502-513 | Fails with scheme-not-found exactly when `get` returns null, for no entry or a null pattern; otherwise the scheme has no entry, others are unchanged, one entry fewer |
| `Service.NullPatternEffects` | MoteurMorphologique-main/arabic-morphology-app/arabic-morphology-app/src/main/java/com/morphology/arabic_morphology_app/Service/MorphologyServiceImpl.java:488-513 | A scheme stored with a null pattern is listed by `getAll`, yet `updateScheme` and `deleteScheme` report it not found (and `generate`, lines 121-122, reports it unknown) |
| `Service.NullPatternFailsGenerateAll` | MoteurMorphologique-main/arabic-morphology-app/arabic-morphology-app/src/main/java/com/morphology/arabic_morphology_app/Service/MorphologyServiceImpl.java:130-139 | A null pattern in the table makes `generateAll` on a known root fail, with a null-pointer error when the root has three letters and every operation is well-formed |
| `Service.Reload` | MoteurMorphologique-main/arabic-morphology-app/arabic-morphology-app/src/main/java/com/morphology/arabic_morphology_app/Service/MorphologyServiceImpl.java:307-331 | Writing the groups as the saver lays them out, comments before each group line, and loading them: storable groups come back with keys, rules and order kept and each comment on the group saved before it, the first one lost; the map is the one the groups saved build; groups without comments come back unchanged |
| `Service.SaveTransformationGroup` | MoteurMorphologique-main/arabic-morphology-app/arabic-morphology-app/src/main/java/com/morphology/arabic_morphology_app/Service/MorphologyServiceImpl.java:353-359 | With storable groups the list read back is the list edit's result with comments shifted, and the map holds the new group's operations under its key; without comments the list is exactly the edit's result |
| `Service.SaveDropsLoneComment` | MoteurMorphologique-main/arabic-morphology-app/arabic-morphology-app/src/main/java/com/morphology/arabic_morphology_app/Service/MorphologyServiceImpl.java:353-359 | Saving a commented group when there is no other reads it back without its comment |
| `Service.DeleteTransformationGroup` | MoteurMorphologique-main/arabic-morphology-app/arabic-morphology-app/src/main/java/com/morphology/arabic_morphology_app/Service/MorphologyServiceImpl.java:362-369 | Reports removal exactly when a group matches; no match changes nothing; a removal leaves the map rebuilt from the groups |
| `Service.DeleteTransformationGroupEffect` | MoteurMorphologique-main/arabic-morphology-app/arabic-morphology-app/src/main/java/com/morphology/arabic_morphology_app/Service/MorphologyServiceImpl.java:362-369 | After a delete among storable groups the map is the one the edited list builds and no key of it matches the deleted key; a removal reads back the edited list with comments shifted; without comments exactly the edited list |
| `Service.NoMatchingKey` | MoteurMorphologique-main/arabic-morphology-app/arabic-morphology-app/src/main/java/com/morphology/arabic_morphology_app/Service/MorphologyServiceImpl.java:363 | When no group matches a key, no key of the rebuilt map does |

## Left out

- File and stream I/O: `loadRoots`, `loadSchemes`, `saveSchemeToFile`, `rewriteAllSchemes`, `init`, and the reading and writing in `loadAndParseTransformations` and `saveTransformationsToFile`. The transformations file is modelled as its list of lines. The missing-resource branches and the caught exceptions are not modelled.
- Service.Reload: the saver writes `src/main/resources/transformations.txt` and the loader reads the classpath resource of the same name; the model assumes the read sees the lines just written.
- Spring wiring, the controllers, `CorsConfig`, the service interface and the request/response classes, apart from the fields `ValidationResult`, `RootStat` and `StatisticsResponse` carry.
- `getSchemesList` (a sorted stream of the keys), `getDerivatives` (a set of formatted strings), `getAllTransformationGroups` (a copy of the list), `getTreeStructure`, `getHashStructure`, `getInternalTable`, `getRootNode`, `capacity()`, `getLoadFactor`, the getters and setters of the model classes and every `toString`: accessors, formatting and debug exporters with nothing to state beyond their fields.
- Service.ComputeStatistics: the density is stated as an exact ratio of integers rather than as a `double` division.
- Transformations.RuleHash: the contract states the range only. The value is `Objects.hash` computed over Dafny characters; these coincide with Java's UTF-16 units for the Arabic and ASCII text the engine handles.
- JavaString.CompareTo, JavaString.HashCode and the length and index checks of RootAnalyzer.DetectRootType and RootAnalyzer.ExtractOriginalLetters: a Dafny `char` is a Unicode scalar value, while a Java `String` is a sequence of UTF-16 code units. They agree inside the Basic Multilingual Plane, which holds the Arabic and ASCII text the engine handles. A character outside it is one element here and a surrogate pair in Java, so such strings order, hash and count their length differently in the model.
- ResizableTable.Put: the back-end table's values are non-null strings; a null value, which the Java table would store, is not modelled. The service's scheme table, which does receive null patterns, models them.
- JavaString.EqualsIgnoreCase: folds ASCII case only; Java also folds other scripts' case.
- Integer widths: derivative frequencies, rule orders, statistics totals and AVL heights are unbounded integers, so a 32-bit overflow after 2^31 increments is not modelled; only hash codes wrap explicitly.
- ResizableTable.New: requires a positive capacity. With 0 the source's first `put` divides by zero, and with a negative capacity the array allocation throws.
- ResizableTable.Put and ResizableTable.Resize: `capacity * 2` is not wrapped, so a table past 2^30 buckets is not modelled.
- FixedTable.Put: takes a non-null key; the service never passes null. The source's `put(null, …)` throws in `hash`.
- Service.Generate, Service.GenerateAll, Service.Validate, Service.AddScheme, Service.UpdateScheme and Service.DeleteScheme require the engine invariant: a valid AVL tree and a well-formed 16-bucket table. The empty engine has it and every operation keeps it.
- Rewrite.SubstituteIsExpand: proved only when the first two root letters are not `{`, `}` or a digit. A root letter that could complete a placeholder makes the three `replace` calls differ from one pass, and Arabic root letters never can.
- RulesFormat.ParseFormatRules, RulesFormat.ParseFormatLine, TransformationsFile.SaveLoad, TransformationsFile.AsWrittenLoad, TransformationsFile.AsWrittenLoadUncommented, TransformationsFile.CommentMovesToPreviousGroup, TransformationsFile.FirstCommentDropped, Service.Reload, Service.SaveTransformationGroup, Service.SaveDropsLoneComment and Service.DeleteTransformationGroupEffect: the round trip is stated for clean (storable) groups. Clean means: the key is trimmed, has no `:` and no line terminator (`\n` or `\r`, where `readLine` ends a line); every rule is typed, with trimmed operands free of `;` and of line terminators, and `>` absent from `from`; each line of a comment is trimmed and free of `\r`. With these, every line the saver writes is one line for the loader (`TransformationsFile.SavedLinesAreLines`); a key, operand or comment line holding a line terminator would be written across several lines and read back as different groups. The text format cannot carry other groups unchanged. Groups that are not clean do occur: a typeless rule, or a "replace" missing an operand, is written in the `replace=` form with "null" for each missing operand. `RulesFormat.NullRuleReadsBack` and `RulesFormat.BothNullRuleReadsAsIdentity` state what comes back: a typed "replace" that succeeds where the rule before the save failed with a null pointer, and, with both operands missing, the replacement of "null" by itself, which changes no word. After a save or a delete that writes such a group, the service's groups and operation map are not characterised.
- Service.GenerateThenValidate: assumes every scheme has a pattern and no transformation lacks its operands; otherwise an earlier scheme's rule can throw before the generating scheme is reached.
- Concurrency: the service's structures are unsynchronised, and the model is sequential.

## Findings

| source | as written | input that shows it | evidently intended | confidence | as-written member | corrected member |
|---|---|---|---|---|---|---|
| MoteurMorphologique-main/arabic-morphology-app/arabic-morphology-app/src/main/java/com/morphology/arabic_morphology_app/Service/MorphologyServiceImpl.java:312-318 | The saver writes a group's comment lines before the group's line, but the loader (lines 240-246) attaches each comment line to the group read before it and drops comment lines that precede every group | Groups `g1` without a comment and `g2` with comment `x`: the file reads `g1:…`, `# x`, `g2:…` and loads back as `g1` carrying `x` and `g2` with none. A single commented group loses its comment on reload. Every save reloads at once, so comments drift one group per save | Saving and reloading leaves every group's comment on that group | high; not executed | `TransformationsFile.CommentMovesToPreviousGroup` | `TransformationsFile.SaveLoad` |

The corrected saver (`TransformationsFile.SaveLines`) writes each comment after its group's line, and `TransformationsFile.SaveLoad` proves that storable groups read back as themselves through it. The service keeps the layout as written: `Service.Reload`, and through it `Service.SaveTransformationGroup` and `Service.DeleteTransformationGroup`, read back the comment-shifted list that `TransformationsFile.AsWrittenLoad` describes, and `Service.SaveDropsLoneComment` shows a comment lost by one save. `TransformationsFile.FirstCommentDropped` states the second half of the as-written behaviour.

=== FILE: avl_tree.dfy ===
/** The root index: an AVL tree keyed by root strings under `compareTo`
    order, each node carrying the list of validated derivatives of its root.
    Nodes store their height, as the Java nodes do, and the invariants say
    that the stored heights are right and every node is balanced. */
module AvlTree {
  import opened JavaString

  /** A word derived from a root, with the number of times it was derived. */
  datatype Derivative = Derivative(word: string, frequency: int)

  /** What a caller reads from a node: its root and its derivative list. */
  datatype RootRecord = RootRecord(root: string, derivatives: seq<Derivative>)

  datatype Tree =
    | Nil
    | Node(root: string, height: int, left: Tree, right: Tree, derivatives: seq<Derivative>)

  function Max(a: int, b: int): int {
    if a >= b then a else b
  }

  /** `height(n)`: the stored height, 0 for an empty tree. */
  function Height(t: Tree): int {
    if t.Nil? then 0 else t.height
  }

  /** `getBalance(n)`: left height minus right height, from stored heights. */
  function Balance(t: Tree): int {
    if t.Nil? then 0 else Height(t.left) - Height(t.right)
  }

  function Keys(t: Tree): set<string> {
    match t
    case Nil => {}
    case Node(k, _, l, r, _) => Keys(l) + {k} + Keys(r)
  }

  /** `getAllNodes`: the nodes in in-order (left subtree, node, right subtree). */
  function AllNodes(t: Tree): seq<RootRecord> {
    match t
    case Nil => []
    case Node(k, _, l, r, ds) => AllNodes(l) + [RootRecord(k, ds)] + AllNodes(r)
  }

  function RootSet(s: seq<RootRecord>): set<string> {
    set x | x in s :: x.root
  }

  /** Binary-search-tree order: every key left of a node is smaller than the
      node's root and every key right of it is larger. */
  ghost predicate Ordered(t: Tree) {
    t.Node? ==>
      && Ordered(t.left) && Ordered(t.right)
      && (forall k :: k in Keys(t.left) ==> Less(k, t.root))
      && (forall k :: k in Keys(t.right) ==> Less(t.root, k))
  }

  /** Every stored height is one more than the larger stored height of the
      children. */
  ghost predicate HeightsOk(t: Tree) {
    t.Node? ==>
      && HeightsOk(t.left) && HeightsOk(t.right)
      && t.height == 1 + Max(Height(t.left), Height(t.right))
  }

  /** Every node's balance factor lies in [-1, 1]. */
  ghost predicate Balanced(t: Tree) {
    t.Node? ==> Balanced(t.left) && Balanced(t.right) && -1 <= Balance(t) <= 1
  }

  ghost predicate Valid(t: Tree) {
    Ordered(t) && HeightsOk(t) && Balanced(t)
  }

  /** Strictly increasing roots. */
  ghost predicate Sorted(s: seq<RootRecord>) {
    forall i, j :: 0 <= i < j < |s| ==> Less(s[i].root, s[j].root)
  }

  lemma HeightNonNegative(t: Tree)
    requires HeightsOk(t)
    ensures Height(t) >= 0
    ensures t.Node? ==> Height(t) >= 1
  {
  }

  lemma {:induction false} KeysListed(t: Tree)
    ensures Keys(t) == RootSet(AllNodes(t))
  {
    match t
    case Nil =>
    case Node(k, _, l, r, ds) =>
      KeysListed(l);
      KeysListed(r);
      var a, b := AllNodes(l), AllNodes(r);
      var s := a + [RootRecord(k, ds)] + b;
      assert forall x :: x in s <==> x in a || x == RootRecord(k, ds) || x in b;
      assert RootSet(s) == RootSet(a) + {k} + RootSet(b);
  }

  /** The in-order listing of a search tree is strictly increasing. */
  lemma {:induction false} OrderedSorted(t: Tree)
    requires Ordered(t)
    ensures Sorted(AllNodes(t))
  {
    match t
    case Nil =>
    case Node(k, _, l, r, ds) =>
      OrderedSorted(l);
      OrderedSorted(r);
      KeysListed(l);
      KeysListed(r);
      SortedJoin(AllNodes(l), RootRecord(k, ds), AllNodes(r));
  }

  /** Two sorted listings joined around a record that lies between them. */
  lemma SortedJoin(a: seq<RootRecord>, x: RootRecord, b: seq<RootRecord>)
    requires Sorted(a) && Sorted(b)
    requires forall q :: q in RootSet(a) ==> Less(q, x.root)
    requires forall q :: q in RootSet(b) ==> Less(x.root, q)
    ensures Sorted(a + [x] + b)
  {
    assert forall i :: 0 <= i < |a| ==> Less(a[i].root, x.root) by {
      forall i | 0 <= i < |a| ensures Less(a[i].root, x.root) {
        assert a[i] in a;
        assert a[i].root in RootSet(a);
      }
    }
    assert forall j :: 0 <= j < |b| ==> Less(x.root, b[j].root) by {
      forall j | 0 <= j < |b| ensures Less(x.root, b[j].root) {
        assert b[j] in b;
        assert b[j].root in RootSet(b);
      }
    }
    var s := a + [x] + b;
    forall i, j | 0 <= i < j < |s| ensures Less(s[i].root, s[j].root) {
      if j < |a| {
        assert s[i] == a[i] && s[j] == a[j];
      } else if i < |a| && j == |a| {
        assert s[i] == a[i] && s[j] == x;
      } else if i < |a| {
        assert s[i] == a[i] && s[j] == b[j - |a| - 1];
        LessTransitive(a[i].root, x.root, b[j - |a| - 1].root);
      } else if i == |a| {
        assert s[i] == x && s[j] == b[j - |a| - 1];
      } else {
        assert s[i] == b[i - |a| - 1] && s[j] == b[j - |a| - 1];
      }
    }
  }

  /** Every root of `s` is larger than `k`. */
  ghost predicate Above(k: string, s: seq<RootRecord>) {
    forall i :: 0 <= i < |s| ==> Less(k, s[i].root)
  }

  lemma AboveRoots(k: string, s: seq<RootRecord>)
    ensures Above(k, s) <==> forall q :: q in RootSet(s) ==> Less(k, q)
  {
    if Above(k, s) {
      forall q | q in RootSet(s) ensures Less(k, q) {
        var y :| y in s && y.root == q;
        var i :| 0 <= i < |s| && s[i] == y;
      }
    }
    if forall q :: q in RootSet(s) ==> Less(k, q) {
      forall i | 0 <= i < |s| ensures Less(k, s[i].root) {
        assert s[i] in s;
      }
    }
  }

  lemma SortedCons(x: RootRecord, s: seq<RootRecord>)
    requires Sorted(s) && Above(x.root, s)
    ensures Sorted([x] + s)
  {
    var r := [x] + s;
    forall i, j | 0 <= i < j < |r| ensures Less(r[i].root, r[j].root) {
      if i > 0 {
        assert r[i] == s[i - 1] && r[j] == s[j - 1];
      } else {
        assert r[j] == s[j - 1];
      }
    }
  }

  lemma SortedTail(s: seq<RootRecord>)
    requires Sorted(s) && |s| > 0
    ensures Sorted(s[1..]) && Above(s[0].root, s[1..])
  {
    forall i, j | 0 <= i < j < |s[1..]| ensures Less(s[1..][i].root, s[1..][j].root) {
      assert s[1..][i] == s[i + 1] && s[1..][j] == s[j + 1];
    }
    forall j | 0 <= j < |s[1..]| ensures Less(s[0].root, s[1..][j].root) {
      assert s[1..][j] == s[j + 1];
    }
  }

  /** The parts of a sorted listing `a + [x] + b`. */
  lemma SortedSplit(a: seq<RootRecord>, x: RootRecord, b: seq<RootRecord>)
    requires Sorted(a + [x] + b)
    ensures Sorted(a) && Sorted(b) && Above(x.root, b)
    ensures forall q :: q in RootSet(a) ==> Less(q, x.root)
  {
    var s := a + [x] + b;
    forall i, j | 0 <= i < j < |a| ensures Less(a[i].root, a[j].root) {
      assert s[i] == a[i] && s[j] == a[j];
    }
    forall i, j | 0 <= i < j < |b| ensures Less(b[i].root, b[j].root) {
      assert s[|a| + 1 + i] == b[i] && s[|a| + 1 + j] == b[j];
    }
    forall j | 0 <= j < |b| ensures Less(x.root, b[j].root) {
      assert s[|a| + 1 + j] == b[j] && s[|a|] == x;
    }
    forall q | q in RootSet(a) ensures Less(q, x.root) {
      var y :| y in a && y.root == q;
      var i :| 0 <= i < |a| && a[i] == y;
      assert s[i] == y && s[|a|] == x;
    }
  }

  /** A tree whose in-order listing is strictly increasing is a search tree. */
  lemma {:induction false} SortedOrdered(t: Tree)
    requires Sorted(AllNodes(t))
    ensures Ordered(t)
  {
    match t
    case Nil =>
    case Node(k, _, l, r, ds) =>
      KeysListed(l);
      KeysListed(r);
      SortedSplit(AllNodes(l), RootRecord(k, ds), AllNodes(r));
      AboveRoots(k, AllNodes(r));
      SortedOrdered(l);
      SortedOrdered(r);
  }

  /** Search-tree order and a strictly increasing listing are the same thing. */
  lemma OrderedIffSorted(t: Tree)
    ensures Ordered(t) <==> Sorted(AllNodes(t))
  {
    if Ordered(t) {
      OrderedSorted(t);
    }
    if Sorted(AllNodes(t)) {
      SortedOrdered(t);
    }
  }

  // ---------------------------------------------------------------------
  // The reference for insertion: insertion into a sorted list
  // ---------------------------------------------------------------------

  /** Inserts a fresh record for `key` in front of the first larger root, or
      leaves the list alone when it reaches a record for `key` first. */
  function InsertSorted(s: seq<RootRecord>, key: string): seq<RootRecord>
    decreases |s|
  {
    if |s| == 0 then [RootRecord(key, [])]
    else if s[0].root == key then s
    else if Less(key, s[0].root) then [RootRecord(key, [])] + s
    else [s[0]] + InsertSorted(s[1..], key)
  }

  lemma RootSetCons(x: RootRecord, s: seq<RootRecord>)
    ensures RootSet([x] + s) == {x.root} + RootSet(s)
  {
    var r := [x] + s;
    assert forall y :: y in r <==> y == x || y in s;
  }

  /** Sorted insertion adds `key` to the roots and nothing else. */
  lemma {:induction false} InsertSortedRoots(s: seq<RootRecord>, key: string)
    ensures RootSet(InsertSorted(s, key)) == RootSet(s) + {key}
    decreases |s|
  {
    if |s| == 0 {
      assert RootSet([RootRecord(key, [])]) == {key} by {
        RootSetCons(RootRecord(key, []), []);
      }
    } else if s[0].root == key {
      assert s[0] in s;
    } else if Less(key, s[0].root) {
      RootSetCons(RootRecord(key, []), s);
    } else {
      InsertSortedRoots(s[1..], key);
      assert s == [s[0]] + s[1..];
      RootSetCons(s[0], s[1..]);
      RootSetCons(s[0], InsertSorted(s[1..], key));
    }
  }

  /** Sorted insertion either changes nothing or splices one fresh record,
      with no derivatives, into the list. */
  lemma {:induction false} InsertSortedSplices(s: seq<RootRecord>, key: string)
    ensures InsertSorted(s, key) == s ||
            exists i :: 0 <= i <= |s| && InsertSorted(s, key) == s[..i] + [RootRecord(key, [])] + s[i..]
    decreases |s|
  {
    var r := InsertSorted(s, key);
    if |s| == 0 {
      assert r == s[..0] + [RootRecord(key, [])] + s[0..];
    } else if s[0].root == key {
    } else if Less(key, s[0].root) {
      assert r == s[..0] + [RootRecord(key, [])] + s[0..];
    } else {
      InsertSortedSplices(s[1..], key);
      var rest := InsertSorted(s[1..], key);
      assert s == [s[0]] + s[1..];
      if rest != s[1..] {
        var i :| 0 <= i <= |s[1..]| && rest == s[1..][..i] + [RootRecord(key, [])] + s[1..][i..];
        assert r == s[..i + 1] + [RootRecord(key, [])] + s[i + 1..];
      }
    }
  }

  /** Sorted insertion keeps a list sorted. */
  lemma {:induction false} InsertSortedSorted(s: seq<RootRecord>, key: string)
    requires Sorted(s)
    ensures Sorted(InsertSorted(s, key))
    decreases |s|
  {
    if |s| == 0 {
    } else if s[0].root == key {
    } else if Less(key, s[0].root) {
      SortedTail(s);
      forall j | 0 <= j < |s| ensures Less(key, s[j].root) {
        if j > 0 {
          assert s[1..][j - 1] == s[j];
          LessTransitive(key, s[0].root, s[j].root);
        }
      }
      SortedCons(RootRecord(key, []), s);
    } else {
      SortedTail(s);
      InsertSortedSorted(s[1..], key);
      InsertSortedRoots(s[1..], key);
      LessTotal(key, s[0].root);
      AboveRoots(s[0].root, s[1..]);
      AboveRoots(s[0].root, InsertSorted(s[1..], key));
      SortedCons(s[0], InsertSorted(s[1..], key));
    }
  }

  /** In a sorted list, inserting a root that is already there changes
      nothing. */
  lemma {:induction false} InsertSortedPresent(s: seq<RootRecord>, key: string)
    requires Sorted(s) && key in RootSet(s)
    ensures InsertSorted(s, key) == s
    decreases |s|
  {
    if s[0].root != key {
      PresentBeyondHead(s, key);
      InsertSortedStep(s, key);
      InsertSortedPresent(s[1..], key);
      assert s == [s[0]] + s[1..];
    }
  }

  /** A root of a sorted list other than its head lies in the tail, after the
      head. */
  lemma PresentBeyondHead(s: seq<RootRecord>, key: string)
    requires Sorted(s) && key in RootSet(s) && s[0].root != key
    ensures !Less(key, s[0].root) && key in RootSet(s[1..]) && Sorted(s[1..])
  {
    var y :| y in s && y.root == key;
    var i :| 0 <= i < |s| && s[i] == y;
    assert Less(s[0].root, s[i].root);
    LessAsymmetric(s[0].root, key);
    assert s[1..][i - 1] == y;
    SortedTail(s);
  }

  /** Sorted insertion passes over a head that is smaller than the key. */
  lemma InsertSortedStep(s: seq<RootRecord>, key: string)
    requires |s| > 0 && s[0].root != key && !Less(key, s[0].root)
    ensures InsertSorted(s, key) == [s[0]] + InsertSorted(s[1..], key)
  {
  }

  /** Inserting left of a record with a larger root only touches the part
      before it. */
  lemma {:induction false} InsertSortedBefore(a: seq<RootRecord>, b: seq<RootRecord>, key: string)
    requires |b| > 0 && Less(key, b[0].root)
    ensures InsertSorted(a + b, key) == InsertSorted(a, key) + b
    decreases |a|
  {
    if |a| == 0 {
      LessIrreflexive(key);
      assert a + b == b;
    } else {
      assert (a + b)[0] == a[0] && (a + b)[1..] == a[1..] + b;
      if a[0].root != key && !Less(key, a[0].root) {
        InsertSortedBefore(a[1..], b, key);
      }
    }
  }

  /** Inserting a key larger than every root of `a` leaves `a` in front. */
  lemma {:induction false} InsertSortedAfter(a: seq<RootRecord>, b: seq<RootRecord>, key: string)
    requires forall i :: 0 <= i < |a| ==> Less(a[i].root, key)
    ensures InsertSorted(a + b, key) == a + InsertSorted(b, key)
    decreases |a|
  {
    if |a| == 0 {
      assert a + b == b;
    } else {
      var ab := a + b;
      assert ab[0] == a[0] && ab[1..] == a[1..] + b;
      assert a[0].root != key && !Less(key, a[0].root) by {
        assert Less(a[0].root, key);
        LessIrreflexive(key);
        LessAsymmetric(a[0].root, key);
      }
      InsertSortedStep(ab, key);
      assert forall i :: 0 <= i < |a[1..]| ==> Less(a[1..][i].root, key) by {
        forall i | 0 <= i < |a[1..]| ensures Less(a[1..][i].root, key) {
          assert a[1..][i] == a[i + 1];
        }
      }
      InsertSortedAfter(a[1..], b, key);
      assert a == [a[0]] + a[1..];
    }
  }

  // ---------------------------------------------------------------------
  // Rotations and rebalancing
  // ---------------------------------------------------------------------

  /** `rightRotate(y)`: the left child becomes the subtree's root; the two
      moved nodes get their heights recomputed, lower one first. */
  function RightRotate(y: Tree): (r: Tree)
    requires y.Node? && y.left.Node?
    ensures AllNodes(r) == AllNodes(y)
  {
    var x := y.left;
    var t2 := x.right;
    var y' := Node(y.root, Max(Height(t2), Height(y.right)) + 1, t2, y.right, y.derivatives);
    Node(x.root, Max(Height(x.left), Height(y')) + 1, x.left, y', x.derivatives)
  }

  /** `leftRotate(x)`: the mirror image of `RightRotate`. */
  function LeftRotate(x: Tree): (r: Tree)
    requires x.Node? && x.right.Node?
    ensures AllNodes(r) == AllNodes(x)
  {
    var y := x.right;
    var t2 := y.left;
    var x' := Node(x.root, Max(Height(x.left), Height(t2)) + 1, x.left, t2, x.derivatives);
    Node(y.root, Max(Height(x'), Height(y.right)) + 1, x', y.right, y.derivatives)
  }

  /** The subtrees of `n` are AVL trees. */
  ghost predicate ChildrenAvl(n: Tree)
    requires n.Node?
  {
    HeightsOk(n.left) && Balanced(n.left) && HeightsOk(n.right) && Balanced(n.right)
  }

  /** Left-left case: one right rotation restores balance. */
  lemma RotateRightRestores(n: Tree)
    requires n.Node? && n.left.Node? && ChildrenAvl(n)
    requires Height(n.left) == Height(n.right) + 2 && Balance(n.left) == 1
    ensures HeightsOk(RightRotate(n)) && Balanced(RightRotate(n))
    ensures Height(RightRotate(n)) == Height(n.left)
  {
    HeightNonNegative(n.left.right);
  }

  /** Right-right case: one left rotation restores balance. */
  lemma RotateLeftRestores(n: Tree)
    requires n.Node? && n.right.Node? && ChildrenAvl(n)
    requires Height(n.right) == Height(n.left) + 2 && Balance(n.right) == -1
    ensures HeightsOk(LeftRotate(n)) && Balanced(LeftRotate(n))
    ensures Height(LeftRotate(n)) == Height(n.right)
  {
    HeightNonNegative(n.right.left);
  }

  /** Left-right case: rotating the left child left and then the node right
      restores balance. */
  lemma RotateLeftRightRestores(n: Tree)
    requires n.Node? && n.left.Node? && n.left.right.Node? && ChildrenAvl(n)
    requires Height(n.left) == Height(n.right) + 2 && Balance(n.left) == -1
    ensures HeightsOk(RightRotate(n.(left := LeftRotate(n.left))))
    ensures Balanced(RightRotate(n.(left := LeftRotate(n.left))))
    ensures Height(RightRotate(n.(left := LeftRotate(n.left)))) == Height(n.left)
  {
    assert HeightsOk(n.left.right) && Balanced(n.left.right);
    var b := n.left.right;
    HeightNonNegative(b.left);
    HeightNonNegative(b.right);
    HeightNonNegative(n.left.left);
  }

  /** Right-left case: the mirror image of the left-right case. */
  lemma RotateRightLeftRestores(n: Tree)
    requires n.Node? && n.right.Node? && n.right.left.Node? && ChildrenAvl(n)
    requires Height(n.right) == Height(n.left) + 2 && Balance(n.right) == 1
    ensures HeightsOk(LeftRotate(n.(right := RightRotate(n.right))))
    ensures Balanced(LeftRotate(n.(right := RightRotate(n.right))))
    ensures Height(LeftRotate(n.(right := RightRotate(n.right)))) == Height(n.right)
  {
    assert HeightsOk(n.right.left) && Balanced(n.right.left);
    var b := n.right.left;
    HeightNonNegative(b.left);
    HeightNonNegative(b.right);
    HeightNonNegative(n.right.right);
  }

  /** What insertion guarantees about a node whose child just received `key`:
      the children are AVL trees, differ in height by at most two, and when
      they differ by two the taller child leans towards the side `key` went
      to (which is what selects the rotation). */
  ghost predicate RebalanceReady(n: Tree, key: string) {
    && n.Node? && ChildrenAvl(n)
    && -2 <= Height(n.left) - Height(n.right) <= 2
    && (Height(n.left) - Height(n.right) == 2 ==>
          n.left.Node? &&
          ((Less(key, n.left.root) && Balance(n.left) == 1) ||
           (Less(n.left.root, key) && Balance(n.left) == -1)))
    && (Height(n.left) - Height(n.right) == -2 ==>
          n.right.Node? &&
          ((Less(n.right.root, key) && Balance(n.right) == -1) ||
           (Less(key, n.right.root) && Balance(n.right) == 1)))
  }

  /** Steps 2 to 4 of `insert`: refresh the node's height, then apply the
      LL, RR, LR or RL rotation that the balance factor and the position of
      `key` select. */
  function Rebalance(n: Tree, key: string): (r: Tree)
    requires RebalanceReady(n, key)
    ensures HeightsOk(r) && Balanced(r)
    ensures AllNodes(r) == AllNodes(n)
    ensures -1 <= Balance(n) <= 1 ==> r == n.(height := 1 + Max(Height(n.left), Height(n.right)))
    ensures Balance(n) == 2 || Balance(n) == -2 ==> Height(r) == Max(Height(n.left), Height(n.right))
  {
    var node := n.(height := 1 + Max(Height(n.left), Height(n.right)));
    var balance := Balance(node);
    HeightNonNegative(n.left);
    HeightNonNegative(n.right);
    if balance > 1 && CompareTo(key, node.left.root) < 0 then
      LessAsymmetric(key, node.left.root);
      RotateRightRestores(node);
      RightRotate(node)
    else if balance < -1 && CompareTo(key, node.right.root) > 0 then
      CompareToFlips(node.right.root, key);
      RotateLeftRestores(node);
      LeftRotate(node)
    else if balance > 1 && CompareTo(key, node.left.root) > 0 then
      CompareToFlips(node.left.root, key);
      HeightNonNegative(node.left.left);
      RotateLeftRightRestores(node);
      RightRotate(node.(left := LeftRotate(node.left)))
    else if balance < -1 && CompareTo(key, node.right.root) < 0 then
      LessAsymmetric(key, node.right.root);
      HeightNonNegative(node.right.right);
      RotateRightLeftRestores(node);
      LeftRotate(node.(right := RightRotate(node.right)))
    else
      LessIrreflexive(key);
      node
  }

  // ---------------------------------------------------------------------
  // insert
  // ---------------------------------------------------------------------

  /** The in-order listing of `Insert(t, key) == r` is the sorted insertion
      of `key` into that of `t`, and `r` is again an AVL search tree. */
  ghost predicate InsertedListing(t: Tree, key: string, r: Tree) {
    && Valid(r)
    && AllNodes(r) == InsertSorted(AllNodes(t), key)
    && Keys(r) == Keys(t) + {key}
  }

  /** The height of `Insert(t, key) == r` grows by at most one; a present key
      changes nothing; and when the height does grow, the root stays and the
      tree leans to the side `key` went to. */
  ghost predicate InsertedShape(t: Tree, key: string, r: Tree) {
    && Height(t) <= Height(r) <= Height(t) + 1
    && (key in Keys(t) ==> r == t)
    && (t.Node? && Height(r) == Height(t) + 1 ==>
          r.Node? && r.root == t.root &&
          (Less(key, t.root) ==> Balance(r) == 1) &&
          (Less(t.root, key) ==> Balance(r) == -1))
  }

  /** `insert(node, key)`: ordinary search-tree insertion of a fresh node
      (height 1, no derivatives) followed by rebalancing on the way up; a key
      already present returns the subtree unchanged. */
  function Insert(t: Tree, key: string): (r: Tree)
    requires Valid(t)
    ensures Valid(r)
    ensures Keys(r) == Keys(t) + {key}
    ensures AllNodes(r) == InsertSorted(AllNodes(t), key)
    ensures Height(t) <= Height(r) <= Height(t) + 1
    ensures key in Keys(t) ==> r == t
    ensures t.Nil? ==> r == Node(key, 1, Nil, Nil, [])
    ensures InsertedListing(t, key, r) && InsertedShape(t, key, r)
    decreases t
  {
    if t.Nil? then
      Node(key, 1, Nil, Nil, [])
    else if CompareTo(key, t.root) < 0 then
      var l := Insert(t.left, key);
      InsertedLeftReady(t, key, l);
      var r := Rebalance(t.(left := l), key);
      InsertedLeftListing(t, key, l, r);
      InsertedLeftShape(t, key, l, r);
      r
    else if CompareTo(key, t.root) > 0 then
      var rt := Insert(t.right, key);
      CompareToFlips(t.root, key);
      InsertedRightReady(t, key, rt);
      var r := Rebalance(t.(right := rt), key);
      InsertedRightListing(t, key, rt, r);
      InsertedRightShape(t, key, rt, r);
      r
    else
      OrderedSorted(t);
      KeysListed(t);
      InsertSortedPresent(AllNodes(t), key);
      t
  }

  lemma InsertedLeftReady(t: Tree, key: string, l: Tree)
    requires Valid(t) && t.Node? && Less(key, t.root)
    requires InsertedListing(t.left, key, l) && InsertedShape(t.left, key, l)
    ensures RebalanceReady(t.(left := l), key)
  {
    HeightNonNegative(t.right);
    HeightNonNegative(t.left);
    if Height(l) - Height(t.right) == 2 {
      assert Height(t.left) >= 1;
      assert t.left.Node?;
      assert Height(l) == Height(t.left) + 1;
      LessTotal(key, t.left.root);
    }
  }

  lemma InsertedLeftListing(t: Tree, key: string, l: Tree, r: Tree)
    requires Valid(t) && t.Node? && Less(key, t.root)
    requires InsertedListing(t.left, key, l)
    requires RebalanceReady(t.(left := l), key)
    requires r == Rebalance(t.(left := l), key)
    ensures InsertedListing(t, key, r)
  {
    LeftListing(t, key, l, r);
    ListingFinish(t, key, r);
  }

  lemma LeftListing(t: Tree, key: string, l: Tree, r: Tree)
    requires t.Node? && Less(key, t.root)
    requires AllNodes(l) == InsertSorted(AllNodes(t.left), key)
    requires AllNodes(r) == AllNodes(t.(left := l))
    ensures AllNodes(r) == InsertSorted(AllNodes(t), key)
  {
    InsertSortedBeforeNode(AllNodes(t.left), RootRecord(t.root, t.derivatives), AllNodes(t.right), key);
  }

  /** Inserting a key smaller than a node's root only touches the part of the
      listing left of the node. */
  lemma InsertSortedBeforeNode(a: seq<RootRecord>, x: RootRecord, b: seq<RootRecord>, key: string)
    requires Less(key, x.root)
    ensures InsertSorted(a + [x] + b, key) == InsertSorted(a, key) + [x] + b
  {
    InsertSortedBefore(a, [x] + b, key);
    assert a + [x] + b == a + ([x] + b);
    assert InsertSorted(a, key) + [x] + b == InsertSorted(a, key) + ([x] + b);
  }

  /** A balanced tree with correct heights whose listing is the sorted
      insertion of `key` into the listing of `t` is the tree `t` with `key`
      inserted. */
  lemma ListingFinish(t: Tree, key: string, r: Tree)
    requires Valid(t) && HeightsOk(r) && Balanced(r)
    requires AllNodes(r) == InsertSorted(AllNodes(t), key)
    ensures InsertedListing(t, key, r)
  {
    OrderedSorted(t);
    InsertSortedSorted(AllNodes(t), key);
    SortedOrdered(r);
    KeysListed(t);
    KeysListed(r);
    InsertSortedRoots(AllNodes(t), key);
  }

  lemma InsertedLeftShape(t: Tree, key: string, l: Tree, r: Tree)
    requires Valid(t) && t.Node? && Less(key, t.root)
    requires InsertedShape(t.left, key, l)
    requires RebalanceReady(t.(left := l), key)
    requires r == Rebalance(t.(left := l), key)
    ensures InsertedShape(t, key, r)
  {
    LessAsymmetric(key, t.root);
    LessIrreflexive(key);
    HeightNonNegative(t.left);
    HeightNonNegative(t.right);
    if key in Keys(t.left) {
      assert t.(left := l) == t;
    }
  }

  lemma InsertedRightReady(t: Tree, key: string, rt: Tree)
    requires Valid(t) && t.Node? && Less(t.root, key)
    requires InsertedListing(t.right, key, rt) && InsertedShape(t.right, key, rt)
    ensures RebalanceReady(t.(right := rt), key)
  {
    HeightNonNegative(t.right);
    HeightNonNegative(t.left);
    if Height(rt) - Height(t.left) == 2 {
      assert Height(t.right) >= 1;
      assert t.right.Node?;
      assert Height(rt) == Height(t.right) + 1;
      LessTotal(key, t.right.root);
    }
  }

  lemma InsertedRightListing(t: Tree, key: string, rt: Tree, r: Tree)
    requires Valid(t) && t.Node? && Less(t.root, key)
    requires InsertedListing(t.right, key, rt)
    requires RebalanceReady(t.(right := rt), key)
    requires r == Rebalance(t.(right := rt), key)
    ensures InsertedListing(t, key, r)
  {
    var x := RootRecord(t.root, t.derivatives);
    var a, b := AllNodes(t.left), AllNodes(t.right);
    assert forall i :: 0 <= i < |a + [x]| ==> Less((a + [x])[i].root, key) by {
      KeysListed(t.left);
      forall i | 0 <= i < |a + [x]| ensures Less((a + [x])[i].root, key) {
        if i < |a| {
          assert a[i] in a;
          LessTransitive(a[i].root, t.root, key);
        }
      }
    }
    assert AllNodes(r) == InsertSorted(AllNodes(t), key) by {
      InsertSortedAfter(a + [x], b, key);
      assert AllNodes(t) == (a + [x]) + b;
      assert AllNodes(r) == (a + [x]) + AllNodes(rt);
    }
    ListingFinish(t, key, r);
  }

  lemma InsertedRightShape(t: Tree, key: string, rt: Tree, r: Tree)
    requires Valid(t) && t.Node? && Less(t.root, key)
    requires InsertedShape(t.right, key, rt)
    requires RebalanceReady(t.(right := rt), key)
    requires r == Rebalance(t.(right := rt), key)
    ensures InsertedShape(t, key, r)
  {
    LessAsymmetric(t.root, key);
    LessIrreflexive(key);
    HeightNonNegative(t.left);
    HeightNonNegative(t.right);
    if key in Keys(t.right) {
      assert t.(right := rt) == t;
    }
  }

  // ---------------------------------------------------------------------
  // find / contains
  // ---------------------------------------------------------------------

  /** `find(node, target)`: the search path of `target`; the node reached,
      or Nil when the path runs out. */
  function Find(t: Tree, target: string): (r: Tree)
    ensures r.Node? ==> r.root == target && RootRecord(target, r.derivatives) in AllNodes(t)
    ensures Ordered(t) ==> (r.Node? <==> target in Keys(t))
    decreases t
  {
    if t.Nil? then Nil
    else if target == t.root then t
    else if CompareTo(target, t.root) < 0 then
      var r := Find(t.left, target);
      assert Ordered(t) && target in Keys(t) ==> target in Keys(t.left) by {
        if Ordered(t) && target in Keys(t) && target in Keys(t.right) {
          LessAsymmetric(target, t.root);
        }
      }
      r
    else
      var r := Find(t.right, target);
      assert Ordered(t) && target in Keys(t) ==> target in Keys(t.right) by {
        if Ordered(t) && target in Keys(t) && target in Keys(t.left) {
          CompareToFlips(target, t.root);
          LessAsymmetric(target, t.root);
        }
      }
      r
  }

  /** `contains(target)`: `find` reaches a node. */
  function Contains(t: Tree, target: string): (b: bool)
    ensures Ordered(t) ==> (b <==> target in Keys(t))
  {
    Find(t, target).Node?
  }

  /** In a search tree the node `find` reaches is the unique record of its
      root in the in-order listing. */
  lemma FindIsListed(t: Tree, target: string, ds: seq<Derivative>)
    requires Ordered(t)
    ensures Find(t, target).Node? && Find(t, target).derivatives == ds <==> RootRecord(target, ds) in AllNodes(t)
  {
    OrderedIffSorted(t);
    var s := AllNodes(t);
    if RootRecord(target, ds) in s {
      KeysListed(t);
      var f := Find(t, target);
      assert f.Node?;
      var i :| 0 <= i < |s| && s[i] == RootRecord(target, ds);
      var j :| 0 <= j < |s| && s[j] == RootRecord(target, f.derivatives);
      if i != j {
        LessIrreflexive(target);
      }
    }
  }

  // ---------------------------------------------------------------------
  // Updating a node's derivative list in place
  // ---------------------------------------------------------------------

  /** The listing with the record of `key` given the list `ds`. */
  function Overwrite(s: seq<RootRecord>, key: string, ds: seq<Derivative>): seq<RootRecord> {
    seq(|s|, i requires 0 <= i < |s| => if s[i].root == key then RootRecord(key, ds) else s[i])
  }

  /** Replaces the derivative list of the node that `find(key)` reaches,
      leaving the shape, the keys and the heights of the tree alone. */
  function SetDerivatives(t: Tree, key: string, ds: seq<Derivative>): (r: Tree)
    ensures Height(r) == Height(t)
    ensures |AllNodes(r)| == |AllNodes(t)|
    ensures forall i :: 0 <= i < |AllNodes(t)| ==> AllNodes(r)[i].root == AllNodes(t)[i].root
    ensures Ordered(t) ==> AllNodes(r) == Overwrite(AllNodes(t), key, ds)
    ensures HeightsOk(t) ==> HeightsOk(r)
    ensures Balanced(t) ==> Balanced(r)
    decreases t
  {
    if t.Nil? then Nil
    else
      var r :=
        if key == t.root then t.(derivatives := ds)
        else if CompareTo(key, t.root) < 0 then t.(left := SetDerivatives(t.left, key, ds))
        else t.(right := SetDerivatives(t.right, key, ds));
      assert |AllNodes(r)| == |AllNodes(t)| &&
        forall i :: 0 <= i < |AllNodes(t)| ==> AllNodes(r)[i].root == AllNodes(t)[i].root by {
        SameRootsJoin(AllNodes(t.left), AllNodes(r.left), RootRecord(t.root, t.derivatives),
          RootRecord(r.root, r.derivatives), AllNodes(t.right), AllNodes(r.right));
      }
      assert Ordered(t) ==> AllNodes(r) == Overwrite(AllNodes(t), key, ds) by {
        if Ordered(t) {
          OverwriteNode(t, key, ds, r);
        }
      }
      r
  }

  /** The listing of one step of `SetDerivatives`, given the listing of the
      recursive call. */
  lemma OverwriteNode(t: Tree, key: string, ds: seq<Derivative>, r: Tree)
    requires t.Node? && Ordered(t)
    requires key == t.root ==> r == t.(derivatives := ds)
    requires CompareTo(key, t.root) < 0 ==>
      r.Node? && r == t.(left := r.left) && AllNodes(r.left) == Overwrite(AllNodes(t.left), key, ds)
    requires key != t.root && CompareTo(key, t.root) >= 0 ==>
      r.Node? && r == t.(right := r.right) && AllNodes(r.right) == Overwrite(AllNodes(t.right), key, ds)
    ensures AllNodes(r) == Overwrite(AllNodes(t), key, ds)
  {
    CompareToFlips(key, t.root);
    SidesAvoid(t, key);
    var a, b := AllNodes(t.left), AllNodes(t.right);
    var x := RootRecord(t.root, t.derivatives);
    OverwriteJoin(a, x, b, key, ds);
    if key == t.root {
      OverwriteAbsent(a, key, ds);
      OverwriteAbsent(b, key, ds);
      assert Overwrite([x], key, ds) == [RootRecord(key, ds)];
    } else if CompareTo(key, t.root) < 0 {
      OverwriteAbsent(b, key, ds);
      assert Overwrite([x], key, ds) == [x];
    } else {
      OverwriteAbsent(a, key, ds);
      assert Overwrite([x], key, ds) == [x];
    }
  }

  /** Two listings with the same roots, joined around records with the same
      root, have the same roots. */
  lemma SameRootsJoin(a: seq<RootRecord>, a': seq<RootRecord>, x: RootRecord, x': RootRecord,
                      b: seq<RootRecord>, b': seq<RootRecord>)
    requires |a| == |a'| && forall i :: 0 <= i < |a| ==> a'[i].root == a[i].root
    requires |b| == |b'| && forall i :: 0 <= i < |b| ==> b'[i].root == b[i].root
    requires x'.root == x.root
    ensures var s, s' := a + [x] + b, a' + [x'] + b';
      |s| == |s'| && forall i :: 0 <= i < |s| ==> s'[i].root == s[i].root
  {
    var s, s' := a + [x] + b, a' + [x'] + b';
    forall i | 0 <= i < |s| ensures s'[i].root == s[i].root {
      if i < |a| {
        assert s[i] == a[i] && s'[i] == a'[i];
      } else if i > |a| {
        assert s[i] == b[i - |a| - 1] && s'[i] == b'[i - |a| - 1];
      }
    }
  }

  lemma OverwriteJoin(a: seq<RootRecord>, x: RootRecord, b: seq<RootRecord>, key: string, ds: seq<Derivative>)
    ensures Overwrite(a + [x] + b, key, ds) == Overwrite(a, key, ds) + Overwrite([x], key, ds) + Overwrite(b, key, ds)
  {
  }

  /** Overwriting a root the listing does not hold changes nothing. */
  lemma OverwriteAbsent(s: seq<RootRecord>, key: string, ds: seq<Derivative>)
    requires forall i :: 0 <= i < |s| ==> s[i].root != key
    ensures Overwrite(s, key, ds) == s
  {
  }

  /** In a search tree, a key smaller than the root appears nowhere to the
      right of it and a larger one nowhere to the left. */
  lemma SidesAvoid(t: Tree, key: string)
    requires t.Node? && Ordered(t)
    ensures Less(key, t.root) ==> forall i :: 0 <= i < |AllNodes(t.right)| ==> AllNodes(t.right)[i].root != key
    ensures Less(t.root, key) ==> forall i :: 0 <= i < |AllNodes(t.left)| ==> AllNodes(t.left)[i].root != key
    ensures key == t.root ==> forall i :: 0 <= i < |AllNodes(t.left)| ==> AllNodes(t.left)[i].root != key
    ensures key == t.root ==> forall i :: 0 <= i < |AllNodes(t.right)| ==> AllNodes(t.right)[i].root != key
  {
    KeysListed(t.left);
    KeysListed(t.right);
    LessIrreflexive(key);
    LessAsymmetric(key, t.root);
    forall i | 0 <= i < |AllNodes(t.right)| ensures AllNodes(t.right)[i] in AllNodes(t.right) {
    }
    forall i | 0 <= i < |AllNodes(t.left)| ensures AllNodes(t.left)[i] in AllNodes(t.left) {
    }
  }

  /** Overwriting a derivative list keeps every invariant of the tree. */
  lemma SetDerivativesValid(t: Tree, key: string, ds: seq<Derivative>)
    requires Valid(t)
    ensures Valid(SetDerivatives(t, key, ds))
    ensures Keys(SetDerivatives(t, key, ds)) == Keys(t)
  {
    var r := SetDerivatives(t, key, ds);
    OrderedIffSorted(t);
    OrderedIffSorted(r);
    KeysListed(t);
    KeysListed(r);
    SameRoots(AllNodes(t), AllNodes(r));
  }

  /** Listings that agree on the root at every position have the same root
      set, and one is sorted exactly when the other is. */
  lemma SameRoots(a: seq<RootRecord>, b: seq<RootRecord>)
    requires |a| == |b| && forall i :: 0 <= i < |a| ==> b[i].root == a[i].root
    ensures RootSet(a) == RootSet(b)
    ensures Sorted(a) <==> Sorted(b)
  {
    assert forall x :: x in b ==> x.root in RootSet(a) by {
      forall x | x in b ensures x.root in RootSet(a) {
        var i :| 0 <= i < |b| && b[i] == x;
        assert a[i] in a;
      }
    }
    assert forall x :: x in a ==> x.root in RootSet(b) by {
      forall x | x in a ensures x.root in RootSet(b) {
        var i :| 0 <= i < |a| && a[i] == x;
        assert b[i] in b;
      }
    }
  }

  /** Number of nodes. */
  function Size(t: Tree): (n: nat)
    ensures n == |AllNodes(t)|
  {
    match t
    case Nil => 0
    case Node(_, _, l, r, _) => Size(l) + 1 + Size(r)
  }
}

=== FILE: fixed_table.dfy ===
/** The scheme table the service uses: separate chaining over a fixed array
    of 16 buckets, with no entry counter and no resizing. A scheme's
    pattern is whatever the caller passed, null included. */
module FixedTable {
  import opened Wrappers
  import opened HashChains

  const Capacity: nat := 16

  /** A scheme name and its construction pattern, null when none was
      given. */
  type SchemeEntry = Entry<Option<string>>

  datatype Table = Table(buckets: seq<seq<SchemeEntry>>)

  /** Exactly 16 buckets and the chaining invariant. */
  ghost predicate Valid(t: Table) {
    |t.buckets| == Capacity && WellFormed(t.buckets)
  }

  /** `new ManualHashTable()`. */
  function Empty(): (t: Table)
    ensures Valid(t)
    ensures GetAll(t) == []
    ensures forall k :: Find(t, k) == None && Get(t, k) == None
  {
    EmptyBucketsEmpty<Option<string>>(Capacity);
    Table(EmptyBuckets(Capacity))
  }

  /** `hash(key)`, always a bucket of the fixed array. */
  function Hash(key: string): (h: nat)
    ensures 0 <= h < Capacity
  {
    BucketIndex(key, Capacity)
  }

  /** The search loop of `get`: the pattern of the key's entry, itself
      possibly null, when the key has an entry. */
  function Find(t: Table, key: string): Option<Option<string>>
    requires Valid(t)
  {
    Lookup(t.buckets, key)
  }

  /** `get(key)`: the stored pattern, or null, both when the key has no
      entry and when its pattern is null. */
  function Get(t: Table, key: string): (r: Option<string>)
    requires Valid(t)
    ensures r.Some? ==> Find(t, key) == Some(r)
    ensures Find(t, key).Some? ==> r == Find(t, key).value
    ensures Find(t, key).None? ==> r.None?
    ensures Find(t, key) == Some(None) ==> r.None?
  {
    match Find(t, key)
    case None => None
    case Some(v) => v
  }

  /** `getAll()`: every entry, in bucket-index order and then chain order. */
  function GetAll(t: Table): seq<SchemeEntry> {
    Flatten(t.buckets)
  }

  /** `getAll` lists each key that has an entry exactly once, with the
      pattern stored for it. */
  lemma GetAllListsTable(t: Table)
    requires Valid(t)
    ensures UniqueKeys(GetAll(t))
    ensures forall k :: k in Keys(GetAll(t)) <==> Find(t, k).Some?
    ensures forall k :: Find(t, k) == ChainGet(GetAll(t), k)
  {
    FlattenUnique(t.buckets);
    forall k ensures Find(t, k) == ChainGet(GetAll(t), k) {
      LookupListed(t.buckets, k);
    }
  }

  /** `put(key, value)`: an existing key has its pattern replaced in place
      and no entry is added; a new key is prepended to the chain of its
      bucket. A null pattern is stored like any other. */
  function Put(t: Table, key: string, value: Option<string>): (r: Table)
    requires Valid(t)
    ensures Valid(r)
    ensures Find(r, key) == Some(value) && Get(r, key) == value
    ensures forall k :: k != key ==> Find(r, k) == Find(t, k)
    ensures Find(t, key).Some? ==> |GetAll(r)| == |GetAll(t)|
    ensures Find(t, key).Some? ==> r.buckets == t.buckets[Hash(key) := ChainSet(t.buckets[Hash(key)], key, value)]
    ensures Find(t, key).None? ==> r.buckets == t.buckets[Hash(key) := [Entry(key, value)] + t.buckets[Hash(key)]]
    ensures Find(t, key).None? ==> |GetAll(r)| == |GetAll(t)| + 1
  {
    Table(Store(t.buckets, key, value))
  }

  /** `remove(key)`: a null key returns null; otherwise the key's entry is
      unlinked and its pattern returned, or null with nothing changed when
      the key has no entry. */
  function Remove(t: Table, key: Option<string>): (r: (Table, Option<string>))
    requires Valid(t)
    ensures Valid(r.0)
    ensures key.None? ==> r == (t, None)
    ensures key.Some? ==> r.1 == Get(t, key.value)
    ensures key.Some? ==> Find(r.0, key.value) == None
    ensures key.Some? ==> forall k :: k != key.value ==> Find(r.0, k) == Find(t, k)
    ensures key.Some? && Find(t, key.value).None? ==> r.0 == t
    ensures key.Some? && Find(t, key.value).Some? ==> |GetAll(r.0)| == |GetAll(t)| - 1
  {
    if key.None? then (t, None)
    else
      var (bs, v) := Delete(t.buckets, key.value);
      (Table(bs), if v.Some? then v.value else None)
  }

  /** Two tables whose keys have the same entries list the same keys. */
  lemma SameKeysListed(t: Table, u: Table)
    requires Valid(t) && Valid(u)
    requires forall k :: Find(t, k) == Find(u, k)
    ensures Keys(GetAll(t)) == Keys(GetAll(u))
  {
    GetAllListsTable(t);
    GetAllListsTable(u);
  }
}

=== FILE: group_list.dfy ===
/** The administration of transformation groups: the in-memory list of
    groups, looked up, replaced and removed by key without regard to ASCII
    case. */
module GroupList {
  import opened Wrappers
  import opened JavaString
  import opened Transformations

  /** The group's key matches `key` ignoring case. */
  predicate KeyMatches(g: Group, key: string) {
    EqualsIgnoreCase(g.key, key)
  }

  /** Group `i` is the first whose key matches. */
  predicate FirstMatch(groups: seq<Group>, i: int, key: string)
    requires 0 <= i < |groups|
  {
    KeyMatches(groups[i], key) && forall j :: 0 <= j < i ==> !KeyMatches(groups[j], key)
  }

  /** `getTransformationGroup(key)`: the first group whose key matches. */
  function GetGroup(groups: seq<Group>, key: string): (r: Option<Group>)
    ensures r.None? <==> forall i :: 0 <= i < |groups| ==> !KeyMatches(groups[i], key)
    ensures r.Some? ==> exists i :: 0 <= i < |groups| && groups[i] == r.value && FirstMatch(groups, i, key)
    decreases |groups|
  {
    if |groups| == 0 then None
    else if KeyMatches(groups[0], key) then Some(groups[0])
    else
      var r := GetGroup(groups[1..], key);
      assert forall i :: 1 <= i < |groups| ==> groups[i] == groups[1..][i - 1];
      r
  }

  /** Every position moved one place on. */
  function Shift(t: seq<nat>): (r: seq<nat>)
    ensures |r| == |t| && forall i :: 0 <= i < |t| ==> r[i] == t[i] + 1
  {
    seq(|t|, i requires 0 <= i < |t| => t[i] + 1)
  }

  predicate Increasing(ps: seq<nat>) {
    forall i, j :: 0 <= i < j < |ps| ==> ps[i] < ps[j]
  }

  /** Whether each group's key matches `key`. */
  function MatchFlags(groups: seq<Group>, key: string): (fs: seq<bool>)
    ensures |fs| == |groups| && forall i :: 0 <= i < |groups| ==> fs[i] == KeyMatches(groups[i], key)
  {
    seq(|groups|, i requires 0 <= i < |groups| => KeyMatches(groups[i], key))
  }

  /** The positions whose flag is unset, front to back. */
  function KeptPositions(fs: seq<bool>): seq<nat>
    decreases |fs|
  {
    if |fs| == 0 then []
    else
      var shifted := Shift(KeptPositions(fs[1..]));
      if fs[0] then shifted else [0] + shifted
  }

  lemma KeptPositionsUnfold(fs: seq<bool>)
    requires |fs| > 0
    ensures KeptPositions(fs) ==
      if fs[0] then Shift(KeptPositions(fs[1..])) else [0] + Shift(KeptPositions(fs[1..]))
  {
  }

  lemma ShiftIncreasing(t: seq<nat>)
    requires Increasing(t)
    ensures Increasing(Shift(t)) && Increasing([0] + Shift(t))
  {
    var u := [0] + Shift(t);
    forall i, j | 0 <= i < j < |u| ensures u[i] < u[j] {
      assert u[j] == t[j - 1] + 1;
      if i > 0 {
        assert u[i] == t[i - 1] + 1;
      }
    }
  }

  /** The kept positions increase strictly. */
  lemma {:induction false} KeptPositionsIncrease(fs: seq<bool>)
    ensures Increasing(KeptPositions(fs))
    decreases |fs|
  {
    if |fs| > 0 {
      KeptPositionsIncrease(fs[1..]);
      KeptPositionsUnfold(fs);
      ShiftIncreasing(KeptPositions(fs[1..]));
    }
  }

  /** The positions listed in `ps` are exactly those whose flag is unset. */
  ghost predicate ListsUnset(ps: seq<nat>, fs: seq<bool>) {
    && (forall i :: 0 <= i < |ps| ==> ps[i] < |fs| && !fs[ps[i]])
    && (forall p :: 0 <= p < |fs| && !fs[p] ==> p in ps)
  }

  lemma ShiftListsUnset(t: seq<nat>, fs: seq<bool>)
    requires |fs| > 0 && ListsUnset(t, fs[1..])
    ensures fs[0] ==> ListsUnset(Shift(t), fs)
    ensures !fs[0] ==> ListsUnset([0] + Shift(t), fs)
  {
    var u := if fs[0] then Shift(t) else [0] + Shift(t);
    var d := if fs[0] then 0 else 1;
    forall i | 0 <= i < |u| ensures u[i] < |fs| && !fs[u[i]] {
      if i >= d {
        assert u[i] == t[i - d] + 1 && fs[1..][t[i - d]] == fs[u[i]];
      }
    }
    forall p | 0 <= p < |fs| && !fs[p] ensures p in u {
      if p > 0 {
        assert fs[1..][p - 1] == fs[p];
        var j :| 0 <= j < |t| && t[j] == p - 1;
        assert u[j + d] == p;
      }
    }
  }

  /** The kept positions are exactly the positions whose flag is unset. */
  lemma {:induction false} KeptPositionsExact(fs: seq<bool>)
    ensures ListsUnset(KeptPositions(fs), fs)
    decreases |fs|
  {
    if |fs| > 0 {
      KeptPositionsExact(fs[1..]);
      KeptPositionsUnfold(fs);
      ShiftListsUnset(KeptPositions(fs[1..]), fs);
    }
  }

  /** `removeIf(g -> g.getKey().equalsIgnoreCase(key))`: the groups whose key
      does not match, in their order. */
  function WithoutKey(groups: seq<Group>, key: string): (r: seq<Group>)
    ensures |r| <= |groups|
    ensures forall g :: g in r <==> g in groups && !KeyMatches(g, key)
    ensures (forall i :: 0 <= i < |groups| ==> !KeyMatches(groups[i], key)) ==> r == groups
    ensures (exists i :: 0 <= i < |groups| && KeyMatches(groups[i], key)) ==> |r| < |groups|
    decreases |groups|
  {
    if |groups| == 0 then []
    else
      var rest := WithoutKey(groups[1..], key);
      assert forall i :: 1 <= i < |groups| ==> groups[i] == groups[1..][i - 1];
      assert groups == [groups[0]] + groups[1..];
      if KeyMatches(groups[0], key) then rest else [groups[0]] + rest
  }

  /** `removeIf` keeps order: the groups left are exactly the groups at the
      positions whose key does not match, in increasing order of position. */
  lemma WithoutKeyInOrder(groups: seq<Group>, key: string)
    ensures Increasing(KeptPositions(MatchFlags(groups, key)))
    ensures forall p :: 0 <= p < |groups| ==>
      (p in KeptPositions(MatchFlags(groups, key)) <==> !KeyMatches(groups[p], key))
    ensures var r, ps := WithoutKey(groups, key), KeptPositions(MatchFlags(groups, key));
      |r| == |ps| && forall i :: 0 <= i < |ps| ==> ps[i] < |groups| && r[i] == groups[ps[i]]
  {
    var fs := MatchFlags(groups, key);
    KeptPositionsIncrease(fs);
    KeptPositionsExact(fs);
    WithoutKeyIsKeep(groups, key);
    KeepAt(groups, fs);
  }

  /** The elements whose flag is unset, front to back. */
  function Keep<T>(xs: seq<T>, fs: seq<bool>): seq<T>
    requires |fs| == |xs|
    decreases |xs|
  {
    if |xs| == 0 then []
    else
      var rest := Keep(xs[1..], fs[1..]);
      if fs[0] then rest else [xs[0]] + rest
  }

  /** Element `i` of what `Keep` leaves is the element at the `i`-th kept
      position. */
  lemma {:induction false} KeepAt<T>(xs: seq<T>, fs: seq<bool>)
    requires |fs| == |xs|
    ensures var r, ps := Keep(xs, fs), KeptPositions(fs);
      |r| == |ps| && forall i :: 0 <= i < |ps| ==> ps[i] < |xs| && r[i] == xs[ps[i]]
    decreases |xs|
  {
    if |xs| > 0 {
      KeepAt(xs[1..], fs[1..]);
      var rest, t := Keep(xs[1..], fs[1..]), KeptPositions(fs[1..]);
      var r, ps := Keep(xs, fs), KeptPositions(fs);
      KeptPositionsUnfold(fs);
      var d := if fs[0] then 0 else 1;
      assert r == if fs[0] then rest else [xs[0]] + rest;
      forall i | 0 <= i < |ps| ensures ps[i] < |xs| && r[i] == xs[ps[i]] {
        if i >= d {
          assert r[i] == rest[i - d] && ps[i] == t[i - d] + 1;
          assert rest[i - d] == xs[1..][t[i - d]];
        }
      }
    }
  }

  /** `removeIf` keeps the groups whose match flag is unset. */
  lemma {:induction false} WithoutKeyIsKeep(groups: seq<Group>, key: string)
    ensures WithoutKey(groups, key) == Keep(groups, MatchFlags(groups, key))
    decreases |groups|
  {
    if |groups| > 0 {
      WithoutKeyIsKeep(groups[1..], key);
      MatchFlagsTail(groups, key);
      WithoutKeyCons(groups, key);
    }
  }

  lemma MatchFlagsTail(groups: seq<Group>, key: string)
    requires |groups| > 0
    ensures MatchFlags(groups[1..], key) == MatchFlags(groups, key)[1..]
  {
  }

  lemma WithoutKeyCons(groups: seq<Group>, key: string)
    requires |groups| > 0
    ensures WithoutKey(groups, key) ==
      if KeyMatches(groups[0], key) then WithoutKey(groups[1..], key) else [groups[0]] + WithoutKey(groups[1..], key)
  {
  }

  /** Removing the groups of a key keeps the first match of every key that
      does not match it. */
  lemma {:induction false} WithoutKeyKeepsOthers(groups: seq<Group>, key: string, k: string)
    requires !EqualsIgnoreCase(k, key)
    ensures GetGroup(WithoutKey(groups, key), k) == GetGroup(groups, k)
    decreases |groups|
  {
    if |groups| > 0 {
      WithoutKeyKeepsOthers(groups[1..], key, k);
      EqualsIgnoreCaseFacts(groups[0].key, k, key);
      EqualsIgnoreCaseFacts(k, groups[0].key, key);
    }
  }

  /** `saveTransformationGroup` on the list: every group with a matching key
      is removed and the new group appended. */
  function SaveGroup(groups: seq<Group>, g: Group): (r: seq<Group>)
    ensures |r| >= 1 && r[|r| - 1] == g
    ensures forall i :: 0 <= i < |r| - 1 ==> !KeyMatches(r[i], g.key)
    ensures forall h :: h in groups && !KeyMatches(h, g.key) ==> h in r
    ensures forall h :: h in r ==> h in groups || h == g
    ensures forall k :: EqualsIgnoreCase(k, g.key) ==> GetGroup(r, k) == Some(g)
    ensures forall k :: !EqualsIgnoreCase(k, g.key) ==> GetGroup(r, k) == GetGroup(groups, k)
  {
    var kept := WithoutKey(groups, g.key);
    var r := kept + [g];
    assert forall i :: 0 <= i < |r| - 1 ==> r[i] in kept;
    forall k | EqualsIgnoreCase(k, g.key) ensures GetGroup(r, k) == Some(g) {
      forall i | 0 <= i < |kept| ensures !KeyMatches(kept[i], k) {
        assert kept[i] in kept;
        EqualsIgnoreCaseFacts(kept[i].key, k, g.key);
      }
      EqualsIgnoreCaseFacts(g.key, k, k);
      GetAfterNoMatch(kept, [g], k);
    }
    forall k | !EqualsIgnoreCase(k, g.key) ensures GetGroup(r, k) == GetGroup(groups, k) {
      EqualsIgnoreCaseFacts(g.key, k, k);
      GetAppendMiss(kept, g, k);
      WithoutKeyKeepsOthers(groups, g.key, k);
    }
    r
  }

  lemma {:induction false} GetAfterNoMatch(a: seq<Group>, b: seq<Group>, k: string)
    requires forall i :: 0 <= i < |a| ==> !KeyMatches(a[i], k)
    ensures GetGroup(a + b, k) == GetGroup(b, k)
    decreases |a|
  {
    if |a| > 0 {
      assert (a + b)[0] == a[0] && (a + b)[1..] == a[1..] + b;
      assert !KeyMatches(a[0], k);
      assert forall i :: 0 <= i < |a| - 1 ==> a[1..][i] == a[i + 1];
      GetAfterNoMatch(a[1..], b, k);
    } else {
      assert a + b == b;
    }
  }

  lemma {:induction false} GetAppendMiss(a: seq<Group>, g: Group, k: string)
    requires !KeyMatches(g, k)
    ensures GetGroup(a + [g], k) == GetGroup(a, k)
    decreases |a|
  {
    if |a| == 0 {
      assert [g][1..] == [];
    } else {
      assert (a + [g])[1..] == a[1..] + [g];
      GetAppendMiss(a[1..], g, k);
    }
  }

  /** Saving the same group twice gives the list saving it once gives. */
  lemma SaveGroupIdempotent(groups: seq<Group>, g: Group)
    ensures SaveGroup(SaveGroup(groups, g), g) == SaveGroup(groups, g)
  {
    var once := SaveGroup(groups, g);
    var kept := WithoutKey(groups, g.key);
    assert once == kept + [g];
    EqualsIgnoreCaseFacts(g.key, g.key, g.key);
    WithoutKeyAppend(kept, g, g.key);
    assert forall i :: 0 <= i < |kept| ==> !KeyMatches(kept[i], g.key) by {
      forall i | 0 <= i < |kept| ensures !KeyMatches(kept[i], g.key) {
        assert kept[i] in kept;
      }
    }
  }

  lemma {:induction false} WithoutKeyAppend(a: seq<Group>, g: Group, key: string)
    requires KeyMatches(g, key)
    ensures WithoutKey(a + [g], key) == WithoutKey(a, key)
    decreases |a|
  {
    if |a| == 0 {
      assert [g][1..] == [];
    } else {
      assert (a + [g])[1..] == a[1..] + [g];
      WithoutKeyAppend(a[1..], g, key);
    }
  }

  /** `deleteTransformationGroup(key)` on the list: every group with a
      matching key is removed, and the result says whether any was. */
  function DeleteGroup(groups: seq<Group>, key: string): (r: (seq<Group>, bool))
    ensures r.1 <==> GetGroup(groups, key).Some?
    ensures !r.1 ==> r.0 == groups
    ensures r.1 ==> |r.0| < |groups|
    ensures forall h :: h in r.0 ==> h in groups
    ensures GetGroup(r.0, key) == None
    ensures forall k :: !EqualsIgnoreCase(k, key) ==> GetGroup(r.0, k) == GetGroup(groups, k)
  {
    var kept := WithoutKey(groups, key);
    forall k | !EqualsIgnoreCase(k, key) ensures GetGroup(kept, k) == GetGroup(groups, k) {
      WithoutKeyKeepsOthers(groups, key, k);
    }
    forall i | 0 <= i < |kept| ensures !KeyMatches(kept[i], key) {
      assert kept[i] in kept;
    }
    (kept, GetGroup(groups, key).Some?)
  }
}

=== FILE: hash_chains.dfy ===
/** Separate chaining, shared by both scheme tables: an array of buckets, each
    a linked list of (key, value) entries given head first, and the bucket
    index `|hashCode(key) % capacity|`. */
module HashChains {
  import opened Wrappers
  import opened JavaString

  /** A key and the value stored for it. */
  datatype Entry<V> = Entry(key: string, value: V)

  /** `hash(key)`: Java's truncated remainder of the key's hash code by the
      capacity, made non-negative. */
  function BucketIndex(key: string, capacity: int): (h: nat)
    requires capacity > 0
    ensures h < capacity
  {
    Abs(Rem(HashCode(key), capacity))
  }

  // ---------------------------------------------------------------------
  // One chain
  // ---------------------------------------------------------------------

  function Keys<V>(c: seq<Entry<V>>): set<string>
    decreases |c|
  {
    if |c| == 0 then {} else {c[0].key} + Keys(c[1..])
  }

  /** No key occurs in two entries. */
  ghost predicate UniqueKeys<V>(c: seq<Entry<V>>)
    decreases |c|
  {
    |c| > 0 ==> c[0].key !in Keys(c[1..]) && UniqueKeys(c[1..])
  }

  lemma {:induction false} KeysAppend<V>(a: seq<Entry<V>>, b: seq<Entry<V>>)
    ensures Keys(a + b) == Keys(a) + Keys(b)
    decreases |a|
  {
    if |a| > 0 {
      assert (a + b)[1..] == a[1..] + b;
      KeysAppend(a[1..], b);
    } else {
      assert a + b == b;
    }
  }

  lemma {:induction false} KeysIndexed<V>(c: seq<Entry<V>>, k: string)
    ensures k in Keys(c) <==> exists i :: 0 <= i < |c| && c[i].key == k
    decreases |c|
  {
    if |c| > 0 {
      KeysIndexed(c[1..], k);
      if k in Keys(c[1..]) {
        var i :| 0 <= i < |c[1..]| && c[1..][i].key == k;
        assert c[i + 1].key == k;
      }
      if exists i :: 0 <= i < |c| && c[i].key == k {
        var i :| 0 <= i < |c| && c[i].key == k;
        if i > 0 {
          assert c[1..][i - 1].key == k;
        }
      }
    }
  }

  /** Uniqueness of keys, stated on positions. */
  lemma {:induction false} UniqueKeysIndexed<V>(c: seq<Entry<V>>)
    ensures UniqueKeys(c) <==> forall i, j :: 0 <= i < j < |c| ==> c[i].key != c[j].key
    decreases |c|
  {
    if |c| > 0 {
      UniqueKeysIndexed(c[1..]);
      KeysIndexed(c[1..], c[0].key);
      if UniqueKeys(c) {
        forall i, j | 0 <= i < j < |c| ensures c[i].key != c[j].key {
          assert c[j] == c[1..][j - 1];
          if i > 0 {
            assert c[i] == c[1..][i - 1];
          }
        }
      }
      if forall i, j :: 0 <= i < j < |c| ==> c[i].key != c[j].key {
        forall i, j | 0 <= i < j < |c[1..]| ensures c[1..][i].key != c[1..][j].key {
          assert c[1..][i] == c[i + 1] && c[1..][j] == c[j + 1];
        }
      }
    }
  }

  lemma {:induction false} UniqueAppend<V>(a: seq<Entry<V>>, b: seq<Entry<V>>)
    requires UniqueKeys(a) && UniqueKeys(b) && Keys(a) !! Keys(b)
    ensures UniqueKeys(a + b)
    decreases |a|
  {
    if |a| > 0 {
      assert (a + b)[0] == a[0] && (a + b)[1..] == a[1..] + b;
      KeysAppend(a[1..], b);
      UniqueAppend(a[1..], b);
    } else {
      assert a + b == b;
    }
  }

  /** The search loop of `get` over one chain: the value of the first entry
      with the key, or null. */
  function ChainGet<V>(c: seq<Entry<V>>, key: string): (r: Option<V>)
    ensures r.Some? <==> key in Keys(c)
    ensures r.Some? ==> Entry(key, r.value) in c
    decreases |c|
  {
    if |c| == 0 then None
    else if c[0].key == key then Some(c[0].value)
    else ChainGet(c[1..], key)
  }

  lemma {:induction false} ChainGetAppend<V>(a: seq<Entry<V>>, b: seq<Entry<V>>, key: string)
    ensures ChainGet(a + b, key) == if key in Keys(a) then ChainGet(a, key) else ChainGet(b, key)
    decreases |a|
  {
    if |a| > 0 {
      assert (a + b)[0] == a[0] && (a + b)[1..] == a[1..] + b;
      ChainGetAppend(a[1..], b, key);
    } else {
      assert a + b == b;
    }
  }

  /** The update loop of `put`: the first entry with the key gets the new
      value, in place. */
  function ChainSet<V>(c: seq<Entry<V>>, key: string, value: V): (r: seq<Entry<V>>)
    ensures |r| == |c|
    ensures forall i :: 0 <= i < |c| ==>
      r[i] == if c[i].key == key && key !in Keys(c[..i]) then Entry(key, value) else c[i]
    ensures Keys(r) == Keys(c)
    ensures UniqueKeys(c) ==> UniqueKeys(r)
    ensures key in Keys(c) ==> ChainGet(r, key) == Some(value)
    ensures forall k :: k != key ==> ChainGet(r, k) == ChainGet(c, k)
    decreases |c|
  {
    if |c| == 0 then c
    else
      assert forall i :: 0 < i <= |c| ==> c[..i][0] == c[0] && c[..i][1..] == c[1..][..i - 1];
      if c[0].key == key then [Entry(key, value)] + c[1..]
      else [c[0]] + ChainSet(c[1..], key, value)
  }

  /** A chain after `put(key, value)`: the value replaced in place when the
      key is there, a new entry at the head otherwise. */
  function ChainPut<V>(c: seq<Entry<V>>, key: string, value: V): (r: seq<Entry<V>>)
    ensures key in Keys(c) ==> |r| == |c|
    ensures key in Keys(c) ==> forall i :: 0 <= i < |c| ==>
      r[i] == if c[i].key == key && key !in Keys(c[..i]) then Entry(key, value) else c[i]
    ensures key !in Keys(c) ==> r == [Entry(key, value)] + c
    ensures Keys(r) == Keys(c) + {key}
    ensures UniqueKeys(c) ==> UniqueKeys(r)
    ensures ChainGet(r, key) == Some(value)
    ensures forall k :: k != key ==> ChainGet(r, k) == ChainGet(c, k)
  {
    if key in Keys(c) then ChainSet(c, key, value) else [Entry(key, value)] + c
  }

  /** The unlinking loop of `remove`: drops the first entry with the key and
      returns its value, or null when there is none. */
  function ChainRemove<V>(c: seq<Entry<V>>, key: string): (r: (seq<Entry<V>>, Option<V>))
    ensures r.1 == ChainGet(c, key)
    ensures r.1.None? ==> r.0 == c
    ensures r.1.Some? ==> |r.0| == |c| - 1
    ensures Keys(r.0) <= Keys(c)
    ensures UniqueKeys(c) ==> UniqueKeys(r.0) && key !in Keys(r.0)
    ensures forall k :: k != key ==> ChainGet(r.0, k) == ChainGet(c, k)
    decreases |c|
  {
    if |c| == 0 then (c, None)
    else if c[0].key == key then (c[1..], Some(c[0].value))
    else
      var (rest, v) := ChainRemove(c[1..], key);
      ([c[0]] + rest, v)
  }

  // ---------------------------------------------------------------------
  // The bucket array
  // ---------------------------------------------------------------------

  /** `getAll`: the entries bucket by bucket, each chain head first. */
  function Flatten<V>(bs: seq<seq<Entry<V>>>): seq<Entry<V>>
    decreases |bs|
  {
    if |bs| == 0 then [] else bs[0] + Flatten(bs[1..])
  }

  /** Every key sits in the bucket its hash selects. */
  ghost predicate Placed<V>(bs: seq<seq<Entry<V>>>) {
    |bs| > 0 &&
    forall b :: 0 <= b < |bs| ==> forall k :: k in Keys(bs[b]) ==> BucketIndex(k, |bs|) == b
  }

  /** The representation invariant of a chained table: a non-empty bucket
      array, every key in its own bucket, no key twice in a chain. */
  ghost predicate WellFormed<V>(bs: seq<seq<Entry<V>>>) {
    Placed(bs) && forall b :: 0 <= b < |bs| ==> UniqueKeys(bs[b])
  }

  /** A fresh bucket array: every bucket empty. */
  function EmptyBuckets<V>(capacity: nat): (bs: seq<seq<Entry<V>>>)
    ensures |bs| == capacity
    ensures forall b :: 0 <= b < capacity ==> bs[b] == []
  {
    seq(capacity, _ => [])
  }

  lemma {:induction false} FlattenEmpty<V>(bs: seq<seq<Entry<V>>>)
    requires forall b :: 0 <= b < |bs| ==> bs[b] == []
    ensures Flatten(bs) == []
    decreases |bs|
  {
    if |bs| > 0 {
      FlattenEmpty(bs[1..]);
    }
  }

  /** A fresh bucket array is a well-formed, empty table. */
  lemma EmptyBucketsEmpty<V>(capacity: nat)
    ensures capacity > 0 ==> WellFormed(EmptyBuckets<V>(capacity))
    ensures Flatten(EmptyBuckets<V>(capacity)) == []
  {
    FlattenEmpty(EmptyBuckets<V>(capacity));
  }

  /** `get(key)` on a bucket array. */
  function Lookup<V>(bs: seq<seq<Entry<V>>>, key: string): Option<V>
    requires |bs| > 0
  {
    ChainGet(bs[BucketIndex(key, |bs|)], key)
  }

  lemma {:induction false} FlattenAbsent<V>(bs: seq<seq<Entry<V>>>, key: string)
    requires forall j :: 0 <= j < |bs| ==> key !in Keys(bs[j])
    ensures key !in Keys(Flatten(bs))
    decreases |bs|
  {
    if |bs| > 0 {
      FlattenAbsent(bs[1..], key);
      KeysAppend(bs[0], Flatten(bs[1..]));
    }
  }

  lemma {:induction false} FlattenGet<V>(bs: seq<seq<Entry<V>>>, key: string, h: nat)
    requires h < |bs|
    requires forall j :: 0 <= j < |bs| && j != h ==> key !in Keys(bs[j])
    ensures ChainGet(Flatten(bs), key) == ChainGet(bs[h], key)
    decreases |bs|
  {
    ChainGetAppend(bs[0], Flatten(bs[1..]), key);
    if h == 0 {
      FlattenAbsent(bs[1..], key);
    } else {
      FlattenGet(bs[1..], key, h - 1);
    }
  }

  /** `get` agrees with the first entry for the key in `getAll`. */
  lemma LookupListed<V>(bs: seq<seq<Entry<V>>>, key: string)
    requires WellFormed(bs)
    ensures Lookup(bs, key) == ChainGet(Flatten(bs), key)
  {
    FlattenGet(bs, key, BucketIndex(key, |bs|));
  }

  lemma {:induction false} FlattenUniqueFrom<V>(bs: seq<seq<Entry<V>>>)
    requires forall j :: 0 <= j < |bs| ==> UniqueKeys(bs[j])
    requires forall i, j :: 0 <= i < j < |bs| ==> Keys(bs[i]) !! Keys(bs[j])
    ensures UniqueKeys(Flatten(bs))
    decreases |bs|
  {
    if |bs| > 0 {
      FlattenUniqueFrom(bs[1..]);
      forall k | k in Keys(bs[0]) ensures k !in Keys(Flatten(bs[1..])) {
        FlattenAbsent(bs[1..], k);
      }
      UniqueAppend(bs[0], Flatten(bs[1..]));
    }
  }

  /** `getAll` lists every stored key exactly once. */
  lemma FlattenUnique<V>(bs: seq<seq<Entry<V>>>)
    requires WellFormed(bs)
    ensures UniqueKeys(Flatten(bs))
    ensures forall k :: k in Keys(Flatten(bs)) <==> Lookup(bs, k).Some?
  {
    forall i, j | 0 <= i < j < |bs| ensures Keys(bs[i]) !! Keys(bs[j]) {
      forall k | k in Keys(bs[i]) ensures k !in Keys(bs[j]) {
      }
    }
    FlattenUniqueFrom(bs);
    forall k ensures k in Keys(Flatten(bs)) <==> Lookup(bs, k).Some? {
      LookupListed(bs, k);
    }
  }

  lemma {:induction false} FlattenUpdate<V>(bs: seq<seq<Entry<V>>>, h: nat, c: seq<Entry<V>>)
    requires h < |bs|
    ensures |Flatten(bs[h := c])| == |Flatten(bs)| - |bs[h]| + |c|
    decreases |bs|
  {
    if h == 0 {
      assert bs[h := c][1..] == bs[1..];
    } else {
      assert bs[h := c][1..] == bs[1..][h - 1 := c];
      FlattenUpdate(bs[1..], h - 1, c);
    }
  }

  /** `put(key, value)` on a bucket array, without the load-factor check. */
  function Store<V>(bs: seq<seq<Entry<V>>>, key: string, value: V): (r: seq<seq<Entry<V>>>)
    requires |bs| > 0
    ensures |r| == |bs|
    ensures Lookup(r, key) == Some(value)
    ensures forall k :: k != key ==> Lookup(r, k) == Lookup(bs, k)
    ensures |Flatten(r)| == |Flatten(bs)| + (if Lookup(bs, key).Some? then 0 else 1)
    ensures WellFormed(bs) ==> WellFormed(r)
  {
    var h := BucketIndex(key, |bs|);
    var r := bs[h := ChainPut(bs[h], key, value)];
    FlattenUpdate(bs, h, ChainPut(bs[h], key, value));
    r
  }

  /** `remove(key)` on a bucket array: the new buckets and the value that
      was removed, or null. */
  function Delete<V>(bs: seq<seq<Entry<V>>>, key: string): (r: (seq<seq<Entry<V>>>, Option<V>))
    requires |bs| > 0
    ensures |r.0| == |bs|
    ensures r.1 == Lookup(bs, key)
    ensures r.1.None? ==> r.0 == bs
    ensures forall k :: k != key ==> Lookup(r.0, k) == Lookup(bs, k)
    ensures |Flatten(r.0)| == |Flatten(bs)| - (if r.1.Some? then 1 else 0)
    ensures WellFormed(bs) ==> WellFormed(r.0) && Lookup(r.0, key) == None
  {
    var h := BucketIndex(key, |bs|);
    var (c, v) := ChainRemove(bs[h], key);
    FlattenUpdate(bs, h, c);
    (bs[h := c], v)
  }
}

=== FILE: java_string.dfy ===
/** The parts of java.lang.String (and of Java's int arithmetic) that the
    engine's behaviour depends on, written out over `string` = `seq<char>`:
    `compareTo`, `replace`, `trim`, `split`, `hashCode`, the truncating `%`
    and the rendering of a null reference by string concatenation. */
module JavaString {
  import opened Wrappers

  // ---------------------------------------------------------------------
  // compareTo
  // ---------------------------------------------------------------------

  /** `a.compareTo(b)`: the difference of the first pair of characters that
      differ, or the difference of the lengths when one is a prefix of the
      other. */
  function CompareTo(a: string, b: string): (r: int)
    ensures r == 0 <==> a == b
    decreases |a|
  {
    if |a| == 0 || |b| == 0 then |a| - |b|
    else if a[0] != b[0] then a[0] as int - b[0] as int
    else
      var r := CompareTo(a[1..], b[1..]);
      assert a == [a[0]] + a[1..] && b == [b[0]] + b[1..];
      r
  }

  /** `a.compareTo(b) < 0`: the order of the root index. */
  predicate Less(a: string, b: string) {
    CompareTo(a, b) < 0
  }

  /** Swapping the operands of `compareTo` flips the sign of its result. */
  lemma {:induction false} CompareToFlips(a: string, b: string)
    ensures CompareTo(a, b) < 0 <==> CompareTo(b, a) > 0
    decreases |a|
  {
    if |a| == 0 || |b| == 0 {
    } else if a[0] != b[0] {
    } else {
      CompareToFlips(a[1..], b[1..]);
    }
  }

  lemma LessIrreflexive(a: string)
    ensures !Less(a, a)
  {
  }

  lemma LessAsymmetric(a: string, b: string)
    ensures Less(a, b) ==> !Less(b, a)
  {
    CompareToFlips(a, b);
  }

  /** Two different strings are always ordered one way or the other. */
  lemma LessTotal(a: string, b: string)
    ensures a != b ==> Less(a, b) || Less(b, a)
  {
    CompareToFlips(a, b);
  }

  lemma {:induction false} LessTransitive(a: string, b: string, c: string)
    requires Less(a, b) && Less(b, c)
    ensures Less(a, c)
    decreases |a|
  {
    if |a| == 0 || |b| == 0 || |c| == 0 {
    } else if a[0] != b[0] || b[0] != c[0] {
    } else {
      LessTransitive(a[1..], b[1..], c[1..]);
    }
  }

  // ---------------------------------------------------------------------
  // trim
  // ---------------------------------------------------------------------

  /** True of a string that `trim` leaves alone: it neither starts nor ends
      with a character at or below U+0020. */
  predicate Trimmed(s: string) {
    |s| == 0 || (s[0] > ' ' && s[|s| - 1] > ' ')
  }

  function TrimStart(s: string): (r: string)
    ensures |r| <= |s| && r == s[|s| - |r|..]
    ensures forall k :: 0 <= k < |s| - |r| ==> s[k] <= ' '
    ensures |r| == 0 || r[0] > ' '
    decreases |s|
  {
    if |s| > 0 && s[0] <= ' ' then TrimStart(s[1..]) else s
  }

  function TrimEnd(s: string): (r: string)
    ensures |r| <= |s| && r == s[..|r|]
    ensures forall k :: |r| <= k < |s| ==> s[k] <= ' '
    ensures |r| == 0 || r[|r| - 1] > ' '
    decreases |s|
  {
    if |s| > 0 && s[|s| - 1] <= ' ' then TrimEnd(s[..|s| - 1]) else s
  }

  /** `s.trim()`: drops every leading and trailing character at or below
      U+0020. */
  function Trim(s: string): (r: string)
    ensures Trimmed(r)
    ensures Trimmed(s) ==> r == s
    ensures exists i, j :: 0 <= i <= j <= |s| && r == s[i..j]
  {
    var a := TrimStart(s);
    var r := TrimEnd(a);
    var i, j := |s| - |a|, |s| - |a| + |r|;
    assert 0 <= i <= j <= |s| && r == s[i..j];
    assert |r| == 0 || r[0] == a[0];
    assert Trimmed(s) ==> r == s by {
      if Trimmed(s) {
        assert a == s;
      }
    }
    r
  }

  // ---------------------------------------------------------------------
  // replace
  // ---------------------------------------------------------------------

  /** `s` contains `t` at some position. */
  predicate Occurs(t: string, s: string) {
    exists i :: 0 <= i <= |s| && t <= s[i..]
  }

  /** The number of non-overlapping occurrences of a non-empty `t` that a
      left-to-right scan of `s` finds. */
  function Matches(s: string, t: string): nat
    requires |t| > 0
    decreases |s|
  {
    if |s| == 0 then 0
    else if t <= s then 1 + Matches(s[|t|..], t)
    else Matches(s[1..], t)
  }

  /** `replacement` before, between and after every character of `s`: what
      Java's `replace` does with an empty target. */
  function Interleave(s: string, replacement: string): (r: string)
    ensures |r| == |s| + (|s| + 1) * |replacement|
    ensures replacement == [] ==> r == s
    decreases |s|
  {
    if |s| == 0 then replacement
    else replacement + [s[0]] + Interleave(s[1..], replacement)
  }

  /** `s.replace(target, replacement)`: every occurrence of `target` found by
      a left-to-right scan that resumes after each match is replaced. */
  function ReplaceAll(s: string, target: string, replacement: string): string
    decreases |s|
  {
    if |target| == 0 then Interleave(s, replacement)
    else if |s| == 0 then s
    else if target <= s then replacement + ReplaceAll(s[|target|..], target, replacement)
    else [s[0]] + ReplaceAll(s[1..], target, replacement)
  }

  /** Each match found by the scan changes the length by the difference of
      the two lengths. */
  lemma {:induction false} ReplaceLength(s: string, target: string, replacement: string)
    requires |target| > 0
    ensures |ReplaceAll(s, target, replacement)| == |s| + Matches(s, target) * (|replacement| - |target|)
    decreases |s|
  {
    if |s| == 0 {
    } else if target <= s {
      ReplaceLength(s[|target|..], target, replacement);
      MulSucc(Matches(s[|target|..], target), |replacement| - |target|);
    } else {
      ReplaceLength(s[1..], target, replacement);
    }
  }

  lemma MulSucc(m: int, d: int)
    ensures (1 + m) * d == d + m * d
  {
  }

  lemma OccursInTail(t: string, s: string)
    requires |s| > 0 && Occurs(t, s[1..])
    ensures Occurs(t, s)
  {
    var i :| 0 <= i <= |s[1..]| && t <= s[1..][i..];
    assert s[1..][i..] == s[i + 1..];
  }

  /** With no occurrence of a non-empty target, `replace` changes nothing. */
  lemma {:induction false} ReplaceAbsent(s: string, target: string, replacement: string)
    requires |target| > 0 && !Occurs(target, s)
    ensures ReplaceAll(s, target, replacement) == s
    decreases |s|
  {
    if |s| > 0 {
      assert !(target <= s) by { assert s[0..] == s; }
      if Occurs(target, s[1..]) {
        OccursInTail(target, s);
        assert false;
      }
      ReplaceAbsent(s[1..], target, replacement);
      assert s == [s[0]] + s[1..];
    }
  }

  /** Replacing a target by itself changes nothing. */
  lemma {:induction false} ReplaceSame(s: string, target: string)
    ensures ReplaceAll(s, target, target) == s
    decreases |s|
  {
    if |target| > 0 && |s| > 0 {
      if target <= s {
        ReplaceSame(s[|target|..], target);
        assert s == target + s[|target|..];
      } else {
        ReplaceSame(s[1..], target);
        assert s == [s[0]] + s[1..];
      }
    }
  }

  /** A prefix of `s.replace(target, c)` that does not mention `c` was
      already a prefix of `s`. */
  lemma {:induction false} ReplacedPrefix(s: string, target: string, c: char, p: string)
    requires |target| > 0 && c !in p
    requires p <= ReplaceAll(s, target, [c])
    ensures p <= s
    decreases |s|
  {
    if |p| > 0 && |s| > 0 {
      var r := ReplaceAll(s, target, [c]);
      assert p[0] == r[0] && p[0] in p;
      if target <= s {
        assert false;
      }
      var rest := ReplaceAll(s[1..], target, [c]);
      assert r == [s[0]] + rest;
      assert p[1..] <= rest;
      ReplacedPrefix(s[1..], target, c, p[1..]);
      assert p == [s[0]] + p[1..];
    }
  }

  // ---------------------------------------------------------------------
  // split
  // ---------------------------------------------------------------------

  /** The pieces of `s` between occurrences of `sep`, in order (one more
      piece than there are separators). */
  function Pieces(s: string, sep: char): (r: seq<string>)
    ensures |r| >= 1
    ensures forall i :: 0 <= i < |r| ==> sep !in r[i]
    decreases |s|
  {
    if |s| == 0 then [[]]
    else if s[0] == sep then [[]] + Pieces(s[1..], sep)
    else
      var rest := Pieces(s[1..], sep);
      [[s[0]] + rest[0]] + rest[1..]
  }

  /** The pieces separated by `sep`: the inverse of `Pieces`. */
  function Join(ps: seq<string>, sep: char): string
    requires |ps| >= 1
    decreases |ps|
  {
    if |ps| == 1 then ps[0] else ps[0] + [sep] + Join(ps[1..], sep)
  }

  /** A character that is neither the separator nor in any piece is not in
      the join. */
  lemma {:induction false} JoinAvoids(ps: seq<string>, sep: char, c: char)
    requires |ps| >= 1 && c != sep
    requires forall i :: 0 <= i < |ps| ==> c !in ps[i]
    ensures c !in Join(ps, sep)
    decreases |ps|
  {
    if |ps| > 1 {
      assert forall i :: 0 <= i < |ps| - 1 ==> ps[1..][i] == ps[i + 1];
      JoinAvoids(ps[1..], sep, c);
    }
  }

  lemma {:induction false} JoinPieces(s: string, sep: char)
    ensures Join(Pieces(s, sep), sep) == s
    decreases |s|
  {
    if |s| == 0 {
    } else if s[0] == sep {
      JoinPieces(s[1..], sep);
      assert s == [sep] + s[1..];
    } else {
      JoinPieces(s[1..], sep);
      var rest := Pieces(s[1..], sep);
      if |rest| == 1 {
        assert s == [s[0]] + rest[0];
      } else {
        assert Join(rest, sep) == rest[0] + [sep] + Join(rest[1..], sep);
        assert s == [s[0]] + s[1..];
      }
    }
  }

  /** Splitting a join recovers the pieces, provided no piece contains the
      separator. */
  lemma {:induction false} PiecesJoin(ps: seq<string>, sep: char)
    requires |ps| >= 1
    requires forall i :: 0 <= i < |ps| ==> sep !in ps[i]
    ensures Pieces(Join(ps, sep), sep) == ps
    decreases |ps|, |ps[0]|
  {
    if |ps| == 1 {
      PiecesNoSep(ps[0], sep);
    } else if |ps[0]| == 0 {
      PiecesJoin(ps[1..], sep);
      assert Join(ps, sep) == [sep] + Join(ps[1..], sep);
      assert ps == [[]] + ps[1..];
    } else {
      var x := ps[0][0];
      var ps' := [ps[0][1..]] + ps[1..];
      NoSepInTail(ps, sep);
      PiecesJoin(ps', sep);
      assert Join(ps, sep) == [x] + Join(ps', sep) by {
        assert ps[0] == [x] + ps[0][1..];
        assert Join(ps', sep) == ps[0][1..] + [sep] + Join(ps[1..], sep);
      }
      assert x != sep by {
        assert ps[0][0] in ps[0];
      }
      PiecesCons(x, Join(ps', sep), sep);
      assert ps == [[x] + ps'[0]] + ps'[1..] by {
        assert ps[0] == [x] + ps[0][1..];
        assert ps'[1..] == ps[1..];
      }
    }
  }

  /** The separator-free condition for the pieces with the first character
      of the first dropped. */
  lemma NoSepInTail(ps: seq<string>, sep: char)
    requires |ps| >= 2 && |ps[0]| > 0
    requires forall i :: 0 <= i < |ps| ==> sep !in ps[i]
    ensures var ps' := [ps[0][1..]] + ps[1..];
      forall i :: 0 <= i < |ps'| ==> sep !in ps'[i]
  {
    var ps' := [ps[0][1..]] + ps[1..];
    forall i | 0 <= i < |ps'| ensures sep !in ps'[i] {
      if i == 0 {
        assert ps[0] == [ps[0][0]] + ps[0][1..];
      } else {
        assert ps'[i] == ps[i];
      }
    }
  }

  /** A leading non-separator character joins the first piece. */
  lemma PiecesCons(x: char, s: string, sep: char)
    requires x != sep
    ensures Pieces([x] + s, sep) == [[x] + Pieces(s, sep)[0]] + Pieces(s, sep)[1..]
  {
    assert ([x] + s)[1..] == s;
  }

  lemma {:induction false} PiecesNoSep(s: string, sep: char)
    requires sep !in s
    ensures Pieces(s, sep) == [s]
    decreases |s|
  {
    if |s| > 0 {
      PiecesNoSep(s[1..], sep);
      assert s == [s[0]] + s[1..];
    }
  }

  /** Drops the empty pieces at the end of a split. */
  function DropTrailingEmpty(ps: seq<string>): (r: seq<string>)
    ensures r <= ps
    ensures |r| == 0 || r[|r| - 1] != []
    ensures forall k :: |r| <= k < |ps| ==> ps[k] == []
    decreases |ps|
  {
    if |ps| > 0 && ps[|ps| - 1] == [] then DropTrailingEmpty(ps[..|ps| - 1]) else ps
  }

  /** `s.split(sep)` with a one-character separator and no limit: the whole
      string when the separator does not occur, otherwise the pieces with
      the trailing empty ones removed. */
  function Split(s: string, sep: char): seq<string> {
    if sep !in s then [s] else DropTrailingEmpty(Pieces(s, sep))
  }

  /** Splitting a join recovers the pieces when none contains the separator
      and the last is not empty. */
  lemma SplitJoin(ps: seq<string>, sep: char)
    requires |ps| >= 1 && ps[|ps| - 1] != []
    requires forall i :: 0 <= i < |ps| ==> sep !in ps[i]
    ensures Split(Join(ps, sep), sep) == ps
  {
    PiecesJoin(ps, sep);
    if sep !in Join(ps, sep) {
      PiecesNoSep(Join(ps, sep), sep);
    }
  }

  /** `s.split(sep, 2)`: the text before and after the first `sep`, or None
      when `s` has no `sep` (Java then returns a one-element array). */
  function SplitFirst(s: string, sep: char): (r: Option<(string, string)>)
    ensures r.Some? <==> sep in s
    ensures r.Some? ==> s == r.value.0 + [sep] + r.value.1 && sep !in r.value.0
    decreases |s|
  {
    if |s| == 0 then None
    else if s[0] == sep then
      assert s == [] + [sep] + s[1..];
      Some(([], s[1..]))
    else
      match SplitFirst(s[1..], sep)
      case None => None
      case Some(p) =>
        assert s == [s[0]] + s[1..];
        Some(([s[0]] + p.0, p.1))
  }

  /** Splitting at the first `sep` of `a + [sep] + b` gives back `a` and `b`
      when `a` has no `sep`. */
  lemma {:induction false} SplitFirstJoin(a: string, b: string, sep: char)
    requires sep !in a
    ensures SplitFirst(a + [sep] + b, sep) == Some((a, b))
    decreases |a|
  {
    if |a| == 0 {
      assert a + [sep] + b == [sep] + b;
    } else {
      SplitFirstJoin(a[1..], b, sep);
      var s := a + [sep] + b;
      assert s[0] == a[0] && s[1..] == a[1..] + [sep] + b by {
        assert s == [a[0]] + (a[1..] + [sep] + b);
      }
      assert a[0] != sep by {
        assert a[0] in a;
      }
      assert a == [a[0]] + a[1..];
    }
  }

  // ---------------------------------------------------------------------
  // equalsIgnoreCase
  // ---------------------------------------------------------------------

  /** An upper-case ASCII letter folded to lower case; any other character
      is its own fold. */
  function FoldChar(c: char): char {
    if 'A' <= c <= 'Z' then (c as int + 32) as char else c
  }

  function FoldCase(s: string): string {
    seq(|s|, i requires 0 <= i < |s| => FoldChar(s[i]))
  }

  /** `a.equalsIgnoreCase(b)` over ASCII case: the same length and the same
      characters once folded. */
  predicate EqualsIgnoreCase(a: string, b: string) {
    FoldCase(a) == FoldCase(b)
  }

  /** Case-insensitive equality is an equivalence that strict equality
      implies and that keeps lengths. */
  lemma EqualsIgnoreCaseFacts(a: string, b: string, c: string)
    ensures EqualsIgnoreCase(a, a)
    ensures EqualsIgnoreCase(a, b) ==> EqualsIgnoreCase(b, a) && |a| == |b|
    ensures EqualsIgnoreCase(a, b) && EqualsIgnoreCase(b, c) ==> EqualsIgnoreCase(a, c)
    ensures EqualsIgnoreCase("ABC", "abc") && !EqualsIgnoreCase("a", "b")
  {
    assert FoldCase("ABC") == "abc";
    assert FoldCase("a")[0] != FoldCase("b")[0];
  }

  // ---------------------------------------------------------------------
  // Null rendering, int arithmetic and hashCode
  // ---------------------------------------------------------------------

  /** What string concatenation writes for a possibly-null string. */
  function Show(s: Option<string>): string {
    match s
    case Some(v) => v
    case None => "null"
  }

  const TwoTo31: int := 0x8000_0000
  const TwoTo32: int := 0x1_0000_0000

  /** The Java `int` that the mathematical integer `x` wraps around to. */
  function Int32(x: int): (r: int)
    ensures -TwoTo31 <= r < TwoTo31
    ensures (x - r) % TwoTo32 == 0
    ensures -TwoTo31 <= x < TwoTo31 ==> r == x
  {
    (x + TwoTo31) % TwoTo32 - TwoTo31
  }

  /** `s.hashCode()`: `h = 31 * h + c` over the characters, in `int`
      arithmetic. */
  function HashCode(s: string): (r: int)
    ensures -TwoTo31 <= r < TwoTo31
    decreases |s|
  {
    if |s| == 0 then 0 else Int32(31 * HashCode(s[..|s| - 1]) + s[|s| - 1] as int)
  }

  /** Java's `a % b` for a positive `b`: the remainder truncated towards
      zero, which takes the sign of `a`. */
  function Rem(a: int, b: int): (r: int)
    requires b > 0
    ensures -b < r < b
    ensures a >= 0 ==> r >= 0
    ensures a <= 0 ==> r <= 0
  {
    if a >= 0 then a % b else -((-a) % b)
  }

  function Abs(x: int): (r: nat)
    ensures r == x || r == -x
  {
    if x < 0 then -x else x
  }
}

=== FILE: resizable_table.dfy ===
/** The back-end scheme table: separate chaining with an entry counter and
    a capacity that doubles once the counter exceeds three quarters of it. */
module ResizableTable {
  import opened Wrappers
  import opened HashChains

  const DefaultCapacity: nat := 16

  datatype Table = Table(buckets: seq<seq<Entry<string>>>, size: int)

  /** Chaining invariant, `size` counts the entries, and the load factor is
      at most 0.75 (written in integers). */
  ghost predicate Valid(t: Table) {
    && WellFormed(t.buckets)
    && t.size == |Flatten(t.buckets)|
    && 4 * t.size <= 3 * |t.buckets|
  }

  function Capacity(t: Table): nat {
    |t.buckets|
  }

  /** `new ManualHashTable(initialCapacity)`: an empty table. */
  function New(initialCapacity: nat): (t: Table)
    requires initialCapacity > 0
    ensures Valid(t)
    ensures Capacity(t) == initialCapacity && t.size == 0
    ensures forall k :: Get(t, k) == None
  {
    EmptyBucketsEmpty<string>(initialCapacity);
    Table(EmptyBuckets(initialCapacity), 0)
  }

  /** `new ManualHashTable()`: an empty table of 16 buckets. */
  function Default(): (t: Table)
    ensures Valid(t) && Capacity(t) == DefaultCapacity && t.size == 0
    ensures GetAll(t) == []
  {
    New(DefaultCapacity)
  }

  /** `get(key)`. */
  function Get(t: Table, key: string): (r: Option<string>)
    requires |t.buckets| > 0
  {
    Lookup(t.buckets, key)
  }

  /** `getAll()`: every entry, bucket by bucket and head first in each chain. */
  function GetAll(t: Table): seq<Entry<string>> {
    Flatten(t.buckets)
  }

  /** `getAll` lists each stored key exactly once, with the value `get`
      returns, and `size()` is the length of that list. */
  lemma GetAllListsTable(t: Table)
    requires Valid(t)
    ensures UniqueKeys(GetAll(t))
    ensures forall k :: k in Keys(GetAll(t)) <==> Get(t, k).Some?
    ensures forall k :: Get(t, k) == ChainGet(GetAll(t), k)
    ensures t.size == |GetAll(t)|
  {
    FlattenUnique(t.buckets);
    forall k ensures Get(t, k) == ChainGet(GetAll(t), k) {
      LookupListed(t.buckets, k);
    }
  }

  /** The body of `put` up to (not including) the load-factor test: update
      in place, or prepend a new entry and count it. */
  function Place(t: Table, key: string, value: string): (r: Table)
    requires |t.buckets| > 0
    ensures Capacity(r) == Capacity(t)
    ensures Get(r, key) == Some(value)
    ensures forall k :: k != key ==> Get(r, k) == Get(t, k)
    ensures r.size == t.size + (if Get(t, key).Some? then 0 else 1)
    ensures WellFormed(t.buckets) ==> WellFormed(r.buckets)
    ensures t.size == |Flatten(t.buckets)| ==> r.size == |Flatten(r.buckets)|
  {
    var bs := Store(t.buckets, key, value);
    if Lookup(t.buckets, key).Some? then Table(bs, t.size) else Table(bs, t.size + 1)
  }

  /** The re-put loop of `resize`: places the entries one after another.
      `requires` bounds the count so that the load-factor test inside each
      re-put stays false, which is why `Place` is the whole of each step. */
  function Rehash(es: seq<Entry<string>>, t: Table): (r: Table)
    requires |t.buckets| > 0
    requires 4 * (t.size + |es|) <= 3 * |t.buckets|
    ensures Capacity(r) == Capacity(t)
    ensures 4 * r.size <= 3 * Capacity(r)
    ensures WellFormed(t.buckets) ==> WellFormed(r.buckets)
    ensures t.size == |Flatten(t.buckets)| ==> r.size == |Flatten(r.buckets)|
    decreases |es|
  {
    if |es| == 0 then t
    else Rehash(es[1..], Place(t, es[0].key, es[0].value))
  }

  /** Re-putting entries with distinct keys makes each of them readable, and
      leaves every other key as it was. */
  lemma {:induction false} RehashGet(es: seq<Entry<string>>, t: Table, k: string)
    requires |t.buckets| > 0
    requires 4 * (t.size + |es|) <= 3 * |t.buckets|
    requires UniqueKeys(es)
    ensures Get(Rehash(es, t), k) == if k in Keys(es) then ChainGet(es, k) else Get(t, k)
    decreases |es|
  {
    if |es| > 0 {
      var t' := Place(t, es[0].key, es[0].value);
      RehashGet(es[1..], t', k);
      if k == es[0].key {
        assert k !in Keys(es[1..]);
      }
    }
  }

  /** Re-putting entries with distinct keys, none of them present yet, counts
      each of them once. */
  lemma {:induction false} RehashSize(es: seq<Entry<string>>, t: Table)
    requires |t.buckets| > 0
    requires 4 * (t.size + |es|) <= 3 * |t.buckets|
    requires UniqueKeys(es) && forall k :: k in Keys(es) ==> Get(t, k).None?
    ensures Rehash(es, t).size == t.size + |es|
    decreases |es|
  {
    if |es| > 0 {
      var t' := Place(t, es[0].key, es[0].value);
      assert Get(t, es[0].key).None? by {
        assert es[0].key in Keys(es);
      }
      assert forall k :: k in Keys(es[1..]) ==> Get(t', k).None? by {
        forall k | k in Keys(es[1..]) ensures Get(t', k).None? {
          assert k != es[0].key && k in Keys(es);
        }
      }
      RehashSize(es[1..], t');
    }
  }

  /** `resize(newCapacity)`: a fresh bucket array of the new capacity, the
      counter reset to 0, and every entry re-put in `getAll` order. */
  function Resize(t: Table, newCapacity: nat): (r: Table)
    requires WellFormed(t.buckets) && t.size == |Flatten(t.buckets)|
    requires newCapacity > 0 && 4 * t.size <= 3 * newCapacity
    ensures Valid(r)
    ensures Capacity(r) == newCapacity
    ensures r.size == t.size
    ensures forall k :: Get(r, k) == Get(t, k)
  {
    var es := Flatten(t.buckets);
    var empty := New(newCapacity);
    assert UniqueKeys(es) by {
      FlattenUnique(t.buckets);
    }
    var r := Rehash(es, empty);
    RehashSize(es, empty);
    assert forall k :: Get(r, k) == Get(t, k) by {
      forall k ensures Get(r, k) == Get(t, k) {
        RehashGet(es, empty, k);
        LookupListed(t.buckets, k);
      }
    }
    r
  }

  /** `put(key, value)`: a null key does nothing; an existing key has its
      value replaced; a new key is prepended to its chain and counted, and
      when the count then exceeds three quarters of the capacity the
      capacity doubles. */
  function Put(t: Table, key: Option<string>, value: string): (r: Table)
    requires Valid(t)
    ensures Valid(r)
    ensures key.None? ==> r == t
    ensures key.Some? ==> Get(r, key.value) == Some(value)
    ensures key.Some? ==> forall k :: k != key.value ==> Get(r, k) == Get(t, k)
    ensures key.Some? && Get(t, key.value).Some? ==> r.size == t.size && Capacity(r) == Capacity(t)
    ensures key.Some? && Get(t, key.value).None? ==> r.size == t.size + 1
    ensures Capacity(r) == Capacity(t) || Capacity(r) == 2 * Capacity(t)
  {
    if key.None? then t
    else
      var p := Place(t, key.value, value);
      if Get(t, key.value).Some? then p
      else if 4 * p.size > 3 * Capacity(p) then Resize(p, 2 * Capacity(p))
      else p
  }

  /** `remove(key)`: a null key returns null; otherwise the entry is
      unlinked, the counter decremented, and its value returned (null when
      the key was absent, in which case nothing changes). */
  function Remove(t: Table, key: Option<string>): (r: (Table, Option<string>))
    requires Valid(t)
    ensures Valid(r.0)
    ensures Capacity(r.0) == Capacity(t)
    ensures key.None? ==> r == (t, None)
    ensures key.Some? ==> r.1 == Get(t, key.value)
    ensures key.Some? ==> Get(r.0, key.value) == None
    ensures key.Some? ==> forall k :: k != key.value ==> Get(r.0, k) == Get(t, k)
    ensures r.1.Some? ==> r.0.size == t.size - 1
    ensures r.1.None? ==> r.0 == t
  {
    if key.None? then (t, None)
    else
      var (bs, v) := Delete(t.buckets, key.value);
      if v.Some? then (Table(bs, t.size - 1), v) else (Table(bs, t.size), v)
  }

  /** `size()`. */
  function Size(t: Table): (n: int)
    requires Valid(t)
    ensures n == |GetAll(t)|
    ensures 4 * n <= 3 * Capacity(t)
  {
    t.size
  }
}

=== FILE: rewrite.dfy ===
/** Word generation from a root and a scheme pattern: the root letters fill
    the placeholders "{1}", "{2}" and "{3}", then the transformation groups
    chosen by the root's category are applied, then the group for this root
    and scheme, then the tanwin post-step. */
module Rewrite {
  import opened Wrappers
  import opened JavaString
  import opened RootAnalyzer
  import opened Transformations

  const Fail: string := "فاعل"
  const Kasratan: char := '\U{064D}'

  // ---------------------------------------------------------------------
  // Filling the pattern
  // ---------------------------------------------------------------------

  /** The three `replace` calls that fill the pattern, in order. */
  function Substitute(pattern: string, letters: string): string
    requires |letters| >= 3
  {
    var w1 := ReplaceAll(pattern, "{1}", [letters[0]]);
    var w2 := ReplaceAll(w1, "{2}", [letters[1]]);
    ReplaceAll(w2, "{3}", [letters[2]])
  }

  /** The intended reading of a pattern: one left-to-right pass in which each
      placeholder stands for its letter and every other character for
      itself. */
  function Expand(p: string, a: char, b: char, c: char): string
    decreases |p|
  {
    if |p| == 0 then []
    else if "{1}" <= p then [a] + Expand(p[3..], a, b, c)
    else if "{2}" <= p then [b] + Expand(p[3..], a, b, c)
    else if "{3}" <= p then [c] + Expand(p[3..], a, b, c)
    else [p[0]] + Expand(p[1..], a, b, c)
  }

  /** A letter that cannot form part of a placeholder. */
  predicate Plain(c: char) {
    c != '{' && c != '}' && !('0' <= c <= '9')
  }

  lemma ConsReplace(x: char, s: string, t: string, rep: string)
    requires |t| > 0 && !(t <= [x] + s)
    ensures ReplaceAll([x] + s, t, rep) == [x] + ReplaceAll(s, t, rep)
  {
    assert ([x] + s)[1..] == s;
  }

  lemma HeadMismatch(x: char, s: string, t: string)
    requires |t| > 0 && t[0] != x
    ensures !(t <= [x] + s)
  {
    assert ([x] + s)[0] == x;
  }

  lemma HeadReplace(t: string, s: string, rep: string)
    requires |t| > 0
    ensures ReplaceAll(t + s, t, rep) == rep + ReplaceAll(s, t, rep)
  {
    assert (t + s)[|t|..] == s;
    assert t <= t + s;
  }

  /** One placeholder passes unchanged through the replacement of another. */
  lemma PlaceholderPasses(d: char, e: char, q: string, rep: string)
    requires d != e && d != '{'
    ensures ReplaceAll(['{', d, '}'] + q, ['{', e, '}'], rep) == ['{', d, '}'] + ReplaceAll(q, ['{', e, '}'], rep)
  {
    var t := ['{', e, '}'];
    assert ['{', d, '}'] + q == ['{'] + ([d, '}'] + q);
    assert [d, '}'] + q == [d] + (['}'] + q);
    HeadMismatch('}', q, t);
    ConsReplace('}', q, t, rep);
    HeadMismatch(d, ['}'] + q, t);
    ConsReplace(d, ['}'] + q, t, rep);
    HeadMismatch(d, ['}'] + q, [e, '}']);
    ConsPrefix('{', [e, '}'], [d, '}'] + q);
    assert t == ['{'] + [e, '}'];
    ConsReplace('{', [d, '}'] + q, t, rep);
  }

  lemma ConsPrefix(x: char, t: string, s: string)
    ensures ([x] + t <= [x] + s) <==> t <= s
  {
    if t <= s {
      assert ([x] + s)[..|t| + 1] == [x] + t;
    }
    if [x] + t <= [x] + s {
      assert s[..|t|] == ([x] + s)[1..|t| + 1];
    }
  }

  /** With letters that cannot form placeholders, the three successive
      `replace` calls give exactly the single-pass reading of the pattern:
      no placeholder is created or destroyed by an earlier replacement. */
  lemma {:induction false} SubstituteIsExpand(p: string, a: char, b: char, c: char)
    requires Plain(a) && Plain(b)
    ensures Substitute(p, [a, b, c]) == Expand(p, a, b, c)
    decreases |p|
  {
    if |p| > 0 {
      if "{1}" <= p {
        var q := p[3..];
        assert p == "{1}" + q;
        SubstituteFirst(q, a, b, c);
        SubstituteIsExpand(q, a, b, c);
      } else if "{2}" <= p {
        var q := p[3..];
        assert p == "{2}" + q;
        SubstituteSecond(q, a, b, c);
        SubstituteIsExpand(q, a, b, c);
      } else if "{3}" <= p {
        var q := p[3..];
        assert p == "{3}" + q;
        SubstituteThird(q, a, b, c);
        SubstituteIsExpand(q, a, b, c);
      } else {
        assert p == [p[0]] + p[1..];
        SubstituteOther(p[0], p[1..], a, b, c);
        SubstituteIsExpand(p[1..], a, b, c);
      }
    }
  }

  /** A leading "{1}" becomes the first letter and nothing else touches it. */
  lemma SubstituteFirst(q: string, a: char, b: char, c: char)
    requires Plain(a)
    ensures Substitute("{1}" + q, [a, b, c]) == [a] + Substitute(q, [a, b, c])
  {
    var t1, t2, t3 := "{1}", "{2}", "{3}";
    HeadReplace(t1, q, [a]);
    var x1 := ReplaceAll(q, t1, [a]);
    HeadMismatch(a, x1, t2);
    ConsReplace(a, x1, t2, [b]);
    var x2 := ReplaceAll(x1, t2, [b]);
    HeadMismatch(a, x2, t3);
    ConsReplace(a, x2, t3, [c]);
  }

  /** A leading "{2}" survives the first replacement and becomes the second
      letter. */
  lemma SubstituteSecond(q: string, a: char, b: char, c: char)
    requires Plain(b)
    ensures Substitute("{2}" + q, [a, b, c]) == [b] + Substitute(q, [a, b, c])
  {
    var t1, t2, t3 := "{1}", "{2}", "{3}";
    assert "{2}" == ['{', '2', '}'];
    PlaceholderPasses('2', '1', q, [a]);
    var x1 := ReplaceAll(q, t1, [a]);
    HeadReplace(t2, x1, [b]);
    var x2 := ReplaceAll(x1, t2, [b]);
    HeadMismatch(b, x2, t3);
    ConsReplace(b, x2, t3, [c]);
  }

  /** A leading "{3}" survives the first two replacements and becomes the
      third letter. */
  lemma SubstituteThird(q: string, a: char, b: char, c: char)
    ensures Substitute("{3}" + q, [a, b, c]) == [c] + Substitute(q, [a, b, c])
  {
    var t1, t2, t3 := "{1}", "{2}", "{3}";
    assert "{3}" == ['{', '3', '}'];
    PlaceholderPasses('3', '1', q, [a]);
    var x1 := ReplaceAll(q, t1, [a]);
    PlaceholderPasses('3', '2', x1, [b]);
    var x2 := ReplaceAll(x1, t2, [b]);
    HeadReplace(t3, x2, [c]);
  }

  /** A leading character that does not start a placeholder is copied, and
      the replacements do not create a placeholder across it. */
  lemma SubstituteOther(x: char, q: string, a: char, b: char, c: char)
    requires Plain(a) && Plain(b)
    requires !("{1}" <= [x] + q) && !("{2}" <= [x] + q) && !("{3}" <= [x] + q)
    ensures Substitute([x] + q, [a, b, c]) == [x] + Substitute(q, [a, b, c])
  {
    var t1, t2, t3 := "{1}", "{2}", "{3}";
    ConsReplace(x, q, t1, [a]);
    var x1 := ReplaceAll(q, t1, [a]);
    assert !(t2 <= [x] + x1) by {
      if x == '{' {
        ConsPrefix('{', "2}", x1);
        ConsPrefix('{', "2}", q);
        assert t2 == ['{'] + "2}";
        if "2}" <= x1 {
          ReplacedPrefix(q, t1, a, "2}");
        }
      } else {
        HeadMismatch(x, x1, t2);
      }
    }
    ConsReplace(x, x1, t2, [b]);
    var x2 := ReplaceAll(x1, t2, [b]);
    assert !(t3 <= [x] + x2) by {
      if x == '{' {
        ConsPrefix('{', "3}", x2);
        ConsPrefix('{', "3}", q);
        assert t3 == ['{'] + "3}";
        if "3}" <= x2 {
          ReplacedPrefix(x1, t2, b, "3}");
          ReplacedPrefix(q, t1, a, "3}");
        }
      } else {
        HeadMismatch(x, x2, t3);
      }
    }
    ConsReplace(x, x2, t3, [c]);
  }

  // ---------------------------------------------------------------------
  // Choosing the groups
  // ---------------------------------------------------------------------

  function GroupKey(prefix: string, scheme: string): string {
    prefix + "_" + scheme
  }

  function ExceptionKey(root: string, scheme: string): string {
    "exception_" + root + "_" + scheme
  }

  /** The category dispatch, branch by branch as written: a lafif root runs
      the mithal and lafif groups, and the naqis group only when there is no
      lafif group for the scheme; a regular root runs "regular_". */
  function Dispatch(word: string, t: RootType, scheme: string, m: OpMap): (r: Result<string>)
    ensures SafeOps(m) ==> r.Ok?
  {
    match t
    case Lafif =>
      var w1 :- ApplyTransformations(word, GroupKey("mithal", scheme), m);
      var w2 :- ApplyTransformations(w1, GroupKey("lafif", scheme), m);
      if GroupKey("lafif", scheme) !in m then ApplyTransformations(w2, GroupKey("naqis", scheme), m)
      else Ok(w2)
    case Ajwaf => ApplyTransformations(word, GroupKey("ajwaf", scheme), m)
    case Naqis => ApplyTransformations(word, GroupKey("naqis", scheme), m)
    case Mithal => ApplyTransformations(word, GroupKey("mithal", scheme), m)
    case Regular => ApplyTransformations(word, GroupKey("regular", scheme), m)
  }

  /** The groups a category consults, in the order they run. */
  function DispatchKeys(t: RootType, scheme: string, hasLafifGroup: bool): (keys: seq<string>)
    ensures 1 <= |keys| <= 3
    ensures t == Lafif <==> |keys| >= 2
  {
    match t
    case Lafif =>
      [GroupKey("mithal", scheme), GroupKey("lafif", scheme)]
        + (if hasLafifGroup then [] else [GroupKey("naqis", scheme)])
    case Ajwaf => [GroupKey("ajwaf", scheme)]
    case Naqis => [GroupKey("naqis", scheme)]
    case Mithal => [GroupKey("mithal", scheme)]
    case Regular => [GroupKey("regular", scheme)]
  }

  /** The groups of `keys` applied one after another. */
  function ApplyKeys(word: string, keys: seq<string>, m: OpMap): Result<string>
    decreases |keys|
  {
    if |keys| == 0 then Ok(word)
    else
      var w :- ApplyTransformations(word, keys[0], m);
      ApplyKeys(w, keys[1..], m)
  }

  /** The branch-by-branch dispatch runs exactly the listed groups in order. */
  lemma DispatchRunsKeys(word: string, t: RootType, scheme: string, m: OpMap)
    ensures Dispatch(word, t, scheme, m) == ApplyKeys(word, DispatchKeys(t, scheme, GroupKey("lafif", scheme) in m), m)
  {
    var keys := DispatchKeys(t, scheme, GroupKey("lafif", scheme) in m);
    if t == Lafif {
      var w1 := ApplyTransformations(word, keys[0], m);
      if w1.Ok? {
        var rest := keys[1..];
        assert rest[0] == keys[1];
        var w2 := ApplyTransformations(w1.value, keys[1], m);
        if w2.Err? {
          assert ApplyKeys(w1.value, rest, m) == w2;
        } else if |keys| == 2 {
          assert rest[1..] == [];
          assert ApplyKeys(w2.value, rest[1..], m) == w2;
          assert ApplyKeys(w1.value, rest, m) == w2;
        } else {
          var last := rest[1..];
          assert last[0] == keys[2] && last[1..] == [];
          var w3 := ApplyTransformations(w2.value, keys[2], m);
          if w3.Ok? {
            assert ApplyKeys(w3.value, last[1..], m) == w3;
          }
          assert ApplyKeys(w2.value, last, m) == w3;
          assert ApplyKeys(w1.value, rest, m) == w3;
        }
      }
    }
  }

  /** Only the groups named by the keys matter. */
  lemma {:induction false} ApplyKeysLocal(word: string, keys: seq<string>, m1: OpMap, m2: OpMap)
    requires forall i :: 0 <= i < |keys| ==> (keys[i] in m1 <==> keys[i] in m2)
    requires forall i :: 0 <= i < |keys| && keys[i] in m1 ==> m1[keys[i]] == m2[keys[i]]
    ensures ApplyKeys(word, keys, m1) == ApplyKeys(word, keys, m2)
    decreases |keys|
  {
    if |keys| > 0 {
      var w := ApplyTransformations(word, keys[0], m1);
      if w.Ok? {
        ApplyKeysLocal(w.value, keys[1..], m1, m2);
      }
    }
  }

  /** Keys with no group leave the word alone. */
  lemma {:induction false} ApplyKeysAbsent(word: string, keys: seq<string>, m: OpMap)
    requires forall i :: 0 <= i < |keys| ==> keys[i] !in m
    ensures ApplyKeys(word, keys, m) == Ok(word)
    decreases |keys|
  {
    if |keys| > 0 {
      ApplyKeysAbsent(word, keys[1..], m);
    }
  }

  // ---------------------------------------------------------------------
  // The post-step and the whole rule
  // ---------------------------------------------------------------------

  /** Whether the tanwin post-step applies: the active-participle scheme on
      a naqis, lafif or ajwaf root. */
  predicate PostStepApplies(scheme: string, t: RootType) {
    scheme == Fail && (t == Naqis || t == Lafif || t == Ajwaf)
  }

  /** A final ya becomes kasratan when the post-step applies. */
  function PostStep(word: string, scheme: string, t: RootType): (r: string)
    ensures !PostStepApplies(scheme, t) ==> r == word
    ensures |r| == |word|
    ensures |word| > 0 ==> r[..|word| - 1] == word[..|word| - 1]
    ensures |word| > 0 && word[|word| - 1] != Ya ==> r == word
    ensures PostStepApplies(scheme, t) && |r| > 0 ==> r[|r| - 1] != Ya
  {
    if PostStepApplies(scheme, t) && |word| > 0 && word[|word| - 1] == Ya then
      word[..|word| - 1] + [Kasratan]
    else word
  }

  /** `applyRule(root, pattern, scheme)`: fill the pattern with the root's
      original letters, classify the root, run the category's groups, then
      the group for this root and scheme, then the post-step. A root of one
      letter fails on its middle letter, one of two letters on its third,
      and one of more than three letters in the classification. */
  function ApplyRule(root: string, pattern: string, scheme: string, m: OpMap): (r: Result<string>)
    ensures |root| < 3 ==> r == Err(IndexOutOfBounds)
    ensures |root| > 3 ==> r == Err(InvalidRoot)
    ensures |root| == 3 && r.Err? ==> r.error == NullPointer
    ensures |root| == 3 && SafeOps(m) ==> r.Ok?
  {
    var letters :- ExtractOriginalLetters(root);
    if |letters| < 3 then Err(IndexOutOfBounds)
    else
      var word := Substitute(pattern, letters);
      var t :- DetectRootType(root);
      var w1 :- Dispatch(word, t, scheme, m);
      var w2 :- ApplyTransformations(w1, ExceptionKey(root, scheme), m);
      Ok(PostStep(w2, scheme, t))
  }

  /** `applyRule` on a pattern as the scheme table stores it, null
      included. The root's letters are read before the first `replace`, so
      a root too short to have a middle letter fails there; on any longer
      root a null pattern throws at that first `replace`, before the third
      letter or the category is looked at. */
  function ApplyStoredRule(root: string, pattern: Option<string>, scheme: string, m: OpMap): (r: Result<string>)
    ensures pattern.Some? ==> r == ApplyRule(root, pattern.value, scheme, m)
    ensures pattern.None? ==> r.Err?
    ensures pattern.None? && |root| < 2 ==> r.error == IndexOutOfBounds
    ensures pattern.None? && |root| >= 2 ==> r.error == NullPointer
  {
    match pattern
    case Some(p) => ApplyRule(root, p, scheme, m)
    case None =>
      match ExtractOriginalLetters(root)
      case Err(x) => Err(x)
      case Ok(_) => Err(NullPointer)
  }

  /** Every key the rule can consult for this root and scheme. */
  function ConsultedKeys(root: string, scheme: string): (ks: set<string>)
    ensures forall t, b :: forall i :: 0 <= i < |DispatchKeys(t, scheme, b)| ==> DispatchKeys(t, scheme, b)[i] in ks
    ensures ExceptionKey(root, scheme) in ks
  {
    {GroupKey("mithal", scheme), GroupKey("lafif", scheme), GroupKey("naqis", scheme),
     GroupKey("ajwaf", scheme), GroupKey("regular", scheme), ExceptionKey(root, scheme)}
  }

  /** Two maps that agree on the consulted keys give the same result. */
  lemma ApplyRuleLocal(root: string, pattern: string, scheme: string, m1: OpMap, m2: OpMap)
    requires forall k :: k in ConsultedKeys(root, scheme) ==> (k in m1 <==> k in m2)
    requires forall k :: k in ConsultedKeys(root, scheme) && k in m1 ==> m1[k] == m2[k]
    ensures ApplyRule(root, pattern, scheme, m1) == ApplyRule(root, pattern, scheme, m2)
  {
    if |root| == 3 {
      var letters := ExtractOriginalLetters(root).value;
      var word := Substitute(pattern, letters);
      var t := DetectRootType(root).value;
      var lafif := GroupKey("lafif", scheme);
      assert lafif in ConsultedKeys(root, scheme);
      var keys := DispatchKeys(t, scheme, lafif in m1);
      DispatchRunsKeys(word, t, scheme, m1);
      DispatchRunsKeys(word, t, scheme, m2);
      ApplyKeysLocal(word, keys, m1, m2);
      var ek := ExceptionKey(root, scheme);
      assert ek in ConsultedKeys(root, scheme);
    }
  }

  /** With none of the consulted groups defined, the rule is the filled
      pattern followed by the post-step. */
  lemma ApplyRuleWithoutGroups(root: string, pattern: string, scheme: string, m: OpMap)
    requires |root| == 3
    requires forall k :: k in ConsultedKeys(root, scheme) ==> k !in m
    ensures ApplyRule(root, pattern, scheme, m) ==
      Ok(PostStep(Substitute(pattern, ExtractOriginalLetters(root).value), scheme, DetectRootType(root).value))
  {
    var letters := ExtractOriginalLetters(root).value;
    var word := Substitute(pattern, letters);
    var t := DetectRootType(root).value;
    var lafif := GroupKey("lafif", scheme);
    assert lafif in ConsultedKeys(root, scheme);
    var keys := DispatchKeys(t, scheme, lafif in m);
    DispatchRunsKeys(word, t, scheme, m);
    ApplyKeysAbsent(word, keys, m);
    assert ExceptionKey(root, scheme) in ConsultedKeys(root, scheme);
  }

  /** For a lafif root with a lafif group, the naqis group is never run. */
  lemma LafifSkipsNaqis(root: string, pattern: string, scheme: string, m: OpMap, ops: seq<Op>)
    requires DetectRootType(root) == Ok(Lafif)
    requires GroupKey("lafif", scheme) in m
    ensures ApplyRule(root, pattern, scheme, m[GroupKey("naqis", scheme) := ops]) == ApplyRule(root, pattern, scheme, m)
  {
    var naqis := GroupKey("naqis", scheme);
    var m2 := m[naqis := ops];
    var letters := ExtractOriginalLetters(root).value;
    var word := Substitute(pattern, letters);
    var ks := DispatchKeys(Lafif, scheme, true);
    assert ks[0][0] == 'm' && ks[1][0] == 'l' && naqis[0] == 'n';
    assert ExceptionKey(root, scheme)[0] == 'e';
    assert forall i :: 0 <= i < |ks| ==> ks[i] != naqis;
    DispatchRunsKeys(word, Lafif, scheme, m);
    DispatchRunsKeys(word, Lafif, scheme, m2);
    ApplyKeysLocal(word, ks, m, m2);
  }

  /** The single-pass reading of the passive-participle pattern on k-t-b. */
  lemma ExpandExample()
    ensures Expand("م{1}{2}و{3}", 'ك', 'ت', 'ب') == "مكتوب"
  {
    ExpandFromFirst();
    var p := "م{1}{2}و{3}";
    assert p[0] != '{';
    assert !("{1}" <= p) && !("{2}" <= p) && !("{3}" <= p) && p[1..] == "{1}{2}و{3}";
  }

  lemma ExpandFromFirst()
    ensures Expand("{1}{2}و{3}", 'ك', 'ت', 'ب') == "كتوب"
  {
    ExpandFromSecond();
    var p := "{1}{2}و{3}";
    assert "{1}" <= p && p[3..] == "{2}و{3}";
  }

  lemma ExpandFromSecond()
    ensures Expand("{2}و{3}", 'ك', 'ت', 'ب') == "توب"
  {
    ExpandFromWaw();
    var p := "{2}و{3}";
    assert p[1] != "{1}"[1];
    assert !("{1}" <= p) && "{2}" <= p && p[3..] == "و{3}";
  }

  lemma ExpandFromWaw()
    ensures Expand("و{3}", 'ك', 'ت', 'ب') == "وب"
  {
    ExpandLast();
    var p := "و{3}";
    assert p[0] != '{';
    assert !("{1}" <= p) && !("{2}" <= p) && !("{3}" <= p) && p[1..] == "{3}";
  }

  lemma ExpandLast()
    ensures Expand("{3}", 'ك', 'ت', 'ب') == "ب"
  {
    var p := "{3}";
    assert p[1] != "{1}"[1] && p[1] != "{2}"[1];
    assert !("{1}" <= p) && !("{2}" <= p) && "{3}" <= p && p[3..] == [];
  }

  /** The pattern of the passive participle on the sound root k-t-b gives
      "maktub" when no group changes it. */
  lemma PassiveParticipleExample(scheme: string, m: OpMap)
    requires forall k :: k in ConsultedKeys("كتب", scheme) ==> k !in m
    ensures ApplyRule("كتب", "م{1}{2}و{3}", scheme, m) == Ok("مكتوب")
  {
    ApplyRuleWithoutGroups("كتب", "م{1}{2}و{3}", scheme, m);
    RegularExample();
    assert ExtractOriginalLetters("كتب").value == ['ك', 'ت', 'ب'];
    SubstituteIsExpand("م{1}{2}و{3}", 'ك', 'ت', 'ب');
    ExpandExample();
  }
}

=== FILE: root_analyzer.dfy ===
/** Structural analysis of triliteral Arabic roots: the five root categories
    and the classification by the position of weak letters, plus the
    recovery of a root's "original" letters. */
module RootAnalyzer {
  import opened Wrappers

  /** The categories of a root: sound, or weak at the first (mithal), middle
      (ajwaf) or last (naqis) letter, or weak at two or more letters (lafif). */
  datatype RootType = Regular | Mithal | Ajwaf | Naqis | Lafif

  const Waw: char := 'و'
  const Ya: char := 'ي'
  const Alif: char := 'ا'
  const AlifMaqsura: char := 'ى'

  /** The letters that count as weak at each of the three positions: an alif
      is weak only after the first letter, an alif maqsura only at the end. */
  function WeakLetters(pos: nat): set<char> {
    if pos == 0 then {Waw, Ya}
    else if pos == 1 then {Waw, Ya, Alif}
    else {Waw, Ya, Alif, AlifMaqsura}
  }

  /** The letter at position `i` of `root` is weak there. */
  predicate WeakAt(root: string, i: nat)
    requires i < |root|
  {
    root[i] in WeakLetters(i)
  }

  /** `detectRootType`: rejects a root that is not three letters long, then
      counts the weak positions; two or more give LAFIF, a single one names
      its position, none gives REGULAR. */
  function DetectRootType(root: string): (r: Result<RootType>)
    ensures r.Err? <==> |root| != 3
    ensures r.Err? ==> r.error == InvalidRoot
    ensures r.Ok? ==> (r.value == Lafif <==>
      exists i, j :: 0 <= i < j < 3 && WeakAt(root, i) && WeakAt(root, j))
    ensures r.Ok? ==> (r.value == Mithal <==> WeakAt(root, 0) && !WeakAt(root, 1) && !WeakAt(root, 2))
    ensures r.Ok? ==> (r.value == Ajwaf <==> !WeakAt(root, 0) && WeakAt(root, 1) && !WeakAt(root, 2))
    ensures r.Ok? ==> (r.value == Naqis <==> !WeakAt(root, 0) && !WeakAt(root, 1) && WeakAt(root, 2))
    ensures r.Ok? ==> (r.value == Regular <==> forall i :: 0 <= i < 3 ==> !WeakAt(root, i))
  {
    if |root| != 3 then Err(InvalidRoot)
    else
      var f, m, l := root[0], root[1], root[2];
      var weakF := f == Waw || f == Ya;
      var weakM := m == Waw || m == Ya || m == Alif;
      var weakL := l == Waw || l == Ya || l == Alif || l == AlifMaqsura;
      var weakCount := (if weakF then 1 else 0) + (if weakM then 1 else 0) + (if weakL then 1 else 0);
      assert weakF == WeakAt(root, 0) && weakM == WeakAt(root, 1) && weakL == WeakAt(root, 2);
      if weakCount >= 2 then Ok(Lafif)
      else if weakF then Ok(Mithal)
      else if weakM then Ok(Ajwaf)
      else if weakL then Ok(Naqis)
      else Ok(Regular)
  }

  /** `extractOriginalLetters`: the root's letters with a middle alif read
      back as the waw it comes from; a root too short to have a middle letter
      makes the array access fail. */
  function ExtractOriginalLetters(root: string): (r: Result<string>)
    ensures r.Ok? <==> |root| >= 2
    ensures r.Err? ==> r.error == IndexOutOfBounds
    ensures r.Ok? ==> |r.value| == |root|
    ensures r.Ok? ==> forall i :: 0 <= i < |root| && i != 1 ==> r.value[i] == root[i]
    ensures r.Ok? ==> r.value[1] != Alif
    ensures r.Ok? ==> (root[1] != Alif ==> r.value[1] == root[1])
  {
    if |root| < 2 then Err(IndexOutOfBounds)
    else if root[1] == Alif then Ok(root[1 := Waw])
    else Ok(root)
  }

  /** Reading the original letters twice is the same as reading them once. */
  lemma ExtractIdempotent(root: string)
    requires |root| >= 2
    ensures ExtractOriginalLetters(ExtractOriginalLetters(root).value) == ExtractOriginalLetters(root)
  {
  }

  /** Reading back the middle alif as waw never changes the category: both
      letters are weak in the middle. */
  lemma ExtractKeepsType(root: string)
    requires |root| >= 2
    ensures DetectRootType(ExtractOriginalLetters(root).value) == DetectRootType(root)
  {
    var e := ExtractOriginalLetters(root).value;
    if |root| == 3 {
      assert forall i :: 0 <= i < 3 ==> (WeakAt(e, i) <==> WeakAt(root, i));
    }
  }

  // The example roots documented with each category.

  lemma RegularExample()
    ensures DetectRootType("كتب") == Ok(Regular)
  {
  }

  lemma MithalExample()
    ensures DetectRootType("وعد") == Ok(Mithal)
  {
  }

  lemma AjwafExample()
    ensures DetectRootType("قول") == Ok(Ajwaf)
  {
  }

  lemma NaqisExample()
    ensures DetectRootType("رمي") == Ok(Naqis)
  {
  }

  lemma LafifExamples()
    ensures DetectRootType("وقي") == Ok(Lafif)
    ensures DetectRootType("روي") == Ok(Lafif)
  {
  }
}

=== FILE: rules_format.dfy ===
/** The text form of a group's rules, as the transformations file holds
    it: `key:op;op;...`, where each op is `replace_final=TO` or
    `replace=FROM>TO`. */
module RulesFormat {
  import opened Wrappers
  import opened JavaString
  import opened Transformations

  const FinalPrefix: string := "replace_final="
  const ReplacePrefix: string := "replace="

  lemma PrefixesExclusive(s: string)
    ensures !(FinalPrefix <= s && ReplacePrefix <= s)
  {
    assert FinalPrefix[7] == '_' && ReplacePrefix[7] == '=';
  }

  /** A character missing from `s` is missing from its trimmed form. */
  lemma TrimAvoids(s: string, c: char)
    requires c !in s
    ensures c !in Trim(s)
  {
    var i, j :| 0 <= i <= j <= |s| && Trim(s) == s[i..j];
    assert forall k :: 0 <= k < j - i ==> s[i..j][k] == s[i + k];
  }

  /** One segment of a rules line, already trimmed, as the rule at position
      `order`: `replace_final=` takes the trimmed rest as `to`; `replace=`
      splits the rest at its first `>` into trimmed `from` and `to`, and
      without a `>` leaves both null; anything else gives a rule whose
      fields are all null. */
  function ParseRule(op: string, order: int): (r: Rule)
    ensures r.order == order && r.comment == None
    ensures r.ruleType == Some(ReplaceFinalType) <==> FinalPrefix <= op
    ensures r.ruleType == Some(ReplaceType) <==> ReplacePrefix <= op
    ensures r.ruleType.None? <==> !(FinalPrefix <= op) && !(ReplacePrefix <= op)
    ensures r.ruleType == Some(ReplaceFinalType) ==> r.from.None? && r.to.Some?
    ensures r.ruleType == Some(ReplaceType) ==>
      (r.from.Some? <==> '>' in op[|ReplacePrefix|..]) && (r.to.Some? <==> r.from.Some?)
    ensures r.ruleType.None? ==> r.from.None? && r.to.None?
    ensures r.from.Some? ==> Trimmed(r.from.value) && '>' !in r.from.value
    ensures r.to.Some? ==> Trimmed(r.to.value)
  {
    PrefixesExclusive(op);
    if FinalPrefix <= op then
      Rule(Some(ReplaceFinalType), None, Some(Trim(op[|FinalPrefix|..])), order, None)
    else if ReplacePrefix <= op then
      match SplitFirst(op[|ReplacePrefix|..], '>')
      case None => Rule(Some(ReplaceType), None, None, order, None)
      case Some((a, b)) =>
        TrimAvoids(a, '>');
        Rule(Some(ReplaceType), Some(Trim(a)), Some(Trim(b)), order, None)
    else Rule(None, None, None, order, None)
  }

  /** `parseRules`: an empty text gives no rules; otherwise the text is split
      at `;` and each trimmed segment becomes one rule, numbered from 0. */
  function ParseRules(text: string): (rules: seq<Rule>)
    ensures text == [] ==> rules == []
    ensures text != [] ==> |rules| == |Split(text, ';')|
    ensures OrdersAreIndices(rules)
    ensures forall i :: 0 <= i < |rules| ==> rules[i].comment.None?
  {
    if text == [] then []
    else
      var segs := Split(text, ';');
      seq(|segs|, i requires 0 <= i < |segs| => ParseRule(Trim(segs[i]), i))
  }

  /** The text the save routine writes for one rule: any type other than
      "replace_final" is written in the `replace=` form, and a null field
      is written as "null". */
  function FormatRule(r: Rule): string {
    if r.ruleType == Some(ReplaceFinalType) then FinalPrefix + Show(r.to)
    else ReplacePrefix + Show(r.from) + ">" + Show(r.to)
  }

  /** The rules of a group joined by `;`. */
  function FormatRules(rules: seq<Rule>): string {
    if |rules| == 0 then []
    else Join(seq(|rules|, i requires 0 <= i < |rules| => FormatRule(rules[i])), ';')
  }

  /** Free of the characters at which `readLine` ends a line. */
  predicate OneLine(s: string) {
    '\n' !in s && '\r' !in s
  }

  /** A field the text form can carry: trimmed, free of the rule separator,
      and within one line. */
  predicate CleanField(s: string) {
    Trimmed(s) && ';' !in s && OneLine(s)
  }

  /** A rule the text form carries faithfully: a typed rule with its fields
      present and clean, `from` free of `>` and absent for "replace_final". */
  predicate CleanRule(r: Rule) {
    || (r.ruleType == Some(ReplaceFinalType) && r.from.None? && r.to.Some? && CleanField(r.to.value))
    || (r.ruleType == Some(ReplaceType) && r.from.Some? && r.to.Some?
        && CleanField(r.from.value) && '>' !in r.from.value && CleanField(r.to.value))
  }

  /** A clean rule's text is trimmed, non-empty, and has no `;`. */
  lemma FormatRuleShape(r: Rule)
    requires CleanRule(r)
    ensures var s := FormatRule(r); |s| > 0 && Trimmed(s) && ';' !in s
  {
    var s := FormatRule(r);
    assert s[0] == 'r';
    if r.ruleType == Some(ReplaceFinalType) {
      var to := r.to.value;
      assert |to| > 0 ==> s[|s| - 1] == to[|to| - 1];
      assert |to| == 0 ==> s[|s| - 1] == '=';
    } else {
      var to := r.to.value;
      assert |to| > 0 ==> s[|s| - 1] == to[|to| - 1];
      assert |to| == 0 ==> s[|s| - 1] == '>';
    }
  }

  /** Reading back the text of a clean rule gives the rule, renumbered and
      without its comment. */
  lemma ParseFormatRule(r: Rule, order: int)
    requires CleanRule(r)
    ensures ParseRule(Trim(FormatRule(r)), order) == r.(order := order, comment := None)
  {
    FormatRuleShape(r);
    assert Trim(FormatRule(r)) == FormatRule(r);
    if r.ruleType == Some(ReplaceFinalType) {
      ParseFinalRule(r.to.value, order);
    } else {
      ParseReplaceRule(r.from.value, r.to.value, order);
    }
  }

  /** A rule of any type but "replace_final" is written in the `replace=`
      form with "null" for a missing operand, so it reads back as a
      "replace" of the written operands. A rule whose operation failed with
      a null pointer (no type, or a missing operand) thus reads back as one
      that succeeds. */
  lemma NullRuleReadsBack(r: Rule, order: int, word: string)
    requires r.ruleType != Some(ReplaceFinalType)
    requires CleanField(Show(r.from)) && '>' !in Show(r.from) && CleanField(Show(r.to))
    ensures ParseRule(Trim(FormatRule(r)), order) == Rule(Some(ReplaceType), Some(Show(r.from)), Some(Show(r.to)), order, None)
    ensures r.ruleType != Some(ReplaceType) || r.from.None? || r.to.None? ==>
      ApplyOp(word, OpOf(r)) == Err(NullPointer) && ApplyOp(word, OpOf(ParseRule(Trim(FormatRule(r)), order))).Ok?
  {
    UntypedRuleReadsBack(r, order);
  }

  /** With both operands missing, the rule reads back as the replacement of
      "null" by itself, which leaves every word unchanged where the rule
      failed with a null pointer. */
  lemma BothNullRuleReadsAsIdentity(r: Rule, order: int, word: string)
    requires r.ruleType != Some(ReplaceFinalType) && r.from.None? && r.to.None?
    ensures ParseRule(Trim(FormatRule(r)), order) == Rule(Some(ReplaceType), Some("null"), Some("null"), order, None)
    ensures ApplyOp(word, OpOf(r)) == Err(NullPointer)
    ensures ApplyOp(word, OpOf(ParseRule(Trim(FormatRule(r)), order))) == Ok(word)
  {
    UntypedRuleReadsBack(r, order);
    ReplaceOpEffect(word, Op(Some(ReplaceType), Some("null"), Some("null")));
  }

  /** The text written for a rule with both operands missing. */
  lemma BothNullRuleText(r: Rule)
    requires r.ruleType != Some(ReplaceFinalType) && r.from.None? && r.to.None?
    ensures FormatRule(r) == "replace=null>null"
  {
    assert FormatRule(r) == ReplacePrefix + "null" + ">" + "null";
  }

  lemma UntypedRuleReadsBack(r: Rule, order: int)
    requires r.ruleType != Some(ReplaceFinalType)
    requires CleanField(Show(r.from)) && '>' !in Show(r.from) && CleanField(Show(r.to))
    ensures ParseRule(Trim(FormatRule(r)), order) == Rule(Some(ReplaceType), Some(Show(r.from)), Some(Show(r.to)), order, None)
  {
    var typed := Rule(Some(ReplaceType), Some(Show(r.from)), Some(Show(r.to)), order, None);
    assert FormatRule(typed) == FormatRule(r);
    ParseFormatRule(typed, order);
  }

  lemma ParseFinalRule(to: string, order: int)
    requires Trimmed(to)
    ensures ParseRule(FinalPrefix + to, order) == Rule(Some(ReplaceFinalType), None, Some(to), order, None)
  {
    var s := FinalPrefix + to;
    assert s[..|FinalPrefix|] == FinalPrefix;
    assert s[|FinalPrefix|..] == to;
  }

  lemma ParseReplaceRule(from: string, to: string, order: int)
    requires Trimmed(from) && Trimmed(to) && '>' !in from
    ensures ParseRule(ReplacePrefix + from + ">" + to, order) == Rule(Some(ReplaceType), Some(from), Some(to), order, None)
  {
    var s := ReplacePrefix + from + ">" + to;
    assert s[..|ReplacePrefix|] == ReplacePrefix;
    assert s[|ReplacePrefix|..] == from + ['>'] + to;
    SplitFirstJoin(from, to, '>');
  }

  /** The formatter and `parseRules` are inverse on clean, numbered rules
      without comments. */
  lemma ParseFormatRules(rules: seq<Rule>)
    requires forall i :: 0 <= i < |rules| ==> CleanRule(rules[i])
    requires OrdersAreIndices(rules)
    requires forall i :: 0 <= i < |rules| ==> rules[i].comment.None?
    ensures ParseRules(FormatRules(rules)) == rules
  {
    if |rules| > 0 {
      var segs := seq(|rules|, i requires 0 <= i < |rules| => FormatRule(rules[i]));
      var text := FormatRules(rules);
      assert text != [] && Split(text, ';') == segs by {
        forall i | 0 <= i < |segs| ensures |segs[i]| > 0 && ';' !in segs[i] {
          FormatRuleShape(rules[i]);
        }
        SplitJoin(segs, ';');
        JoinLength(segs, ';');
      }
      ParseSegments(segs, rules);
    }
  }

  /** Each formatted segment parses back to its rule. */
  lemma ParseSegments(segs: seq<string>, rules: seq<Rule>)
    requires |segs| == |rules|
    requires forall i :: 0 <= i < |rules| ==> segs[i] == FormatRule(rules[i]) && CleanRule(rules[i])
    requires OrdersAreIndices(rules)
    requires forall i :: 0 <= i < |rules| ==> rules[i].comment.None?
    ensures seq(|segs|, i requires 0 <= i < |segs| => ParseRule(Trim(segs[i]), i)) == rules
  {
    var parsed := seq(|segs|, i requires 0 <= i < |segs| => ParseRule(Trim(segs[i]), i));
    forall i | 0 <= i < |rules| ensures parsed[i] == rules[i] {
      ParseFormatRule(rules[i], i);
    }
  }

  lemma {:induction false} JoinLength(ps: seq<string>, sep: char)
    requires |ps| >= 1
    ensures |Join(ps, sep)| >= |ps[0]|
    decreases |ps|
  {
    if |ps| > 1 {
      JoinLength(ps[1..], sep);
    }
  }

  // ---------------------------------------------------------------------
  // Group lines
  // ---------------------------------------------------------------------

  /** The line the save routine writes for a group: `key:` and its rules. */
  function FormatLine(g: Group): string {
    g.key + ":" + FormatRules(g.rules)
  }

  /** A non-comment line of the file read as a group: the trimmed line must
      contain `:`; the trimmed text before the first `:` is the key and the
      trimmed rest the rules. Blank, comment and colon-free lines give no
      group. */
  function ParseLine(line: string): (g: Option<Group>)
    ensures g.Some? ==> Trimmed(g.value.key) && ':' !in g.value.key
    ensures g.Some? ==> OrdersAreIndices(g.value.rules) && g.value.comment.None?
    ensures g.Some? <==> ':' in Trim(line) && Trim(line)[0] != '#'
  {
    var l := Trim(line);
    if |l| == 0 || l[0] == '#' then None
    else
      match SplitFirst(l, ':')
      case None => None
      case Some((k, rest)) =>
        TrimAvoids(k, ':');
        Some(Group(Trim(k), ParseRules(Trim(rest)), None))
  }

  /** A key the line form carries: trimmed, no `:`, not read as a comment,
      and within one line. */
  predicate CleanKey(k: string) {
    Trimmed(k) && ':' !in k && (|k| == 0 || k[0] != '#') && OneLine(k)
  }

  ghost predicate CleanGroup(g: Group) {
    && CleanKey(g.key)
    && (forall i :: 0 <= i < |g.rules| ==> CleanRule(g.rules[i]))
    && OrdersAreIndices(g.rules)
    && (forall i :: 0 <= i < |g.rules| ==> g.rules[i].comment.None?)
  }

  lemma FormatRulesShape(rules: seq<Rule>)
    requires forall i :: 0 <= i < |rules| ==> CleanRule(rules[i])
    ensures Trimmed(FormatRules(rules))
    ensures |rules| > 0 ==> |FormatRules(rules)| > 0 && FormatRules(rules)[0] == 'r'
  {
    if |rules| > 0 {
      var segs := seq(|rules|, i requires 0 <= i < |rules| => FormatRule(rules[i]));
      forall i | 0 <= i < |segs| ensures |segs[i]| > 0 && Trimmed(segs[i]) {
        FormatRuleShape(rules[i]);
      }
      JoinEnds(segs, ';');
    }
  }

  /** A join of non-empty pieces starts like its first piece and ends like
      its last. */
  lemma {:induction false} JoinEnds(ps: seq<string>, sep: char)
    requires |ps| >= 1
    requires forall i :: 0 <= i < |ps| ==> |ps[i]| > 0 && Trimmed(ps[i])
    ensures var j := Join(ps, sep); |j| > 0 && j[0] == ps[0][0] && j[|j| - 1] == ps[|ps| - 1][|ps[|ps| - 1]| - 1]
    ensures Trimmed(Join(ps, sep))
    decreases |ps|
  {
    if |ps| > 1 {
      JoinEnds(ps[1..], sep);
    }
  }

  /** Reading back the line of a clean group gives the group without its
      comment. */
  lemma ParseFormatLine(g: Group)
    requires CleanGroup(g)
    ensures ParseLine(FormatLine(g)) == Some(g.(comment := None))
  {
    var line := FormatLine(g);
    var text := FormatRules(g.rules);
    FormatRulesShape(g.rules);
    assert line == g.key + [':'] + text;
    assert Trimmed(line) by {
      assert |g.key| > 0 ==> line[0] == g.key[0];
      assert |g.key| == 0 ==> line[0] == ':';
      assert |text| > 0 ==> line[|line| - 1] == text[|text| - 1];
    }
    assert line[0] != '#' by {
      assert |g.key| > 0 ==> line[0] == g.key[0];
    }
    SplitFirstJoin(g.key, text, ':');
    ParseFormatRules(g.rules);
  }

  /** The text of a clean rule is within one line. */
  lemma FormatRuleOneLine(r: Rule)
    requires CleanRule(r)
    ensures OneLine(FormatRule(r))
  {
  }

  /** The rules text of clean rules is within one line. */
  lemma FormatRulesOneLine(rules: seq<Rule>)
    requires forall i :: 0 <= i < |rules| ==> CleanRule(rules[i])
    ensures OneLine(FormatRules(rules))
  {
    if |rules| > 0 {
      var segs := seq(|rules|, i requires 0 <= i < |rules| => FormatRule(rules[i]));
      forall i | 0 <= i < |segs| ensures OneLine(segs[i]) {
        FormatRuleOneLine(rules[i]);
      }
      JoinAvoids(segs, ';', '\n');
      JoinAvoids(segs, ';', '\r');
    }
  }

  /** The line written for a clean group is one line for `readLine`. */
  lemma FormatLineOneLine(g: Group)
    requires CleanGroup(g)
    ensures OneLine(FormatLine(g))
  {
    FormatRulesOneLine(g.rules);
    var line := FormatLine(g);
    assert forall c :: c in line ==> c in g.key || c == ':' || c in FormatRules(g.rules);
  }
}

=== FILE: service.dfy ===
/** The morphology service as a state record threaded through its
    operations: the root index, the scheme table, the transformation groups
    and the operation map built from them. */
module Service {
  import opened Wrappers
  import opened JavaString
  import opened AvlTree
  import HashChains
  import FixedTable
  import opened Transformations
  import opened Rewrite
  import opened GroupList
  import TransformationsFile

  datatype Engine = Engine(
    tree: Tree,
    schemes: FixedTable.Table,
    groups: seq<Group>,
    transformations: OpMap)

  /** The root index is an AVL search tree and the scheme table is well
      formed. */
  ghost predicate Consistent(e: Engine) {
    AvlTree.Valid(e.tree) && FixedTable.Valid(e.schemes)
  }

  function KnownRoots(e: Engine): set<string> {
    Keys(e.tree)
  }

  /** The derivative list of a root, empty for an unknown root. */
  function DerivativesOf(t: Tree, root: string): seq<Derivative> {
    var n := Find(t, root);
    if n.Node? then n.derivatives else []
  }

  // ---------------------------------------------------------------------
  // Derivative lists
  // ---------------------------------------------------------------------

  /** The frequency recorded for `word`: that of its first entry, 0 when
      it has none. */
  function Frequency(ds: seq<Derivative>, word: string): int
    decreases |ds|
  {
    if |ds| == 0 then 0
    else if ds[0].word == word then ds[0].frequency
    else Frequency(ds[1..], word)
  }

  function Words(ds: seq<Derivative>): set<string> {
    set d | d in ds :: d.word
  }

  /** No word appears in two entries. */
  ghost predicate UniqueWords(ds: seq<Derivative>) {
    forall i, j :: 0 <= i < j < |ds| ==> ds[i].word != ds[j].word
  }

  /** The loop of `updateDerivativeList` over one list: the first entry with
      the word has its frequency bumped, or a new entry with frequency 1 is
      appended. */
  function RecordWord(ds: seq<Derivative>, word: string): (r: seq<Derivative>)
    ensures |r| == |ds| + (if word in Words(ds) then 0 else 1)
    ensures forall i :: 0 <= i < |ds| ==> r[i].word == ds[i].word
    ensures word !in Words(ds) ==> r[|ds|] == Derivative(word, 1)
    decreases |ds|
  {
    if |ds| == 0 then [Derivative(word, 1)]
    else if ds[0].word == word then [ds[0].(frequency := ds[0].frequency + 1)] + ds[1..]
    else
      var rest := RecordWord(ds[1..], word);
      assert Words(ds) == {ds[0].word} + Words(ds[1..]) by {
        assert ds == [ds[0]] + ds[1..];
        WordsCons(ds[0], ds[1..]);
      }
      [ds[0]] + rest
  }

  /** Recording a word bumps its frequency by one and leaves every other
      word's frequency alone. */
  lemma {:induction false} RecordWordFrequency(ds: seq<Derivative>, word: string, other: string)
    requires other != word
    ensures Frequency(RecordWord(ds, word), word) == Frequency(ds, word) + 1
    ensures Frequency(RecordWord(ds, word), other) == Frequency(ds, other)
    decreases |ds|
  {
    if |ds| > 0 && ds[0].word != word {
      RecordWordFrequency(ds[1..], word, other);
      assert RecordWord(ds, word)[1..] == RecordWord(ds[1..], word);
    }
  }

  /** Recording a word adds it to the word set. */
  lemma {:induction false} RecordWordWords(ds: seq<Derivative>, word: string)
    ensures Words(RecordWord(ds, word)) == Words(ds) + {word}
    decreases |ds|
  {
    var r := RecordWord(ds, word);
    if |ds| == 0 {
      WordsCons(Derivative(word, 1), []);
    } else {
      assert ds == [ds[0]] + ds[1..];
      WordsCons(ds[0], ds[1..]);
      if ds[0].word == word {
        WordsCons(ds[0].(frequency := ds[0].frequency + 1), ds[1..]);
      } else {
        RecordWordWords(ds[1..], word);
        WordsCons(ds[0], RecordWord(ds[1..], word));
      }
    }
  }

  lemma WordsCons(d: Derivative, ds: seq<Derivative>)
    ensures Words([d] + ds) == {d.word} + Words(ds)
  {
    var s := [d] + ds;
    assert forall x :: x in s <==> x == d || x in ds;
  }

  /** Recording a word never creates a duplicate entry. */
  lemma RecordWordUnique(ds: seq<Derivative>, word: string)
    requires UniqueWords(ds)
    ensures UniqueWords(RecordWord(ds, word))
  {
    var r := RecordWord(ds, word);
    if word !in Words(ds) {
      forall i | 0 <= i < |ds| ensures ds[i].word != word {
        assert ds[i] in ds;
      }
    }
  }

  /** `updateDerivativeList(root, word)`: the word is recorded in the list
      of the node `find(root)` reaches; an unknown root changes nothing. */
  function UpdateDerivativeList(e: Engine, root: string, word: string): (r: Engine)
    ensures r.(tree := e.tree) == e
    ensures Find(e.tree, root).Nil? ==> r == e
    ensures Height(r.tree) == Height(e.tree)
  {
    var n := Find(e.tree, root);
    if n.Nil? then e
    else e.(tree := SetDerivatives(e.tree, root, RecordWord(n.derivatives, word)))
  }

  /** After `updateDerivativeList` the known roots are the same, the tree is
      still an AVL tree, the root's list has the word recorded, and every
      other list is unchanged. */
  lemma UpdateDerivativeListEffect(e: Engine, root: string, word: string, k: string)
    requires Consistent(e)
    ensures Consistent(UpdateDerivativeList(e, root, word))
    ensures KnownRoots(UpdateDerivativeList(e, root, word)) == KnownRoots(e)
    ensures DerivativesOf(UpdateDerivativeList(e, root, word).tree, k) ==
      if k == root && k in KnownRoots(e) then RecordWord(DerivativesOf(e.tree, k), word)
      else DerivativesOf(e.tree, k)
  {
    var r := UpdateDerivativeList(e, root, word);
    var n := Find(e.tree, root);
    if n.Node? {
      var ds := RecordWord(n.derivatives, word);
      SetDerivativesValid(e.tree, root, ds);
      var before, after := AllNodes(e.tree), AllNodes(r.tree);
      assert after == Overwrite(before, root, ds);
      if k in Keys(e.tree) {
        var fk := Find(e.tree, k);
        FindIsListed(e.tree, k, fk.derivatives);
        var i :| 0 <= i < |before| && before[i] == RootRecord(k, fk.derivatives);
        var expected := if k == root then ds else fk.derivatives;
        assert after[i] == RootRecord(k, expected);
        FindIsListed(r.tree, k, expected);
      }
    }
  }

  /** `updateDerivativeList(root, w)` for each word of `ws` in turn. */
  function RecordWords(e: Engine, root: string, ws: seq<string>): (r: Engine)
    ensures r.(tree := e.tree) == e
    decreases |ws|
  {
    if |ws| == 0 then e else RecordWords(UpdateDerivativeList(e, root, ws[0]), root, ws[1..])
  }

  /** `RecordWord` for each word of `ws` in turn. */
  function RecordAll(ds: seq<Derivative>, ws: seq<string>): seq<Derivative>
    decreases |ws|
  {
    if |ws| == 0 then ds else RecordAll(RecordWord(ds, ws[0]), ws[1..])
  }

  /** Recording several words keeps the engine consistent and the known
      roots the same, records the words in the root's list and leaves every
      other list alone. */
  lemma {:induction false} RecordWordsEffect(e: Engine, root: string, ws: seq<string>, k: string)
    requires Consistent(e)
    ensures Consistent(RecordWords(e, root, ws))
    ensures KnownRoots(RecordWords(e, root, ws)) == KnownRoots(e)
    ensures DerivativesOf(RecordWords(e, root, ws).tree, k) ==
      if k == root && k in KnownRoots(e) then RecordAll(DerivativesOf(e.tree, k), ws)
      else DerivativesOf(e.tree, k)
    decreases |ws|
  {
    if |ws| > 0 {
      UpdateDerivativeListEffect(e, root, ws[0], k);
      RecordWordsEffect(UpdateDerivativeList(e, root, ws[0]), root, ws[1..], k);
    }
  }

  /** Recording several words raises each word's frequency by the number of
      times it occurs among them. */
  lemma {:induction false} RecordAllFrequency(ds: seq<Derivative>, ws: seq<string>, w: string)
    ensures Frequency(RecordAll(ds, ws), w) == Frequency(ds, w) + multiset(ws)[w]
    decreases |ws|
  {
    if |ws| > 0 {
      if ws[0] == w {
        RecordWordFrequency(ds, w, w + ".");
      } else {
        RecordWordFrequency(ds, ws[0], w);
      }
      RecordAllFrequency(RecordWord(ds, ws[0]), ws[1..], w);
      assert ws == [ws[0]] + ws[1..];
      assert multiset(ws) == multiset{ws[0]} + multiset(ws[1..]);
    }
  }

  // ---------------------------------------------------------------------
  // generate, generateAll, validate
  // ---------------------------------------------------------------------

  /** `generate(root, scheme)`: an unknown root or scheme is an error; the
      generated word is recorded in the root's derivative list. A failure of
      the rule itself records nothing. */
  function Generate(e: Engine, root: string, scheme: string): (r: (Engine, Result<string>))
    requires Consistent(e)
    ensures Consistent(r.0) && KnownRoots(r.0) == KnownRoots(e)
    ensures root !in KnownRoots(e) ==> r == (e, Err(UnknownRoot))
    ensures root in KnownRoots(e) && FixedTable.Get(e.schemes, scheme).None? ==> r == (e, Err(UnknownScheme))
    ensures r.1.Err? ==> r.0 == e
    ensures root in KnownRoots(e) && FixedTable.Get(e.schemes, scheme).Some? ==>
      r.1 == ApplyRule(root, FixedTable.Get(e.schemes, scheme).value, scheme, e.transformations)
    ensures r.1.Ok? ==>
      && root in KnownRoots(e)
      && FixedTable.Get(e.schemes, scheme).Some?
      && r.1 == ApplyRule(root, FixedTable.Get(e.schemes, scheme).value, scheme, e.transformations)
      && r.0 == UpdateDerivativeList(e, root, r.1.value)
  {
    if !Contains(e.tree, root) then (e, Err(UnknownRoot))
    else match FixedTable.Get(e.schemes, scheme)
      case None => (e, Err(UnknownScheme))
      case Some(pattern) =>
        match ApplyRule(root, pattern, scheme, e.transformations)
        case Err(x) => (e, Err(x))
        case Ok(word) =>
          UpdateDerivativeListEffect(e, root, word, root);
          (UpdateDerivativeList(e, root, word), Ok(word))
  }

  /** `applyRule` on a root, as a function of a scheme entry: the entry's
      value is the pattern, possibly null, and its key the scheme's name. */
  function Rule(m: OpMap, root: string): FixedTable.SchemeEntry -> Result<string> {
    (entry: FixedTable.SchemeEntry) => ApplyStoredRule(root, entry.value, entry.key, m)
  }

  /** Every listed scheme has a pattern. */
  ghost predicate PatternsPresent(es: seq<FixedTable.SchemeEntry>) {
    forall i :: 0 <= i < |es| ==> es[i].value.Some?
  }

  /** The words the rules give for the entries before the first failing
      one. */
  function Produced(rule: FixedTable.SchemeEntry -> Result<string>, es: seq<FixedTable.SchemeEntry>): (ws: seq<string>)
    ensures |ws| == FirstFailure(rule, es)
    ensures forall j :: 0 <= j < |ws| ==> rule(es[j]) == Ok(ws[j])
    decreases |es|
  {
    if |es| == 0 || rule(es[0]).Err? then []
    else
      var rest := Produced(rule, es[1..]);
      assert forall j :: 1 <= j < |es| ==> es[j] == es[1..][j - 1];
      [rule(es[0]).value] + rest
  }

  /** The loop of `generateAll` over the entries: each word is recorded and
      collected in turn; a failing rule stops the loop, with the words of
      the earlier entries already recorded. */
  function GenerateEach(e: Engine, root: string, es: seq<FixedTable.SchemeEntry>): (r: (Engine, Result<seq<string>>))
    ensures r.0.(tree := e.tree) == e
    ensures r.1.Ok? ==> (|r.1.value| == |es| &&
      forall i :: 0 <= i < |es| ==> Rule(e.transformations, root)(es[i]) == Ok(r.1.value[i]))
    ensures r.1.Err? ==> FirstFailure(Rule(e.transformations, root), es) < |es|
    ensures r.1.Err? ==> r.1.error == Rule(e.transformations, root)(es[FirstFailure(Rule(e.transformations, root), es)]).error
    ensures r.0 == RecordWords(e, root, Produced(Rule(e.transformations, root), es))
    ensures r.1.Ok? ==> r.1.value == Produced(Rule(e.transformations, root), es) && r.0 == RecordWords(e, root, r.1.value)
    decreases |es|
  {
    if |es| == 0 then (e, Ok([]))
    else match Rule(e.transformations, root)(es[0])
      case Err(x) => (e, Err(x))
      case Ok(word) =>
        var e1 := UpdateDerivativeList(e, root, word);
        var (e2, rest) := GenerateEach(e1, root, es[1..]);
        assert Rule(e1.transformations, root) == Rule(e.transformations, root);
        RecordWordsCons(e, root, word, Produced(Rule(e.transformations, root), es[1..]));
        if rest.Err? then (e2, rest) else (e2, Ok([word] + rest.value))
  }

  lemma RecordWordsCons(e: Engine, root: string, w: string, ws: seq<string>)
    ensures RecordWords(e, root, [w] + ws) == RecordWords(UpdateDerivativeList(e, root, w), root, ws)
  {
    assert ([w] + ws)[1..] == ws;
  }

  /** The loop keeps the engine consistent and the known roots the same. */
  lemma {:induction false} GenerateEachConsistent(e: Engine, root: string, es: seq<FixedTable.SchemeEntry>)
    requires Consistent(e)
    ensures Consistent(GenerateEach(e, root, es).0)
    ensures KnownRoots(GenerateEach(e, root, es).0) == KnownRoots(e)
    decreases |es|
  {
    if |es| > 0 && Rule(e.transformations, root)(es[0]).Ok? {
      var e1 := UpdateDerivativeList(e, root, Rule(e.transformations, root)(es[0]).value);
      UpdateDerivativeListEffect(e, root, Rule(e.transformations, root)(es[0]).value, root);
      GenerateEachConsistent(e1, root, es[1..]);
    }
  }

  /** The loop fails exactly when some entry's rule fails. */
  lemma {:induction false} GenerateEachFails(e: Engine, root: string, es: seq<FixedTable.SchemeEntry>)
    ensures GenerateEach(e, root, es).1.Err? <==> FirstFailure(Rule(e.transformations, root), es) < |es|
    decreases |es|
  {
    if |es| > 0 && Rule(e.transformations, root)(es[0]).Ok? {
      var e1 := UpdateDerivativeList(e, root, Rule(e.transformations, root)(es[0]).value);
      GenerateEachFails(e1, root, es[1..]);
      assert e1.transformations == e.transformations;
    }
  }

  /** With a three-letter root, no transformation lacking its operands
      and no null pattern, every scheme's rule succeeds. */
  lemma AllRulesSucceed(e: Engine, root: string, es: seq<FixedTable.SchemeEntry>)
    requires |root| == 3 && SafeOps(e.transformations) && PatternsPresent(es)
    ensures forall i :: 0 <= i < |es| ==> Rule(e.transformations, root)(es[i]).Ok?
    ensures FirstFailure(Rule(e.transformations, root), es) == |es|
  {
  }

  /** `generateAll(root)`: an unknown root gives the empty list; otherwise one
      word per scheme, in `getAll` order, each recorded. */
  function GenerateAll(e: Engine, root: string): (r: (Engine, Result<seq<string>>))
    requires Consistent(e)
    ensures root !in KnownRoots(e) ==> r == (e, Ok([]))
    ensures Consistent(r.0) && KnownRoots(r.0) == KnownRoots(e)
    ensures r.0.(tree := e.tree) == e
    ensures root in KnownRoots(e) && r.1.Ok? ==>
      var es := FixedTable.GetAll(e.schemes);
      |r.1.value| == |es| && forall i :: 0 <= i < |es| ==> Rule(e.transformations, root)(es[i]) == Ok(r.1.value[i])
    ensures |root| == 3 && SafeOps(e.transformations) && PatternsPresent(FixedTable.GetAll(e.schemes)) ==> r.1.Ok?
    ensures root in KnownRoots(e) ==>
      var es, rule := FixedTable.GetAll(e.schemes), Rule(e.transformations, root);
      && r.0 == RecordWords(e, root, Produced(rule, es))
      && (r.1.Ok? ==> r.1.value == Produced(rule, es))
      && (r.1.Err? <==> FirstFailure(rule, es) < |es|)
      && (r.1.Err? ==> r.1.error == rule(es[FirstFailure(rule, es)]).error)
  {
    if !Contains(e.tree, root) then (e, Ok([]))
    else
      var es := FixedTable.GetAll(e.schemes);
      GenerateEachConsistent(e, root, es);
      GenerateEachFails(e, root, es);
      assert |root| == 3 && SafeOps(e.transformations) && PatternsPresent(es) ==> FirstFailure(Rule(e.transformations, root), es) == |es| by {
        if |root| == 3 && SafeOps(e.transformations) && PatternsPresent(es) {
          AllRulesSucceed(e, root, es);
        }
      }
      GenerateEach(e, root, es)
  }

  /** What `validate` reports. */
  datatype ValidationResult = ValidationResult(valid: bool, root: Option<string>, scheme: Option<string>)

  /** The scan of `validate`: the key of the first entry whose rule gives
      `word`; a failing rule met before a match stops the scan. */
  function FindScheme(rule: FixedTable.SchemeEntry -> Result<string>, word: string, es: seq<FixedTable.SchemeEntry>): (r: Result<Option<string>>)
    ensures r.Ok? && r.value.Some? ==> exists i :: 0 <= i < |es| && es[i].key == r.value.value && FirstProducer(rule, word, es, i)
    ensures r.Ok? && r.value.None? ==> forall i :: 0 <= i < |es| ==> rule(es[i]).Ok? && rule(es[i]).value != word
    ensures (forall i :: 0 <= i < |es| ==> rule(es[i]).Ok?) ==> r.Ok?
    ensures r.Err? ==> r.error == rule(es[FirstFailure(rule, es)]).error
    ensures forall i :: 0 <= i < |es| && FirstProducer(rule, word, es, i) ==> r == Ok(Some(es[i].key))
    ensures r.Err? ==> (FirstFailure(rule, es) < |es| &&
      forall j :: 0 <= j < FirstFailure(rule, es) ==> rule(es[j]).value != word)
    decreases |es|
  {
    if |es| == 0 then Ok(None)
    else match rule(es[0])
      case Err(x) => Err(x)
      case Ok(w) =>
        if w == word then Ok(Some(es[0].key))
        else
          var r := FindScheme(rule, word, es[1..]);
          assert forall i :: 1 <= i < |es| ==> es[i] == es[1..][i - 1];
          assert r.Err? ==> FirstFailure(rule, es) == 1 + FirstFailure(rule, es[1..]);
          assert r.Ok? && r.value.Some? ==>
            exists i :: 0 <= i < |es| && es[i].key == r.value.value && FirstProducer(rule, word, es, i) by {
            if r.Ok? && r.value.Some? {
              var i :| 0 <= i < |es[1..]| && es[1..][i].key == r.value.value && FirstProducer(rule, word, es[1..], i);
              FirstProducerShift(rule, word, es, i);
            }
          }
          assert forall i :: 0 <= i < |es| && FirstProducer(rule, word, es, i) ==> r == Ok(Some(es[i].key)) by {
            forall i | 0 <= i < |es| && FirstProducer(rule, word, es, i)
              ensures r == Ok(Some(es[i].key))
            {
              FirstProducerUnshift(rule, word, es, i);
            }
          }
          r
  }

  /** A failing rule with no producer before it stops the scan with an
      error. */
  lemma {:induction false} FindSchemeFails(rule: FixedTable.SchemeEntry -> Result<string>, word: string, es: seq<FixedTable.SchemeEntry>)
    requires FirstFailure(rule, es) < |es|
    requires forall j :: 0 <= j < FirstFailure(rule, es) ==> rule(es[j]).value != word
    ensures FindScheme(rule, word, es).Err?
    decreases |es|
  {
    if rule(es[0]).Ok? {
      assert FirstFailure(rule, es) == 1 + FirstFailure(rule, es[1..]);
      forall j | 0 <= j < FirstFailure(rule, es[1..])
        ensures rule(es[1..][j]).value != word
      {
        assert es[1..][j] == es[j + 1];
      }
      FindSchemeFails(rule, word, es[1..]);
    }
  }

  /** A producer past the head of the list is a producer of the tail. */
  lemma FirstProducerUnshift(rule: FixedTable.SchemeEntry -> Result<string>, word: string, es: seq<FixedTable.SchemeEntry>, i: int)
    requires 0 < i < |es|
    requires FirstProducer(rule, word, es, i)
    ensures rule(es[0]).Ok? && rule(es[0]).value != word
    ensures FirstProducer(rule, word, es[1..], i - 1)
  {
    forall j | 0 <= j < i - 1
      ensures rule(es[1..][j]).Ok? && rule(es[1..][j]).value != word
    {
      assert es[1..][j] == es[j + 1];
    }
    assert es[1..][i - 1] == es[i];
  }

  /** A producer of the tail is a producer of the whole list when the head
      gives another word. */
  lemma FirstProducerShift(rule: FixedTable.SchemeEntry -> Result<string>, word: string, es: seq<FixedTable.SchemeEntry>, i: int)
    requires 0 <= i < |es| - 1
    requires rule(es[0]).Ok? && rule(es[0]).value != word
    requires FirstProducer(rule, word, es[1..], i)
    ensures FirstProducer(rule, word, es, i + 1)
  {
    forall j | 0 <= j < i + 1
      ensures rule(es[j]).Ok? && rule(es[j]).value != word
    {
      if j > 0 {
        assert es[j] == es[1..][j - 1];
      }
    }
    assert es[i + 1] == es[1..][i];
  }

  /** Entry `i` gives `word`, and every entry before it gives another word. */
  predicate FirstProducer(rule: FixedTable.SchemeEntry -> Result<string>, word: string, es: seq<FixedTable.SchemeEntry>, i: int)
    requires 0 <= i < |es|
  {
    && rule(es[i]) == Ok(word)
    && forall j :: 0 <= j < i ==> rule(es[j]).Ok? && rule(es[j]).value != word
  }

  /** The position of the first entry whose rule fails, or |es|. */
  function FirstFailure(rule: FixedTable.SchemeEntry -> Result<string>, es: seq<FixedTable.SchemeEntry>): (n: nat)
    ensures n <= |es|
    ensures n < |es| ==> rule(es[n]).Err?
    ensures forall j :: 0 <= j < n ==> rule(es[j]).Ok?
    decreases |es|
  {
    if |es| == 0 then 0
    else if rule(es[0]).Err? then 0
    else
      var n := FirstFailure(rule, es[1..]);
      assert forall j :: 1 <= j < |es| ==> es[j] == es[1..][j - 1];
      1 + n
  }

  /** `validate(root, word)`: an unknown root gives (false, null, null); the
      first scheme whose rule gives the word makes the result valid and
      records the word; with no such scheme the result is (false, root,
      null) and nothing is recorded. */
  function Validate(e: Engine, root: string, word: string): (r: (Engine, Result<ValidationResult>))
    requires Consistent(e)
    ensures root !in KnownRoots(e) ==> r == (e, Ok(ValidationResult(false, None, None)))
    ensures r.1.Err? ==> r.0 == e
    ensures r.1.Ok? && !r.1.value.valid ==> r.0 == e
    ensures r.1.Ok? && !r.1.value.valid && root in KnownRoots(e) ==>
      r.1.value == ValidationResult(false, Some(root), None) &&
      forall i :: 0 <= i < |FixedTable.GetAll(e.schemes)| ==>
        && Rule(e.transformations, root)(FixedTable.GetAll(e.schemes)[i]).Ok?
        && Rule(e.transformations, root)(FixedTable.GetAll(e.schemes)[i]).value != word
    ensures r.1.Ok? && r.1.value.valid ==>
      && root in KnownRoots(e)
      && r.0 == UpdateDerivativeList(e, root, word)
      && r.1.value.root == Some(root) && r.1.value.scheme.Some?
      && exists i :: 0 <= i < |FixedTable.GetAll(e.schemes)| &&
           FixedTable.GetAll(e.schemes)[i].key == r.1.value.scheme.value &&
           FirstProducer(Rule(e.transformations, root), word, FixedTable.GetAll(e.schemes), i)
    ensures root in KnownRoots(e) ==>
      var es, rule := FixedTable.GetAll(e.schemes), Rule(e.transformations, root);
      && (FirstFailure(rule, es) == |es| ==> r.1.Ok?)
      && (FirstFailure(rule, es) < |es| && (forall j :: 0 <= j < FirstFailure(rule, es) ==> rule(es[j]).value != word) ==> r.1.Err?)
      && (forall i :: 0 <= i < |es| && FirstProducer(rule, word, es, i) ==>
            r == (UpdateDerivativeList(e, root, word), Ok(ValidationResult(true, Some(root), Some(es[i].key)))))
      && (r.1.Err? ==>
            && FirstFailure(rule, es) < |es|
            && r.1.error == rule(es[FirstFailure(rule, es)]).error
            && forall j :: 0 <= j < FirstFailure(rule, es) ==> rule(es[j]).value != word)
  {
    if !Contains(e.tree, root) then (e, Ok(ValidationResult(false, None, None)))
    else
      var es, rule := FixedTable.GetAll(e.schemes), Rule(e.transformations, root);
      assert FirstFailure(rule, es) < |es| && (forall j :: 0 <= j < FirstFailure(rule, es) ==> rule(es[j]).value != word) ==>
        FindScheme(rule, word, es).Err? by {
        if FirstFailure(rule, es) < |es| && (forall j :: 0 <= j < FirstFailure(rule, es) ==> rule(es[j]).value != word) {
          FindSchemeFails(rule, word, es);
        }
      }
      match FindScheme(rule, word, es)
      case Err(x) => (e, Err(x))
      case Ok(None) => (e, Ok(ValidationResult(false, Some(root), None)))
      case Ok(Some(s)) => (UpdateDerivativeList(e, root, word), Ok(ValidationResult(true, Some(root), Some(s))))
  }

  /** A word just generated validates against its root, provided no
      transformation lacks its operands and no scheme's pattern is null. */
  lemma GenerateThenValidate(e: Engine, root: string, scheme: string)
    requires Consistent(e) && SafeOps(e.transformations) && PatternsPresent(FixedTable.GetAll(e.schemes))
    requires Generate(e, root, scheme).1.Ok?
    ensures var (e1, w) := Generate(e, root, scheme);
      var v := Validate(e1, root, w.value).1;
      v.Ok? && v.value.valid && v.value.root == Some(root) && v.value.scheme.Some?
  {
    var g := Generate(e, root, scheme);
    var e1, w := g.0, g.1.value;
    var pattern := FixedTable.Get(e.schemes, scheme).value;
    assert ApplyRule(root, pattern, scheme, e.transformations) == Ok(w);
    assert |root| == 3;
    UpdateDerivativeListEffect(e, root, w, root);
    assert e1.schemes == e.schemes && e1.transformations == e.transformations;
    var es := FixedTable.GetAll(e.schemes);
    FixedTable.GetAllListsTable(e.schemes);
    assert HashChains.ChainGet(es, scheme) == Some(Some(pattern));
    var i :| 0 <= i < |es| && es[i] == HashChains.Entry(scheme, Some(pattern));
    assert Rule(e1.transformations, root)(es[i]) == Ok(w);
    AllRulesSucceed(e1, root, es);
    var f := FindScheme(Rule(e1.transformations, root), w, es);
    assert f.Ok?;
    assert f.value.Some?;
  }

  // ---------------------------------------------------------------------
  // Listing and statistics
  // ---------------------------------------------------------------------

  /** `collectRoots`: the roots in an in-order walk. */
  function CollectRoots(t: Tree): (r: seq<string>)
    ensures |r| == |AllNodes(t)|
    ensures forall i :: 0 <= i < |r| ==> r[i] == AllNodes(t)[i].root
  {
    match t
    case Nil => []
    case Node(k, _, l, rt, _) => CollectRoots(l) + [k] + CollectRoots(rt)
  }

  /** `getRootsList()`. */
  function GetRootsList(e: Engine): seq<string> {
    CollectRoots(e.tree)
  }

  /** The roots list is strictly increasing and holds exactly the known
      roots. */
  lemma RootsListSorted(e: Engine)
    requires Consistent(e)
    ensures forall i, j :: 0 <= i < j < |GetRootsList(e)| ==> Less(GetRootsList(e)[i], GetRootsList(e)[j])
    ensures forall k :: k in GetRootsList(e) <==> k in KnownRoots(e)
  {
    OrderedSorted(e.tree);
    KeysListed(e.tree);
    var r := GetRootsList(e);
    var s := AllNodes(e.tree);
    forall k ensures k in r <==> k in KnownRoots(e) {
      if k in r {
        var i :| 0 <= i < |r| && r[i] == k;
        assert s[i] in s;
      }
      if k in KnownRoots(e) {
        var x :| x in s && x.root == k;
        var i :| 0 <= i < |s| && s[i] == x;
        assert r[i] == k;
      }
    }
  }

  /** One root's line in the statistics. */
  datatype RootStat = RootStat(root: string, derivatives: seq<string>)

  /** What `computeStatistics` reports; `density` is the number of
      derivatives per root. */
  datatype Statistics = Statistics(
    roots: seq<RootStat>,
    totalRoots: int,
    totalDerivatives: int,
    totalPatterns: int,
    density: real)

  function WordList(ds: seq<Derivative>): (ws: seq<string>)
    ensures |ws| == |ds|
    ensures forall i :: 0 <= i < |ds| ==> ws[i] == ds[i].word
  {
    seq(|ds|, i requires 0 <= i < |ds| => ds[i].word)
  }

  /** The number of derivatives over a list of nodes. */
  function SumLengths(s: seq<RootRecord>): nat
    decreases |s|
  {
    if |s| == 0 then 0 else SumLengths(s[..|s| - 1]) + |s[|s| - 1].derivatives|
  }

  /** `LinkedHashMap.put` on the statistics map: a root already present has
      its entry replaced in place; a new root goes at the end. */
  function PutStat(stats: seq<RootStat>, stat: RootStat): (r: seq<RootStat>)
    ensures (forall i :: 0 <= i < |stats| ==> stats[i].root != stat.root) ==> r == stats + [stat]
    ensures |r| == |stats| || |r| == |stats| + 1
    decreases |stats|
  {
    if |stats| == 0 then [stat]
    else if stats[0].root == stat.root then [stat] + stats[1..]
    else
      assert forall i :: 1 <= i < |stats| ==> stats[i] == stats[1..][i - 1];
      [stats[0]] + PutStat(stats[1..], stat)
  }

  /** In a strictly increasing listing, the node at `i` has a root none
      of the lines for the nodes before it has. */
  lemma FreshRoot(nodes: seq<RootRecord>, roots: seq<RootStat>, i: int)
    requires Sorted(nodes) && 0 <= i < |nodes| && |roots| == i
    requires forall j :: 0 <= j < i ==> roots[j] == StatOf(nodes[j])
    ensures forall j :: 0 <= j < i ==> roots[j].root != nodes[i].root
  {
    forall j | 0 <= j < i ensures roots[j].root != nodes[i].root {
      assert Less(nodes[j].root, nodes[i].root);
      LessIrreflexive(nodes[i].root);
    }
  }

  /** The statistics line of a node. */
  function StatOf(n: RootRecord): RootStat {
    RootStat(n.root, WordList(n.derivatives))
  }

  /** `computeStatistics()`: one line per node in in-order, the number of
      roots and derivatives, the number of schemes, and the density. */
  method ComputeStatistics(e: Engine) returns (s: Statistics)
    ensures s.totalRoots == |s.roots|
    ensures s.totalDerivatives == SumLengths(AllNodes(e.tree))
    ensures s.totalPatterns == |FixedTable.GetAll(e.schemes)|
    ensures s.totalRoots == 0 ==> s.density == 0.0
    ensures s.totalRoots > 0 ==> s.density == s.totalDerivatives as real / s.totalRoots as real
    ensures Consistent(e) ==> s.totalRoots == |AllNodes(e.tree)|
    ensures Consistent(e) ==> forall i :: 0 <= i < |s.roots| ==> s.roots[i] == StatOf(AllNodes(e.tree)[i])
  {
    var nodes := AllNodes(e.tree);
    if Consistent(e) {
      OrderedSorted(e.tree);
    }
    var roots, total := CollectStats(nodes);
    var density := if |roots| == 0 then 0.0 else total as real / |roots| as real;
    s := Statistics(roots, |roots|, total, |FixedTable.GetAll(e.schemes)|, density);
  }

  /** The loop of `computeStatistics` over the in-order nodes: one line per
      node when the roots are strictly increasing, and the derivative
      total. */
  method CollectStats(nodes: seq<RootRecord>) returns (roots: seq<RootStat>, total: int)
    ensures total == SumLengths(nodes)
    ensures Sorted(nodes) ==> |roots| == |nodes| && forall j :: 0 <= j < |nodes| ==> roots[j] == StatOf(nodes[j])
  {
    roots := [];
    total := 0;
    var i := 0;
    while i < |nodes|
      invariant 0 <= i <= |nodes|
      invariant total == SumLengths(nodes[..i])
      invariant Sorted(nodes) ==> |roots| == i && forall j :: 0 <= j < i ==> roots[j] == StatOf(nodes[j])
    {
      var n := nodes[i];
      if Sorted(nodes) {
        FreshRoot(nodes, roots, i);
      }
      roots := PutStat(roots, StatOf(n));
      total := total + |n.derivatives|;
      assert nodes[..i + 1][..i] == nodes[..i];
      i := i + 1;
    }
    assert nodes[..i] == nodes;
  }

  // ---------------------------------------------------------------------
  // Schemes
  // ---------------------------------------------------------------------

  /** `addScheme(scheme, pattern)`: stores the pattern, null included,
      replacing any earlier one. */
  function AddScheme(e: Engine, scheme: string, pattern: Option<string>): (r: Engine)
    requires Consistent(e)
    ensures Consistent(r) && r.(schemes := e.schemes) == e
    ensures FixedTable.Find(r.schemes, scheme) == Some(pattern)
    ensures FixedTable.Get(r.schemes, scheme) == pattern
    ensures forall k :: k != scheme ==> FixedTable.Find(r.schemes, k) == FixedTable.Find(e.schemes, k)
  {
    e.(schemes := FixedTable.Put(e.schemes, scheme, pattern))
  }

  /** `updateScheme(scheme, pattern)`: a scheme whose `get` is null, because
      it has no entry or a null pattern, is an error; otherwise its pattern
      is replaced and no scheme is added. */
  function UpdateScheme(e: Engine, scheme: string, pattern: Option<string>): (r: Result<Engine>)
    requires Consistent(e)
    ensures r.Err? <==> FixedTable.Get(e.schemes, scheme).None?
    ensures r.Err? ==> r.error == SchemeNotFound
    ensures r.Ok? ==> Consistent(r.value) && r.value.(schemes := e.schemes) == e
    ensures r.Ok? ==> FixedTable.Find(r.value.schemes, scheme) == Some(pattern)
    ensures r.Ok? ==> forall k :: k != scheme ==> FixedTable.Find(r.value.schemes, k) == FixedTable.Find(e.schemes, k)
    ensures r.Ok? ==> |FixedTable.GetAll(r.value.schemes)| == |FixedTable.GetAll(e.schemes)|
  {
    if FixedTable.Get(e.schemes, scheme).None? then Err(SchemeNotFound)
    else Ok(e.(schemes := FixedTable.Put(e.schemes, scheme, pattern)))
  }

  /** `deleteScheme(scheme)`: a scheme whose `get` is null is an error;
      otherwise its entry is removed and nothing else changes. */
  function DeleteScheme(e: Engine, scheme: string): (r: Result<Engine>)
    requires Consistent(e)
    ensures r.Err? <==> FixedTable.Get(e.schemes, scheme).None?
    ensures r.Err? ==> r.error == SchemeNotFound
    ensures r.Ok? ==> Consistent(r.value) && r.value.(schemes := e.schemes) == e
    ensures r.Ok? ==> FixedTable.Find(r.value.schemes, scheme).None?
    ensures r.Ok? ==> forall k :: k != scheme ==> FixedTable.Find(r.value.schemes, k) == FixedTable.Find(e.schemes, k)
    ensures r.Ok? ==> |FixedTable.GetAll(r.value.schemes)| == |FixedTable.GetAll(e.schemes)| - 1
  {
    if FixedTable.Get(e.schemes, scheme).None? then Err(SchemeNotFound)
    else Ok(e.(schemes := FixedTable.Remove(e.schemes, Some(scheme)).0))
  }

  /** A scheme stored with a null pattern is listed but cannot be used:
      `generate` reports it unknown, and `updateScheme` and `deleteScheme`
      report it not found and leave it in place. */
  lemma NullPatternEffects(e: Engine, root: string, scheme: string, pattern: Option<string>)
    requires Consistent(e) && FixedTable.Find(e.schemes, scheme) == Some(None)
    ensures scheme in HashChains.Keys(FixedTable.GetAll(e.schemes))
    ensures root in KnownRoots(e) ==> Generate(e, root, scheme) == (e, Err(UnknownScheme))
    ensures UpdateScheme(e, scheme, pattern) == Err(SchemeNotFound)
    ensures DeleteScheme(e, scheme) == Err(SchemeNotFound)
  {
    FixedTable.GetAllListsTable(e.schemes);
  }

  /** A null pattern in the table makes `generateAll` on a known root
      fail, with a null-pointer error once every present pattern
      succeeds. */
  lemma NullPatternFailsGenerateAll(e: Engine, root: string, scheme: string)
    requires Consistent(e) && FixedTable.Find(e.schemes, scheme) == Some(None)
    requires root in KnownRoots(e)
    ensures GenerateAll(e, root).1.Err?
    ensures |root| == 3 && SafeOps(e.transformations) ==> GenerateAll(e, root).1 == Err(NullPointer)
  {
    var es := FixedTable.GetAll(e.schemes);
    var rule := Rule(e.transformations, root);
    FixedTable.GetAllListsTable(e.schemes);
    assert HashChains.Entry(scheme, None) in es;
    var i :| 0 <= i < |es| && es[i] == HashChains.Entry(scheme, None);
    assert rule(es[i]).Err?;
    var n := FirstFailure(rule, es);
    assert n < |es|;
    GenerateEachFails(e, root, es);
    assert GenerateAll(e, root) == GenerateEach(e, root, es);
    if |root| == 3 && SafeOps(e.transformations) {
      assert es[n].value.None?;
    }
  }

  // ---------------------------------------------------------------------
  // Transformation groups
  // ---------------------------------------------------------------------

  /** The operation map is the one built from the group list, as every
      load leaves it. */
  ghost predicate MapMatchesGroups(e: Engine) {
    e.transformations == Rebuild(e.groups)
  }

  /** A list whose groups come from a storable list or are one storable
      group is storable; the same for lists without comments. */
  lemma StorableFrom(a: seq<Group>, b: seq<Group>, g: Group)
    requires forall h :: h in b ==> h in a || h == g
    ensures TransformationsFile.AllStorable(a) && TransformationsFile.Storable(g) ==> TransformationsFile.AllStorable(b)
    ensures TransformationsFile.Uncommented(a) && g.comment.None? ==> TransformationsFile.Uncommented(b)
  {
    forall i | 0 <= i < |b| ensures b[i] in a || b[i] == g {
      assert b[i] in b;
    }
    forall i | 0 <= i < |b| && b[i] != g ensures exists j :: 0 <= j < |a| && a[j] == b[i] {
      assert b[i] in a;
    }
  }

  /** A list whose groups all come from a storable list is storable; the
      same for lists without comments. */
  lemma StorableWithin(a: seq<Group>, b: seq<Group>)
    requires forall h :: h in b ==> h in a
    ensures TransformationsFile.AllStorable(a) ==> TransformationsFile.AllStorable(b)
    ensures TransformationsFile.Uncommented(a) ==> TransformationsFile.Uncommented(b)
  {
    forall i | 0 <= i < |b| ensures exists j :: 0 <= j < |a| && a[j] == b[i] {
      assert b[i] in b;
    }
  }

  /** Writing the groups to the file as `saveTransformationsToFile` lays
      it out, each comment before its group's line, and loading it again.
      Storable groups keep their keys, rules and order and build the same
      map, but each comment comes back on the group saved before it and the
      first group's comment is lost; without comments the groups come back
      as they were. */
  function Reload(e: Engine, groups: seq<Group>): (r: Engine)
    ensures r.tree == e.tree && r.schemes == e.schemes
    ensures MapMatchesGroups(r)
    ensures TransformationsFile.AllStorable(groups) ==>
      && r.groups == TransformationsFile.ShiftComments(groups)
      && TransformationsFile.AllStorable(r.groups)
      && r.transformations == Rebuild(groups)
    ensures TransformationsFile.AllStorable(groups) && TransformationsFile.Uncommented(groups) ==> r.groups == groups
  {
    var loaded := TransformationsFile.Load(TransformationsFile.SaveLinesAsWritten(groups));
    assert TransformationsFile.AllStorable(groups) ==>
      && loaded == TransformationsFile.ShiftComments(groups)
      && TransformationsFile.AllStorable(loaded)
      && Rebuild(loaded) == Rebuild(groups) by {
      if TransformationsFile.AllStorable(groups) {
        TransformationsFile.AsWrittenLoad(groups);
        TransformationsFile.ShiftStorable(groups);
        RebuildIgnoresComments(loaded, groups);
      }
    }
    assert TransformationsFile.AllStorable(groups) && TransformationsFile.Uncommented(groups) ==> loaded == groups by {
      if TransformationsFile.AllStorable(groups) && TransformationsFile.Uncommented(groups) {
        TransformationsFile.ShiftUncommented(groups);
      }
    }
    e.(groups := loaded, transformations := Rebuild(loaded))
  }

  /** `saveTransformationGroup(group)`: the groups with a matching key are
      replaced by the new one at the end, the file is written and read
      again, and the new group's operations are what the map holds for its
      key. The list read back has the comments shifted as `Reload` states. */
  function SaveTransformationGroup(e: Engine, g: Group): (r: Engine)
    ensures r.tree == e.tree && r.schemes == e.schemes
    ensures MapMatchesGroups(r)
    ensures TransformationsFile.AllStorable(e.groups) && TransformationsFile.Storable(g) ==>
      && r.groups == TransformationsFile.ShiftComments(SaveGroup(e.groups, g))
      && TransformationsFile.AllStorable(r.groups)
      && g.key in r.transformations
      && r.transformations[g.key] == OpsOf(g.rules)
    ensures (&& TransformationsFile.AllStorable(e.groups) && TransformationsFile.Storable(g)
             && TransformationsFile.Uncommented(e.groups) && g.comment.None?) ==>
      r.groups == SaveGroup(e.groups, g)
  {
    var gs := SaveGroup(e.groups, g);
    var r := Reload(e, gs);
    assert TransformationsFile.AllStorable(e.groups) && TransformationsFile.Storable(g) ==>
      && r.groups == TransformationsFile.ShiftComments(gs)
      && TransformationsFile.AllStorable(r.groups)
      && g.key in r.transformations && r.transformations[g.key] == OpsOf(g.rules) by {
      if TransformationsFile.AllStorable(e.groups) && TransformationsFile.Storable(g) {
        StorableFrom(e.groups, gs, g);
        RebuildLast(gs, |gs| - 1);
      }
    }
    assert (&& TransformationsFile.AllStorable(e.groups) && TransformationsFile.Storable(g)
            && TransformationsFile.Uncommented(e.groups) && g.comment.None?) ==> r.groups == gs by {
      if (&& TransformationsFile.AllStorable(e.groups) && TransformationsFile.Storable(g)
          && TransformationsFile.Uncommented(e.groups) && g.comment.None?) {
        StorableFrom(e.groups, gs, g);
      }
    }
    r
  }

  /** Saving a commented group when there is no other: the comment is
      written before the group's line, so reading the file back loses it. */
  lemma SaveDropsLoneComment(e: Engine, g: Group)
    requires e.groups == [] && TransformationsFile.Storable(g) && g.comment.Some?
    ensures SaveTransformationGroup(e, g).groups == [g.(comment := None)]
    ensures SaveTransformationGroup(e, g).groups != [g]
  {
    var r := SaveTransformationGroup(e, g);
    assert TransformationsFile.AllStorable(e.groups);
    assert r.groups == TransformationsFile.ShiftComments(SaveGroup(e.groups, g));
    assert SaveGroup(e.groups, g) == [g];
    LoneShift(g);
  }

  lemma LoneShift(g: Group)
    ensures TransformationsFile.ShiftComments([g]) == [g.(comment := None)]
  {
    assert TransformationsFile.ShiftComments([g])[0] == g.(comment := None);
  }

  /** `deleteTransformationGroup(key)`: when a group's key matches, every
      matching group is removed and the file written and read again;
      otherwise nothing changes. */
  function DeleteTransformationGroup(e: Engine, key: string): (r: (Engine, bool))
    ensures r.1 <==> GetGroup(e.groups, key).Some?
    ensures !r.1 ==> r.0 == e
    ensures r.0.tree == e.tree && r.0.schemes == e.schemes
    ensures r.1 ==> MapMatchesGroups(r.0)
  {
    var (gs, removed) := DeleteGroup(e.groups, key);
    if !removed then (e, false) else (Reload(e, gs), true)
  }

  /** After a delete among storable groups the map is the one the edited
      list builds and no key of it matches `key`. When a group was removed
      the list read back is the edited list with its comments shifted as
      `Reload` states; without comments it is exactly the edited list. */
  lemma DeleteTransformationGroupEffect(e: Engine, key: string)
    requires TransformationsFile.AllStorable(e.groups) && MapMatchesGroups(e)
    ensures var (r, removed) := DeleteTransformationGroup(e, key);
      && TransformationsFile.AllStorable(r.groups)
      && MapMatchesGroups(r)
      && r.transformations == Rebuild(DeleteGroup(e.groups, key).0)
      && (forall k :: k in r.transformations ==> !EqualsIgnoreCase(k, key))
      && (removed ==> r.groups == TransformationsFile.ShiftComments(DeleteGroup(e.groups, key).0))
      && (TransformationsFile.Uncommented(e.groups) ==> r.groups == DeleteGroup(e.groups, key).0)
  {
    var (gs, removed) := DeleteGroup(e.groups, key);
    StorableWithin(e.groups, gs);
    if removed {
      assert DeleteTransformationGroup(e, key).0 == Reload(e, gs);
      ReloadEdited(e, gs, key);
    } else {
      NoMatchingKey(gs, key);
    }
  }

  /** Reloading an edited storable list with no group matching `key`. */
  lemma ReloadEdited(e: Engine, gs: seq<Group>, key: string)
    requires TransformationsFile.AllStorable(gs) && GetGroup(gs, key).None?
    ensures var r := Reload(e, gs);
      && TransformationsFile.AllStorable(r.groups)
      && r.groups == TransformationsFile.ShiftComments(gs)
      && r.transformations == Rebuild(gs)
      && (forall k :: k in r.transformations ==> !EqualsIgnoreCase(k, key))
      && (TransformationsFile.Uncommented(gs) ==> r.groups == gs)
  {
    NoMatchingKey(gs, key);
  }

  /** When no group matches `key`, no key of the rebuilt map does. */
  lemma NoMatchingKey(groups: seq<Group>, key: string)
    requires GetGroup(groups, key).None?
    ensures forall k :: k in Rebuild(groups) ==> !EqualsIgnoreCase(k, key)
  {
    forall k | k in Rebuild(groups) ensures !EqualsIgnoreCase(k, key) {
      var g :| g in groups && g.key == k;
      var i :| 0 <= i < |groups| && groups[i] == g;
      assert !KeyMatches(groups[i], key);
    }
  }
}

=== FILE: transformations.dfy ===
/** Transformation rules and groups, and the operation pipeline they turn
    into: each rule is a `replace` of every occurrence of one string by
    another, or a `replace_final` of the last character. */
module Transformations {
  import opened Wrappers
  import opened JavaString

  const ReplaceType: string := "replace"
  const ReplaceFinalType: string := "replace_final"

  /** A rule as the record stores it: the type is a free string, expected
      to be "replace" or "replace_final"; `from` is unused by
      "replace_final"; `order` is the rule's position in its group. */
  datatype Rule = Rule(
    ruleType: Option<string>,
    from: Option<string>,
    to: Option<string>,
    order: int,
    comment: Option<string>)

  /** The four-argument constructor; the comment stays null. */
  function NewRule(ruleType: Option<string>, from: Option<string>, to: Option<string>, order: int): Rule {
    Rule(ruleType, from, to, order, None)
  }

  /** `equals`: type, from, to and order, but not the comment. */
  function RuleEquals(a: Rule, b: Rule): (eq: bool)
    ensures eq <==> a.(comment := None) == b.(comment := None)
  {
    a.order == b.order && a.ruleType == b.ruleType && a.from == b.from && a.to == b.to
  }

  /** The hash of a possibly-null field inside `Objects.hash`. */
  function FieldHash(s: Option<string>): (h: int)
    ensures -TwoTo31 <= h < TwoTo31
  {
    if s.None? then 0 else HashCode(s.value)
  }

  /** `hashCode`: `Objects.hash(type, from, to, order)`, that is
      `31 * (31 * (31 * (31 + h(type)) + h(from)) + h(to)) + order` in
      `int` arithmetic. */
  function RuleHash(r: Rule): (h: int)
    ensures -TwoTo31 <= h < TwoTo31
  {
    FieldsHash(r.ruleType, r.from, r.to, r.order)
  }

  function FieldsHash(ruleType: Option<string>, from: Option<string>, to: Option<string>, order: int): (h: int)
    ensures -TwoTo31 <= h < TwoTo31
  {
    var h1 := Int32(31 + FieldHash(ruleType));
    var h2 := Int32(31 * h1 + FieldHash(from));
    var h3 := Int32(31 * h2 + FieldHash(to));
    Int32(31 * h3 + order)
  }

  /** Rules built from the same four fields are equal whatever their
      comments, and equal rules hash alike. */
  lemma RuleEqualityIgnoresComment(r: Rule, c: Option<string>)
    ensures RuleEquals(NewRule(r.ruleType, r.from, r.to, r.order), r)
    ensures RuleEquals(r, r.(comment := c))
    ensures RuleHash(r) == RuleHash(r.(comment := c))
  {
  }

  lemma RuleHashConsistent(a: Rule, b: Rule)
    requires RuleEquals(a, b)
    ensures RuleHash(a) == RuleHash(b)
  {
    assert a.ruleType == b.ruleType && a.from == b.from && a.to == b.to && a.order == b.order;
  }

  // ---------------------------------------------------------------------
  // Groups
  // ---------------------------------------------------------------------

  /** A named, ordered list of rules with an optional note. */
  datatype Group = Group(key: string, rules: seq<Rule>, comment: Option<string>)

  /** `new TransformationGroup(key)`: no rules, no comment. */
  function NewGroup(key: string): (g: Group)
    ensures g.key == key && |g.rules| == 0
  {
    Group(key, [], None)
  }

  /** `equals`: groups are equal exactly when their keys are. */
  function GroupEquals(a: Group, b: Group): (eq: bool)
    ensures eq <==> a.key == b.key
    ensures a.key == b.key ==> GroupHash(a) == GroupHash(b)
  {
    a.key == b.key
  }

  /** `hashCode`: `Objects.hash(key)`, that is `31 + key.hashCode()`. */
  function GroupHash(g: Group): (h: int)
    ensures -TwoTo31 <= h < TwoTo31
  {
    Int32(31 + HashCode(g.key))
  }

  /** `setRules`: a null list is stored as the empty list. */
  function SetRules(g: Group, rules: Option<seq<Rule>>): (r: Group)
    ensures r.key == g.key && r.comment == g.comment
    ensures rules.Some? ==> r.rules == rules.value
    ensures rules.None? ==> r.rules == []
  {
    g.(rules := if rules.Some? then rules.value else [])
  }

  /** Every rule's order is its position in the list. */
  ghost predicate OrdersAreIndices(rules: seq<Rule>) {
    forall i :: 0 <= i < |rules| ==> rules[i].order == i
  }

  /** `addRule`: a null rule is ignored; otherwise the rule gets the current
      number of rules as its order and goes at the end. */
  function AddRule(g: Group, rule: Option<Rule>): (r: Group)
    ensures r.key == g.key && r.comment == g.comment
    ensures rule.None? ==> r == g
    ensures rule.Some? ==> |r.rules| == |g.rules| + 1 && r.rules[..|g.rules|] == g.rules
    ensures rule.Some? ==> RuleEquals(r.rules[|g.rules|], rule.value.(order := |g.rules|))
    ensures rule.Some? ==> r.rules[|g.rules|].comment == rule.value.comment
    ensures OrdersAreIndices(g.rules) ==> OrdersAreIndices(r.rules)
  {
    if rule.None? then g
    else g.(rules := g.rules + [rule.value.(order := |g.rules|)])
  }

  /** `addRule` applied to each rule of `rs` in turn. */
  function AddRules(g: Group, rs: seq<Rule>): (r: Group)
    ensures r.key == g.key && r.comment == g.comment
    ensures |r.rules| == |g.rules| + |rs|
    ensures r.rules[..|g.rules|] == g.rules
    ensures forall i :: 0 <= i < |rs| ==> RuleEquals(r.rules[|g.rules| + i], rs[i].(order := |g.rules| + i))
    ensures OrdersAreIndices(g.rules) ==> OrdersAreIndices(r.rules)
    decreases |rs|
  {
    if |rs| == 0 then g
    else
      var g' := AddRule(g, Some(rs[0]));
      var r := AddRules(g', rs[1..]);
      assert forall i :: 0 <= i < |rs| ==> RuleEquals(r.rules[|g.rules| + i], rs[i].(order := |g.rules| + i)) by {
        forall i | 0 <= i < |rs| ensures RuleEquals(r.rules[|g.rules| + i], rs[i].(order := |g.rules| + i)) {
          if i == 0 {
            assert r.rules[..|g'.rules|][|g.rules|] == g'.rules[|g.rules|];
          } else {
            assert rs[1..][i - 1] == rs[i];
          }
        }
      }
      assert r.rules[..|g.rules|] == r.rules[..|g'.rules|][..|g.rules|];
      r
  }

  /** A group built by `addRule` from an empty one numbers its rules 0, 1, ... */
  lemma BuiltGroupIsIndexed(key: string, rs: seq<Rule>)
    ensures OrdersAreIndices(AddRules(NewGroup(key), rs).rules)
    ensures |AddRules(NewGroup(key), rs).rules| == |rs|
  {
  }

  // ---------------------------------------------------------------------
  // Operations: the per-rule maps the engine runs
  // ---------------------------------------------------------------------

  /** One operation as the rebuilt map holds it: "type" and "to" always,
      "from" only for a "replace" rule. */
  datatype Op = Op(opType: Option<string>, from: Option<string>, to: Option<string>)

  type OpMap = map<string, seq<Op>>

  /** The operation a rule becomes when the map is rebuilt. */
  function OpOf(r: Rule): (op: Op)
    ensures op.opType == r.ruleType && op.to == r.to
    ensures op.from == (if r.ruleType == Some(ReplaceType) then r.from else None)
  {
    Op(r.ruleType, if r.ruleType == Some(ReplaceType) then r.from else None, r.to)
  }

  function OpsOf(rules: seq<Rule>): (ops: seq<Op>)
    ensures |ops| == |rules|
    ensures forall i :: 0 <= i < |rules| ==> ops[i] == OpOf(rules[i])
  {
    seq(|rules|, i requires 0 <= i < |rules| => OpOf(rules[i]))
  }

  /** No group after position `i` has the same key. */
  ghost predicate LastWithKey(groups: seq<Group>, i: int)
    requires 0 <= i < |groups|
  {
    forall j :: i < j < |groups| ==> groups[j].key != groups[i].key
  }

  /** The map from group keys to operation lists, filled group by group so
      that a later group with the same key replaces an earlier one. */
  function Rebuild(groups: seq<Group>): (m: OpMap)
    ensures m.Keys == set g | g in groups :: g.key
    decreases |groups|
  {
    if |groups| == 0 then map[]
    else
      var init := groups[..|groups| - 1];
      var last := groups[|groups| - 1];
      assert groups == init + [last];
      Rebuild(init)[last.key := OpsOf(last.rules)]
  }

  /** The entry for a key is the operations of the last group with it. */
  lemma {:induction false} RebuildLast(groups: seq<Group>, i: int)
    requires 0 <= i < |groups| && LastWithKey(groups, i)
    ensures groups[i].key in Rebuild(groups)
    ensures Rebuild(groups)[groups[i].key] == OpsOf(groups[i].rules)
    decreases |groups|
  {
    var init := groups[..|groups| - 1];
    if i < |groups| - 1 {
      assert groups[|groups| - 1].key != groups[i].key;
      assert init[i] == groups[i];
      assert LastWithKey(init, i) by {
        forall j | i < j < |init| ensures init[j].key != init[i].key {
          assert init[j] == groups[j];
        }
      }
      RebuildLast(init, i);
    }
  }

  /** Two group lists that agree on every key and rule list, position by
      position, build the same map: comments play no part in it. */
  lemma {:induction false} RebuildIgnoresComments(a: seq<Group>, b: seq<Group>)
    requires |a| == |b|
    requires forall i :: 0 <= i < |a| ==> a[i].key == b[i].key && a[i].rules == b[i].rules
    ensures Rebuild(a) == Rebuild(b)
    decreases |a|
  {
    if |a| > 0 {
      var n := |a| - 1;
      RebuildIgnoresComments(a[..n], b[..n]);
    }
  }

  /** `applyTransformations`' loop body: "replace_final" swaps the last
      character of a non-empty word for `to` (a null `to` is written as
      "null"); any other type replaces every occurrence of `from` by `to`,
      and a null `from` or `to` throws. */
  function ApplyOp(word: string, op: Op): (r: Result<string>)
    ensures op.opType == Some(ReplaceFinalType) ==> r.Ok?
    ensures op.opType == Some(ReplaceFinalType) && |word| == 0 ==> r.value == word
    ensures op.opType == Some(ReplaceFinalType) && |word| > 0 ==>
      |r.value| == |word| - 1 + |Show(op.to)| &&
      r.value[..|word| - 1] == word[..|word| - 1] && r.value[|word| - 1..] == Show(op.to)
    ensures op.opType != Some(ReplaceFinalType) ==>
      (r.Err? <==> op.from.None? || op.to.None?)
    ensures r.Err? ==> r.error == NullPointer
  {
    if op.opType == Some(ReplaceFinalType) then
      if |word| > 0 then Ok(word[..|word| - 1] + Show(op.to)) else Ok(word)
    else if op.from.None? || op.to.None? then Err(NullPointer)
    else Ok(ReplaceAll(word, op.from.value, op.to.value))
  }

  /** A "replace" operation leaves a word that does not contain its
      non-empty `from` alone, and changes the length by the length
      difference once per match. */
  lemma ReplaceOpEffect(word: string, op: Op)
    requires op.opType != Some(ReplaceFinalType) && op.from.Some? && op.to.Some?
    requires |op.from.value| > 0
    ensures ApplyOp(word, op).Ok?
    ensures !Occurs(op.from.value, word) ==> ApplyOp(word, op).value == word
    ensures |ApplyOp(word, op).value| == |word| + Matches(word, op.from.value) * (|op.to.value| - |op.from.value|)
    ensures op.from == op.to ==> ApplyOp(word, op).value == word
  {
    ReplaceLength(word, op.from.value, op.to.value);
    if !Occurs(op.from.value, word) {
      ReplaceAbsent(word, op.from.value, op.to.value);
    }
    if op.from == op.to {
      ReplaceSame(word, op.from.value);
    }
  }

  /** The operations run in list order, each on the previous one's output;
      the first exception stops the run. */
  function RunOps(word: string, ops: seq<Op>): Result<string>
    decreases |ops|
  {
    if |ops| == 0 then Ok(word)
    else
      var w :- ApplyOp(word, ops[0]);
      RunOps(w, ops[1..])
  }

  /** Running `a + b` is running `a`, then `b` on its output. */
  lemma {:induction false} RunOpsAppend(word: string, a: seq<Op>, b: seq<Op>)
    ensures RunOps(word, a + b) ==
      (if RunOps(word, a).Err? then RunOps(word, a) else RunOps(RunOps(word, a).value, b))
    decreases |a|
  {
    if |a| == 0 {
      assert a + b == b;
    } else {
      assert (a + b)[0] == a[0] && (a + b)[1..] == a[1..] + b;
      var w := ApplyOp(word, a[0]);
      if w.Ok? {
        RunOpsAppend(w.value, a[1..], b);
      }
    }
  }

  /** An operation that cannot throw: a "replace_final", or one with both
      `from` and `to` present. */
  predicate SafeOp(op: Op) {
    op.opType == Some(ReplaceFinalType) || (op.from.Some? && op.to.Some?)
  }

  predicate SafeOps(m: OpMap) {
    forall k :: k in m ==> forall i :: 0 <= i < |m[k]| ==> SafeOp(m[k][i])
  }

  lemma {:induction false} RunSafeOps(word: string, ops: seq<Op>)
    requires forall i :: 0 <= i < |ops| ==> SafeOp(ops[i])
    ensures RunOps(word, ops).Ok?
    decreases |ops|
  {
    if |ops| > 0 {
      RunSafeOps(ApplyOp(word, ops[0]).value, ops[1..]);
    }
  }

  /** `applyTransformations(word, key)`: a key with no group returns the
      word unchanged; otherwise the group's operations run as a pipeline. */
  function ApplyTransformations(word: string, key: string, m: OpMap): (r: Result<string>)
    ensures key !in m ==> r == Ok(word)
    ensures SafeOps(m) ==> r.Ok?
    ensures r.Err? ==> r.error == NullPointer
  {
    if key !in m then Ok(word)
    else
      assert SafeOps(m) ==> RunOps(word, m[key]).Ok? by {
        if SafeOps(m) {
          RunSafeOps(word, m[key]);
        }
      }
      assert RunOps(word, m[key]).Err? ==> RunOps(word, m[key]).error == NullPointer by {
        RunOpsError(word, m[key]);
      }
      RunOps(word, m[key])
  }

  lemma {:induction false} RunOpsError(word: string, ops: seq<Op>)
    ensures RunOps(word, ops).Err? ==> RunOps(word, ops).error == NullPointer
    decreases |ops|
  {
    if |ops| > 0 && ApplyOp(word, ops[0]).Ok? {
      RunOpsError(ApplyOp(word, ops[0]).value, ops[1..]);
    }
  }
}

=== FILE: transformations_file.dfy ===
/** The transformations file as lines: the saver that writes the groups
    out and the loader that reads them back. A comment line starts with `#`;
    every other non-blank line holding `:` is a group line. */
module TransformationsFile {
  import opened Wrappers
  import opened JavaString
  import opened Transformations
  import opened RulesFormat

  // ---------------------------------------------------------------------
  // Loading
  // ---------------------------------------------------------------------

  /** The text a trimmed comment line carries: what follows `#`, trimmed. */
  function CommentText(l: string): string
    requires |l| > 0
  {
    Trim(l[1..])
  }

  /** A group's comment once one more comment line has been read: the
      first line starts it, later ones are joined with a line break. */
  function AddCommentLine(c: Option<string>, text: string): Option<string> {
    if c.None? then Some(text) else Some(c.value + "\n" + text)
  }

  /** The comment after reading the comment lines `ps` in turn. */
  function Attached(c: Option<string>, ps: seq<string>): Option<string>
    decreases |ps|
  {
    if |ps| == 0 then c else Attached(AddCommentLine(c, ps[0]), ps[1..])
  }

  /** What the loader makes of one line. */
  datatype LineKind = Blank | Comment(text: string) | GroupLine(group: Group) | Ignored

  /** A trimmed line that is empty is blank; one starting with `#` is a
      comment; one the group-line reader accepts starts a group; any other
      line is ignored. */
  function Classify(line: string): (k: LineKind)
    ensures k.GroupLine? <==> ParseLine(line).Some?
    ensures k.GroupLine? ==> ParseLine(line) == Some(k.group)
  {
    var l := Trim(line);
    if |l| == 0 then Blank
    else if l[0] == '#' then Comment(CommentText(l))
    else
      match ParseLine(line)
      case None => Ignored
      case Some(g) => GroupLine(g)
  }

  /** The kinds of the lines, as the reader `f` classifies them. */
  function KindsBy(f: string -> LineKind, lines: seq<string>): (ks: seq<LineKind>)
    ensures |ks| == |lines|
    ensures forall i :: 0 <= i < |lines| ==> ks[i] == f(lines[i])
  {
    seq(|lines|, i requires 0 <= i < |lines| => f(lines[i]))
  }

  lemma KindsAppend(f: string -> LineKind, a: seq<string>, b: seq<string>)
    ensures KindsBy(f, a + b) == KindsBy(f, a) + KindsBy(f, b)
  {
    var k := KindsBy(f, a + b);
    forall i | 0 <= i < |k| ensures k[i] == (KindsBy(f, a) + KindsBy(f, b))[i] {
      if i < |a| { assert (a + b)[i] == a[i]; } else { assert (a + b)[i] == b[i - |a|]; }
    }
  }

  /** A comment goes to the group read last; before the first group it is
      dropped. */
  function AttachToLast(gs: seq<Group>, text: string): (r: seq<Group>)
    ensures |r| == |gs|
    ensures forall i :: 0 <= i < |gs| - 1 ==> r[i] == gs[i]
    ensures |gs| > 0 ==> r[|gs| - 1] == gs[|gs| - 1].(comment := AddCommentLine(gs[|gs| - 1].comment, text))
  {
    if |gs| == 0 then gs
    else gs[..|gs| - 1] + [gs[|gs| - 1].(comment := AddCommentLine(gs[|gs| - 1].comment, text))]
  }

  /** One pass of the loader's loop: blank and ignored lines change nothing,
      a comment is attached, a group line appends its group. */
  function Step(gs: seq<Group>, k: LineKind): seq<Group> {
    match k
    case Blank => gs
    case Ignored => gs
    case Comment(t) => AttachToLast(gs, t)
    case GroupLine(g) => gs + [g]
  }

  function LoadKinds(gs: seq<Group>, ks: seq<LineKind>): seq<Group>
    decreases |ks|
  {
    if |ks| == 0 then gs else LoadKinds(Step(gs, ks[0]), ks[1..])
  }

  /** `loadAndParseTransformations` over the lines of the file. */
  function Load(lines: seq<string>): seq<Group> {
    LoadKinds([], KindsBy(Classify, lines))
  }

  /** A group line read after `gs` appends its group. */
  lemma ReadOneGroup(gs: seq<Group>, g: Group)
    ensures LoadKinds(gs, [GroupLine(g)]) == gs + [g]
  {
    assert [GroupLine(g)][1..] == [];
  }

  /** Reading two runs of lines is reading their concatenation. */
  lemma {:induction false} LoadKindsAppend(gs: seq<Group>, a: seq<LineKind>, b: seq<LineKind>)
    ensures LoadKinds(gs, a + b) == LoadKinds(LoadKinds(gs, a), b)
    decreases |a|
  {
    if |a| > 0 {
      assert (a + b)[0] == a[0] && (a + b)[1..] == a[1..] + b;
      LoadKindsAppend(Step(gs, a[0]), a[1..], b);
    } else {
      assert a + b == b;
    }
  }

  // ---------------------------------------------------------------------
  // Saving
  // ---------------------------------------------------------------------

  /** The saver's line for one line of a comment: `# ` and the line
      trimmed. */
  function CommentLine(p: string): string {
    "# " + Trim(p)
  }

  function CommentLinesOf(ps: seq<string>): (ls: seq<string>)
    ensures |ls| == |ps|
    ensures forall i :: 0 <= i < |ps| ==> ls[i] == CommentLine(ps[i])
  {
    seq(|ps|, i requires 0 <= i < |ps| => CommentLine(ps[i]))
  }

  /** The lines a group's comment is written as: one per line of the
      comment as `split("\n")` gives them, none for a null comment. */
  function CommentLines(c: Option<string>): seq<string> {
    if c.None? then [] else CommentLinesOf(Split(c.value, '\n'))
  }

  /** As the saver writes a group: its comment lines, then its line. */
  function GroupLinesAsWritten(g: Group): seq<string> {
    CommentLines(g.comment) + [FormatLine(g)]
  }

  function SaveLinesAsWritten(gs: seq<Group>): seq<string>
    decreases |gs|
  {
    if |gs| == 0 then [] else GroupLinesAsWritten(gs[0]) + SaveLinesAsWritten(gs[1..])
  }

  /** The group's line, then its comment lines: the layout the loader reads
      back onto the same group. */
  function GroupLines(g: Group): seq<string> {
    [FormatLine(g)] + CommentLines(g.comment)
  }

  /** `saveTransformationsToFile` with each comment written after its
      group's line. */
  function SaveLines(gs: seq<Group>): seq<string>
    decreases |gs|
  {
    if |gs| == 0 then [] else GroupLines(gs[0]) + SaveLines(gs[1..])
  }

  // ---------------------------------------------------------------------
  // Round trip
  // ---------------------------------------------------------------------

  /** A comment the file form carries: absent, or the line-break join of
      its `split("\n")` pieces, each already trimmed and within one line. */
  ghost predicate StorableComment(c: Option<string>) {
    c.None? ||
      (var ps := Split(c.value, '\n');
       |ps| >= 1 && Join(ps, '\n') == c.value && forall i :: 0 <= i < |ps| ==> Trimmed(ps[i]) && OneLine(ps[i]))
  }

  /** A group the file form carries: a clean line and a storable comment. */
  ghost predicate Storable(g: Group) {
    CleanGroup(g) && StorableComment(g.comment)
  }

  ghost predicate AllStorable(gs: seq<Group>) {
    forall i :: 0 <= i < |gs| ==> Storable(gs[i])
  }

  /** A comment line written for a trimmed piece reads back as that piece. */
  lemma ReadCommentLine(p: string)
    requires Trimmed(p)
    ensures var l := Trim(CommentLine(p)); |l| > 0 && l[0] == '#' && CommentText(l) == p
  {
    if |p| == 0 {
      ReadEmptyCommentLine();
    } else {
      ReadTextCommentLine(p);
    }
  }

  lemma ReadEmptyCommentLine()
    ensures Trim(CommentLine([])) == "#"
  {
    var s := CommentLine([]);
    assert s == "# ";
    assert TrimStart(s) == s;
    assert TrimEnd("#") == "#";
    assert s[..|s| - 1] == "#";
  }

  lemma ReadTextCommentLine(p: string)
    requires Trimmed(p) && |p| > 0
    ensures Trim(CommentLine(p)) == "# " + p
    ensures CommentText("# " + p) == p
  {
    var s := "# " + p;
    assert s[0] == '#' && s[|s| - 1] == p[|p| - 1];
    assert s[1..] == " " + p;
    assert (" " + p)[1..] == p;
    assert TrimStart(" " + p) == p;
  }

  /** The comment line written for a trimmed piece is read as that piece. */
  lemma ClassifyCommentLine(p: string)
    requires Trimmed(p)
    ensures Classify(CommentLine(p)) == Comment(p)
  {
    ReadCommentLine(p);
  }

  /** The line of a clean group is read as the group without its comment. */
  lemma ClassifyGroupLine(g: Group)
    requires CleanGroup(g)
    ensures Classify(FormatLine(g)) == GroupLine(g.(comment := None))
  {
    ParseFormatLine(g);
  }

  /** A reader that takes the line of a clean group and the comment line of
      a trimmed piece for what they were written from. */
  ghost predicate ReadsFormat(f: string -> LineKind) {
    && (forall g :: CleanGroup(g) ==> f(FormatLine(g)) == GroupLine(g.(comment := None)))
    && (forall p :: Trimmed(p) ==> f(CommentLine(p)) == Comment(p))
  }

  /** The loader's classification is such a reader. */
  lemma ClassifyReadsFormat()
    ensures ReadsFormat(Classify)
  {
    forall g | CleanGroup(g) ensures Classify(FormatLine(g)) == GroupLine(g.(comment := None)) {
      ClassifyGroupLine(g);
    }
    forall p | Trimmed(p) ensures Classify(CommentLine(p)) == Comment(p) {
      ClassifyCommentLine(p);
    }
  }

  function CommentKinds(ps: seq<string>): (ks: seq<LineKind>)
    ensures |ks| == |ps|
    ensures forall i :: 0 <= i < |ps| ==> ks[i] == Comment(ps[i])
  {
    seq(|ps|, i requires 0 <= i < |ps| => Comment(ps[i]))
  }

  lemma KindsOfComments(f: string -> LineKind, ps: seq<string>)
    requires ReadsFormat(f)
    requires forall i :: 0 <= i < |ps| ==> Trimmed(ps[i])
    ensures KindsBy(f, CommentLinesOf(ps)) == CommentKinds(ps)
  {
  }

  /** Comments read after a group are joined onto that group. */
  lemma {:induction false} ReadComments(gs: seq<Group>, h: Group, ps: seq<string>)
    ensures LoadKinds(gs + [h], CommentKinds(ps)) == gs + [h.(comment := Attached(h.comment, ps))]
    decreases |ps|
  {
    if |ps| > 0 {
      var h1 := h.(comment := AddCommentLine(h.comment, ps[0]));
      assert Step(gs + [h], Comment(ps[0])) == gs + [h1] by {
        assert (gs + [h])[..|gs|] == gs;
      }
      assert CommentKinds(ps)[1..] == CommentKinds(ps[1..]);
      ReadComments(gs, h1, ps[1..]);
    }
  }

  /** Comments read before any group are dropped. */
  lemma {:induction false} DropComments(ps: seq<string>)
    ensures LoadKinds([], CommentKinds(ps)) == []
    decreases |ps|
  {
    if |ps| > 0 {
      assert CommentKinds(ps)[1..] == CommentKinds(ps[1..]);
      DropComments(ps[1..]);
    }
  }

  /** Reading the lines `ps` from no comment gives their join. */
  lemma {:induction false} AttachedJoin(x: string, ps: seq<string>)
    requires |ps| >= 1
    ensures Attached(Some(x), ps) == Some(x + "\n" + Join(ps, '\n'))
    ensures Attached(None, ps) == Some(Join(ps, '\n'))
    decreases |ps|
  {
    if |ps| > 1 {
      AttachedJoin(x + "\n" + ps[0], ps[1..]);
      AttachedJoin(ps[0], ps[1..]);
      assert x + "\n" + ps[0] + "\n" + Join(ps[1..], '\n') == x + "\n" + (ps[0] + "\n" + Join(ps[1..], '\n'));
    }
  }

  /** The pieces a comment is written as; none for a null comment. */
  function CommentPieces(c: Option<string>): seq<string> {
    if c.None? then [] else Split(c.value, '\n')
  }

  /** How a group reads: its group line, then the pieces of its comment. */
  function GroupKinds(g: Group): seq<LineKind> {
    [GroupLine(g.(comment := None))] + CommentKinds(CommentPieces(g.comment))
  }

  /** A storable group's lines in the corrected layout read as its group
      line and its comment pieces. */
  lemma KindsOfGroup(f: string -> LineKind, g: Group)
    requires ReadsFormat(f) && Storable(g)
    ensures KindsBy(f, GroupLines(g)) == GroupKinds(g)
  {
    var ps := CommentPieces(g.comment);
    assert GroupLines(g) == [FormatLine(g)] + CommentLinesOf(ps);
    assert KindsBy(f, [FormatLine(g)]) == [GroupLine(g.(comment := None))];
    KindsAppend(f, [FormatLine(g)], CommentLinesOf(ps));
    KindsOfComments(f, ps);
  }

  /** A storable group read after `gs` is appended unchanged, comment
      included. */
  lemma ReadGroup(gs: seq<Group>, g: Group)
    requires StorableComment(g.comment)
    ensures LoadKinds(gs, GroupKinds(g)) == gs + [g]
  {
    var h := g.(comment := None);
    var ps := CommentPieces(g.comment);
    LoadKindsAppend(gs, [GroupLine(h)], CommentKinds(ps));
    ReadOneGroup(gs, h);
    ReadComments(gs, h, ps);
    if g.comment.Some? {
      AttachedJoin("", ps);
    }
  }

  /** The kinds of consecutive groups, each read as `gk` gives. */
  function ConcatKinds(gk: Group -> seq<LineKind>, gs: seq<Group>): seq<LineKind>
    decreases |gs|
  {
    if |gs| == 0 then [] else gk(gs[0]) + ConcatKinds(gk, gs[1..])
  }

  lemma AllStorableTail(gs: seq<Group>)
    requires |gs| > 0 && AllStorable(gs)
    ensures Storable(gs[0]) && AllStorable(gs[1..])
  {
    forall i | 0 <= i < |gs[1..]| ensures Storable(gs[1..][i]) {
      assert gs[1..][i] == gs[i + 1];
    }
  }

  lemma {:induction false} KindsOfSave(f: string -> LineKind, gs: seq<Group>)
    requires ReadsFormat(f) && AllStorable(gs)
    ensures KindsBy(f, SaveLines(gs)) == ConcatKinds(GroupKinds, gs)
    decreases |gs|
  {
    if |gs| > 0 {
      AllStorableTail(gs);
      KindsOfGroup(f, gs[0]);
      KindsOfSave(f, gs[1..]);
      KindsAppend(f, GroupLines(gs[0]), SaveLines(gs[1..]));
    }
  }

  /** Groups that each read back as themselves read back as the list. */
  lemma {:induction false} ReadAll(gk: Group -> seq<LineKind>, acc: seq<Group>, gs: seq<Group>)
    requires forall a, i :: 0 <= i < |gs| ==> LoadKinds(a, gk(gs[i])) == a + [gs[i]]
    ensures LoadKinds(acc, ConcatKinds(gk, gs)) == acc + gs
    decreases |gs|
  {
    if |gs| > 0 {
      var x, rest := gs[0], gs[1..];
      assert LoadKinds(acc, ConcatKinds(gk, gs)) == LoadKinds(acc + [x], ConcatKinds(gk, rest)) by {
        assert LoadKinds(acc, gk(x)) == acc + [x];
        LoadKindsAppend(acc, gk(x), ConcatKinds(gk, rest));
      }
      ReadsRest(gk, gs);
      ReadAll(gk, acc + [x], rest);
      assert acc + [x] + rest == acc + gs;
    }
  }

  lemma ReadsRest(gk: Group -> seq<LineKind>, gs: seq<Group>)
    requires |gs| > 0
    requires forall a, i :: 0 <= i < |gs| ==> LoadKinds(a, gk(gs[i])) == a + [gs[i]]
    ensures forall a, i :: 0 <= i < |gs| - 1 ==> LoadKinds(a, gk(gs[1..][i])) == a + [gs[1..][i]]
  {
    forall a, i | 0 <= i < |gs| - 1 ensures LoadKinds(a, gk(gs[1..][i])) == a + [gs[1..][i]] {
      assert gs[1..][i] == gs[i + 1];
    }
  }

  /** Saving storable groups and loading the lines gives back the same
      groups, comments included. */
  lemma SaveLoad(gs: seq<Group>)
    requires AllStorable(gs)
    ensures Load(SaveLines(gs)) == gs
  {
    ClassifyReadsFormat();
    KindsOfSave(Classify, gs);
    forall a, i | 0 <= i < |gs| ensures LoadKinds(a, GroupKinds(gs[i])) == a + [gs[i]] {
      ReadGroup(a, gs[i]);
    }
    ReadAll(GroupKinds, [], gs);
    assert [] + gs == gs;
  }

  /** The kinds of a line, a run of lines and another line. */
  lemma KindsAround(f: string -> LineKind, x: string, ls: seq<string>, y: string, ks: seq<LineKind>)
    requires KindsBy(f, ls) == ks
    ensures KindsBy(f, [x] + ls + [y]) == [f(x)] + ks + [f(y)]
    ensures KindsBy(f, ls + [y]) == ks + [f(y)]
  {
    KindsAppend(f, [x] + ls, [y]);
    KindsAppend(f, [x], ls);
    KindsAppend(f, ls, [y]);
  }

  /** As written, a group without a comment followed by a commented one. */
  lemma AsWrittenPairLines(g1: Group, g2: Group)
    requires g1.comment.None?
    ensures SaveLinesAsWritten([g1, g2]) == [FormatLine(g1)] + CommentLines(g2.comment) + [FormatLine(g2)]
  {
    assert [g1, g2][1..] == [g2];
    assert [g2][1..] == [];
    assert SaveLinesAsWritten([g2]) == GroupLinesAsWritten(g2) + SaveLinesAsWritten([]);
    assert GroupLinesAsWritten(g1) == [FormatLine(g1)];
    assert SaveLinesAsWritten([g1, g2]) == GroupLinesAsWritten(g1) + SaveLinesAsWritten([g2]);
  }

  /** As written, a single commented group. */
  lemma AsWrittenSingleLines(g: Group)
    ensures SaveLinesAsWritten([g]) == CommentLines(g.comment) + [FormatLine(g)]
  {
    assert [g][1..] == [];
    assert SaveLinesAsWritten([g]) == GroupLinesAsWritten(g) + SaveLinesAsWritten([]);
    assert GroupLinesAsWritten(g) + [] == GroupLinesAsWritten(g);
  }

  /** The as-written lines of two groups, the first without a comment, as
      the loader classifies them. */
  lemma AsWrittenPairKinds(g1: Group, g2: Group)
    requires Storable(g1) && Storable(g2) && g1.comment.None?
    ensures KindsBy(Classify, SaveLinesAsWritten([g1, g2])) ==
      [GroupLine(g1)] + CommentKinds(CommentPieces(g2.comment)) + [GroupLine(g2.(comment := None))]
  {
    var ps := CommentPieces(g2.comment);
    AsWrittenPairLines(g1, g2);
    ClassifyReadsFormat();
    KindsOfComments(Classify, ps);
    KindsAround(Classify, FormatLine(g1), CommentLinesOf(ps), FormatLine(g2), CommentKinds(ps));
  }

  /** A group line, comments and a second group line: the comments go to
      the first group. */
  lemma ReadPair(g1: Group, ps: seq<string>, g2: Group)
    ensures LoadKinds([], [GroupLine(g1)] + CommentKinds(ps) + [GroupLine(g2)]) ==
      [g1.(comment := Attached(g1.comment, ps)), g2]
  {
    var h1 := g1.(comment := Attached(g1.comment, ps));
    LoadKindsAppend([], [GroupLine(g1)] + CommentKinds(ps), [GroupLine(g2)]);
    LoadKindsAppend([], [GroupLine(g1)], CommentKinds(ps));
    ReadOneGroup([], g1);
    assert [] + [g1] == [g1];
    ReadComments([], g1, ps);
    assert [] + [h1] == [h1];
    ReadOneGroup([h1], g2);
  }

  /** As written, a group's comment is read back onto the group saved
      before it. */
  lemma CommentMovesToPreviousGroup(g1: Group, g2: Group)
    requires Storable(g1) && Storable(g2)
    requires g1.comment.None? && g2.comment.Some?
    ensures Load(SaveLinesAsWritten([g1, g2])) == [g1.(comment := g2.comment), g2.(comment := None)]
    ensures Load(SaveLinesAsWritten([g1, g2])) != [g1, g2]
  {
    var ps := CommentPieces(g2.comment);
    AsWrittenPairKinds(g1, g2);
    ReadPair(g1, ps, g2.(comment := None));
    AttachedJoin("", ps);
  }

  /** As written, the comment of the first group is dropped on reading. */
  lemma FirstCommentDropped(g: Group)
    requires Storable(g) && g.comment.Some?
    ensures Load(SaveLinesAsWritten([g])) == [g.(comment := None)]
  {
    var ps := CommentPieces(g.comment);
    AsWrittenSingleKinds(g);
    ReadAfterComments(ps, g.(comment := None));
  }

  /** The as-written lines of one group, as the loader classifies them. */
  lemma AsWrittenSingleKinds(g: Group)
    requires Storable(g)
    ensures KindsBy(Classify, SaveLinesAsWritten([g])) ==
      CommentKinds(CommentPieces(g.comment)) + [GroupLine(g.(comment := None))]
  {
    var ps := CommentPieces(g.comment);
    AsWrittenSingleLines(g);
    ClassifyReadsFormat();
    KindsOfComments(Classify, ps);
    KindsAround(Classify, "", CommentLinesOf(ps), FormatLine(g), CommentKinds(ps));
  }

  /** Comments read before any group are lost. */
  lemma ReadAfterComments(ps: seq<string>, h: Group)
    ensures LoadKinds([], CommentKinds(ps) + [GroupLine(h)]) == [h]
  {
    LoadKindsAppend([], CommentKinds(ps), [GroupLine(h)]);
    DropComments(ps);
    ReadOneGroup([], h);
    assert [] + [h] == [h];
  }

  // ---------------------------------------------------------------------
  // What the as-written layout reads back as
  // ---------------------------------------------------------------------

  /** The comment of the group saved after position `i`, none after the
      last group. */
  function NextComment(gs: seq<Group>, i: nat): Option<string> {
    if i + 1 < |gs| then gs[i + 1].comment else None
  }

  /** Each group with its key and rules, and the comment of the group saved
      after it. */
  function ShiftComments(gs: seq<Group>): (r: seq<Group>)
    ensures |r| == |gs|
    ensures forall i {:trigger r[i]} :: 0 <= i < |gs| ==> r[i] == gs[i].(comment := NextComment(gs, i))
  {
    seq(|gs|, i requires 0 <= i < |gs| => gs[i].(comment := NextComment(gs, i)))
  }

  lemma ShiftCommentsCons(gs: seq<Group>)
    requires |gs| > 0
    ensures ShiftComments(gs) == [gs[0].(comment := NextComment(gs, 0))] + ShiftComments(gs[1..])
  {
    var r, t := ShiftComments(gs), ShiftComments(gs[1..]);
    forall i | 1 <= i < |gs| ensures r[i] == t[i - 1] {
      assert gs[1..][i - 1] == gs[i];
      assert NextComment(gs[1..], i - 1) == NextComment(gs, i);
    }
    assert r == [r[0]] + t;
  }

  /** How a group reads in the as-written layout: its comment pieces, then
      its group line. */
  function AsWrittenKinds(g: Group): seq<LineKind> {
    CommentKinds(CommentPieces(g.comment)) + [GroupLine(g.(comment := None))]
  }

  lemma KindsOfGroupAsWritten(f: string -> LineKind, g: Group)
    requires ReadsFormat(f) && Storable(g)
    ensures KindsBy(f, GroupLinesAsWritten(g)) == AsWrittenKinds(g)
  {
    var ps := CommentPieces(g.comment);
    assert GroupLinesAsWritten(g) == CommentLinesOf(ps) + [FormatLine(g)];
    assert KindsBy(f, [FormatLine(g)]) == [GroupLine(g.(comment := None))];
    KindsAppend(f, CommentLinesOf(ps), [FormatLine(g)]);
    KindsOfComments(f, ps);
  }

  lemma {:induction false} KindsOfSaveAsWritten(f: string -> LineKind, gs: seq<Group>)
    requires ReadsFormat(f) && AllStorable(gs)
    ensures KindsBy(f, SaveLinesAsWritten(gs)) == ConcatKinds(AsWrittenKinds, gs)
    decreases |gs|
  {
    if |gs| > 0 {
      AllStorableTail(gs);
      KindsOfGroupAsWritten(f, gs[0]);
      KindsOfSaveAsWritten(f, gs[1..]);
      KindsAppend(f, GroupLinesAsWritten(gs[0]), SaveLinesAsWritten(gs[1..]));
    }
  }

  /** The comment pieces written just before the group line that follows
      the first group. */
  function NextPieces(gs: seq<Group>): seq<string> {
    if |gs| > 1 then CommentPieces(gs[1].comment) else []
  }

  /** The as-written kinds regrouped from the first group line on: each
      group line followed by the comment pieces of the next group. */
  function TrailKinds(gs: seq<Group>): seq<LineKind>
    decreases |gs|
  {
    if |gs| == 0 then []
    else [GroupLine(gs[0].(comment := None))] + CommentKinds(NextPieces(gs)) + TrailKinds(gs[1..])
  }

  lemma {:induction false} Regroup(gs: seq<Group>)
    requires |gs| > 0
    ensures ConcatKinds(AsWrittenKinds, gs) == CommentKinds(CommentPieces(gs[0].comment)) + TrailKinds(gs)
    decreases |gs|
  {
    var c0, l0 := CommentKinds(CommentPieces(gs[0].comment)), [GroupLine(gs[0].(comment := None))];
    if |gs| == 1 {
      assert ConcatKinds(AsWrittenKinds, gs) == c0 + l0 by {
        assert ConcatKinds(AsWrittenKinds, gs[1..]) == [];
      }
      assert TrailKinds(gs) == l0 by {
        assert TrailKinds(gs[1..]) == [];
        assert CommentKinds(NextPieces(gs)) == [];
      }
    } else {
      var c1, t1 := CommentKinds(NextPieces(gs)), TrailKinds(gs[1..]);
      assert ConcatKinds(AsWrittenKinds, gs[1..]) == c1 + t1 by {
        Regroup(gs[1..]);
        assert gs[1..][0] == gs[1];
      }
      assert ConcatKinds(AsWrittenKinds, gs) == (c0 + l0) + (c1 + t1);
      assert TrailKinds(gs) == l0 + c1 + t1;
      Assoc(c0, l0, c1, t1);
    }
  }

  lemma Assoc(a: seq<LineKind>, b: seq<LineKind>, c: seq<LineKind>, d: seq<LineKind>)
    ensures (a + b) + (c + d) == a + (b + c + d)
  {
  }

  /** The comment pieces of a storable comment, read after a group line,
      give that comment back. */
  lemma AttachedPieces(c: Option<string>)
    requires StorableComment(c)
    ensures Attached(None, CommentPieces(c)) == c
  {
    if c.Some? {
      AttachedJoin("", CommentPieces(c));
    }
  }

  lemma {:induction false} ReadTrail(acc: seq<Group>, gs: seq<Group>)
    requires AllStorable(gs)
    ensures LoadKinds(acc, TrailKinds(gs)) == acc + ShiftComments(gs)
    decreases |gs|
  {
    if |gs| == 0 {
      assert acc + ShiftComments(gs) == acc;
    } else {
      AllStorableTail(gs);
      ReadTrail(acc + [gs[0].(comment := NextComment(gs, 0))], gs[1..]);
      ReadTrailStep(acc, gs);
    }
  }

  /** One step of `ReadTrail`: the first group, then the rest as the
      induction hypothesis gives it. */
  lemma ReadTrailStep(acc: seq<Group>, gs: seq<Group>)
    requires |gs| > 0 && AllStorable(gs)
    requires var x := gs[0].(comment := NextComment(gs, 0));
      LoadKinds(acc + [x], TrailKinds(gs[1..])) == acc + [x] + ShiftComments(gs[1..])
    ensures LoadKinds(acc, TrailKinds(gs)) == acc + ShiftComments(gs)
  {
    ReadTrailHead(acc, gs);
    ShiftAfter(acc, gs);
  }

  lemma ReadTrailHead(acc: seq<Group>, gs: seq<Group>)
    requires |gs| > 0 && AllStorable(gs)
    ensures LoadKinds(acc, TrailKinds(gs)) ==
      LoadKinds(acc + [gs[0].(comment := NextComment(gs, 0))], TrailKinds(gs[1..]))
  {
    var chunk := [GroupLine(gs[0].(comment := None))] + CommentKinds(NextPieces(gs));
    LoadKindsAppend(acc, chunk, TrailKinds(gs[1..]));
    ReadFirstOfTrail(acc, gs);
  }

  lemma ShiftAfter(acc: seq<Group>, gs: seq<Group>)
    requires |gs| > 0
    ensures acc + [gs[0].(comment := NextComment(gs, 0))] + ShiftComments(gs[1..]) == acc + ShiftComments(gs)
  {
    var x := gs[0].(comment := NextComment(gs, 0));
    ShiftCommentsCons(gs);
    assert acc + [x] + ShiftComments(gs[1..]) == acc + ([x] + ShiftComments(gs[1..]));
  }

  /** The first group line of the trail and the comment pieces after it
      read as the first group with the next group's comment. */
  lemma ReadFirstOfTrail(acc: seq<Group>, gs: seq<Group>)
    requires |gs| > 0 && AllStorable(gs)
    ensures LoadKinds(acc, [GroupLine(gs[0].(comment := None))] + CommentKinds(NextPieces(gs))) ==
      acc + [gs[0].(comment := NextComment(gs, 0))]
  {
    var h := gs[0].(comment := None);
    var q := NextPieces(gs);
    assert Attached(None, q) == NextComment(gs, 0) by {
      if |gs| > 1 {
        assert Storable(gs[1]);
        AttachedPieces(gs[1].comment);
      }
    }
    LoadKindsAppend(acc, [GroupLine(h)], CommentKinds(q));
    ReadOneGroup(acc, h);
    ReadComments(acc, h, q);
  }

  /** Saving storable groups in the as-written layout and loading the
      lines: every group keeps its key and rules and takes the comment of
      the group saved after it; the last group reads back without one. */
  lemma AsWrittenLoad(gs: seq<Group>)
    requires AllStorable(gs)
    ensures Load(SaveLinesAsWritten(gs)) == ShiftComments(gs)
  {
    if |gs| == 0 {
      assert SaveLinesAsWritten(gs) == [];
      assert KindsBy(Classify, []) == [];
    } else {
      var ps := CommentPieces(gs[0].comment);
      ClassifyReadsFormat();
      KindsOfSaveAsWritten(Classify, gs);
      Regroup(gs);
      LoadKindsAppend([], CommentKinds(ps), TrailKinds(gs));
      DropComments(ps);
      ReadTrail([], gs);
      assert [] + ShiftComments(gs) == ShiftComments(gs);
    }
  }

  /** Read back in the as-written layout, storable groups stay storable. */
  lemma ShiftStorable(gs: seq<Group>)
    requires AllStorable(gs)
    ensures AllStorable(ShiftComments(gs))
  {
    forall i | 0 <= i < |gs| ensures Storable(ShiftComments(gs)[i]) {
      assert Storable(gs[i]);
      if i + 1 < |gs| {
        assert Storable(gs[i + 1]);
      }
    }
  }

  /** No group carries a comment. */
  ghost predicate Uncommented(gs: seq<Group>) {
    forall i :: 0 <= i < |gs| ==> gs[i].comment.None?
  }

  /** Without comments, the as-written layout reads back as the groups
      themselves. */
  lemma AsWrittenLoadUncommented(gs: seq<Group>)
    requires AllStorable(gs) && Uncommented(gs)
    ensures Load(SaveLinesAsWritten(gs)) == gs
  {
    AsWrittenLoad(gs);
    ShiftUncommented(gs);
  }

  /** Shifting comments changes nothing when there are none. */
  lemma ShiftUncommented(gs: seq<Group>)
    requires Uncommented(gs)
    ensures ShiftComments(gs) == gs
  {
    var r := ShiftComments(gs);
    forall i | 0 <= i < |gs| ensures r[i] == gs[i] {
      assert NextComment(gs, i) == gs[i].comment by {
        if i + 1 < |gs| {
          assert gs[i + 1].comment.None?;
        }
      }
    }
  }

  /** The comment lines written for a storable comment are single lines. */
  lemma CommentLinesOneLine(c: Option<string>)
    requires StorableComment(c)
    ensures forall l :: l in CommentLines(c) ==> OneLine(l)
  {
    if c.Some? {
      var ps := Split(c.value, '\n');
      forall i | 0 <= i < |ps| ensures OneLine(CommentLine(ps[i])) {
        TrimAvoids(ps[i], '\n');
        TrimAvoids(ps[i], '\r');
      }
    }
  }

  /** Every line the saver writes for storable groups, in either layout, is
      one line for `readLine`: the loader sees exactly these lines. */
  lemma {:induction false} SavedLinesAreLines(gs: seq<Group>)
    requires AllStorable(gs)
    ensures forall l :: l in SaveLines(gs) ==> OneLine(l)
    ensures forall l :: l in SaveLinesAsWritten(gs) ==> OneLine(l)
    decreases |gs|
  {
    if |gs| > 0 {
      AllStorableTail(gs);
      SavedLinesAreLines(gs[1..]);
      FormatLineOneLine(gs[0]);
      CommentLinesOneLine(gs[0].comment);
    }
  }
}

=== FILE: wrappers.dfy ===
/** Failure-aware values shared by every part of the engine: `Option` stands
    for a Java reference that may be null, `Result` for a computation that
    either returns a value or throws one of the exceptions the engine raises. */
module Wrappers {

  /** A possibly-null Java reference. */
  datatype Option<+T> = None | Some(value: T) {
    function GetOr(default: T): T {
      match this
      case Some(v) => v
      case None => default
    }
  }

  /** The exceptions the engine can throw, one constructor per cause. */
  datatype Exception =
    | UnknownRoot       // generate: "Racine inconnue"
    | UnknownScheme     // generate: "Schème inconnu"
    | SchemeNotFound    // updateScheme / deleteScheme on an absent scheme
    | InvalidRoot       // detectRootType on a root that is not three letters
    | IndexOutOfBounds  // reading a root letter past the end of the root
    | NullPointer       // a replace operation whose `from` or `to` is null

  /** Either a value or the exception that replaced it. */
  datatype Result<+T> = Ok(value: T) | Err(error: Exception) {
    predicate IsFailure() {
      Err?
    }

    function PropagateFailure<U>(): Result<U>
      requires Err?
    {
      Err(error)
    }

    function Extract(): T
      requires Ok?
    {
      value
    }
  }
}
